=== FILE: README.md ===
# Exam management: a Dafny model of the core

This project models the core of an ASP.NET exam-management web application.
Admins, teachers and students share one database:

- **Users, subjects, enrollments, exams and submissions.** Teachers and students
  are enrolled in subjects. Teachers publish exams for a subject and grade the PDF
  submissions students upload.
- **Admins** manage accounts and export them as CSV.
- **Files** (avatars, submissions, exports) are written under a `Storage` folder
  and served back through a mediating controller.

The application deliberately ships weakened handlers. The model follows the code
**as written** and proves what the code actually does, including the places where
the code does less than its comments suggest.

The model is written in Dafny's terms:

- **The database** is a value `Db.Store`.
  - Users, exams and submissions are sequences in row order.
  - Enrollments are a set of `(user, subject)` keys.
  - Each table has its own id counter.
  - The ghost predicate `Db.Valid` collects the keys and references the data
    model declares: unique ids, unique usernames, composite enrollment keys,
    foreign keys and column widths.
- **Database operations** are functions that return `Result`s. The delete
  behaviours (cascade, restrict) are part of their contracts. A handler that
  saves in two steps is modelled with `Effect`, which carries a result together
  with the store as it was left, so a failed second step can leave the first
  one committed.
- **Each controller action** is a function
  `(principal, store, input) -> Reply(response, store', files written)`.
  - The `[Authorize]` and `[AllowAnonymous]` attributes become a `Web.Policy`
    per action (`Routes.PolicyOf`).
  - The start-up middleware turns every 401 outside `/api` into a redirect to
    `/Auth/Login` (`Web.Denied`).
- **Password hashing** is an uninterpreted `PasswordHasher` pair of functions.
  `AuthService.Sound` states the one property the model relies on: a password
  verifies against its own hash.
- **The host** is a `Web.Host` value: `Path.GetFullPath`, `File.Exists` and the
  extension-to-MIME table. The GUIDs and clock readings a handler draws are
  parameters.
- **String helpers** replace the .NET calls the handlers rely on:
  - `string.Trim`, ASCII `ToLower`, ordinal `Contains`/`StartsWith`;
  - `int.ToString` and `int.TryParse`;
  - `Path.GetFileName`, `Path.GetExtension` and `Path.Combine`, on `/`-separated
    paths.
- **Two readers** act as partners of the writers:
  - an RFC 4180 field and record reader for the CSV writer (`Csv`);
  - a reader for single-quoted SQL literals, for the statements built by string
    concatenation (`Quoting`);
  - brace escaping, for the `string.Format` step the data layer applies to a raw
    statement before sending it (`RawSql`).

Properties proved include:

- every store operation preserves `Valid`;
- at most one submission per (exam, student);
- CSV escaping and export rows read back to their fields (section 2 of RFC 4180);
- server-generated storage names are plain file names and determine the exam
  and student;
- validation chains decide in source order;
- a registration, a password change or the seeded admin can sign in afterwards.

Because the code is modelled as written, some proved properties are the code's
weaknesses, stated plainly:

- an anonymous caller reads any user's details;
- any signed-in user can grade, or delete a classmate;
- the API accepts uploads the page refuses and serves them to anyone;
- a failed enrollment leaves a half-registered account.

## Model

| member | source | states |
|---|---|---|
| Entities.RoleOrdinals | exam_management/Models/Entities.cs:6-11 | The role enum has exactly three values, Admin=0, Teacher=1 and Student=2; an ordinal maps back to a role exactly when it is 0..2 |
| Entities.GenderOrdinals | exam_management/Models/Entities.cs:13-18 | The gender enum has exactly three values, Male=0, Female=1 and Other=2, with the same two-way correspondence |
| Db.InitialStoreValid | exam_management/Data/AppDbContext.cs:54-60 | The empty database with the seeded subjects satisfies every key and reference rule, and the subjects that exist are exactly ids 1..5 |
| Db.FindUser | exam_management/Services/UserService.cs:23-26 | A found user is in the table with that id; nothing is found exactly when no row has the id |
| Db.FindExam | exam_management/Services/ExamService.cs:100-108 | A found exam is in the table with that id; nothing is found exactly when no row has the id |
| Db.FindSubmission | exam_management/Services/ExamService.cs:138-147 | A found submission is in the table with that id; nothing is found exactly when no row has the id |
| Db.SubjectIdsOf | exam_management/Services/ExamService.cs:23-26 | The subject ids of a user are exactly those of the user's enrollments |
| Db.AddUser | exam_management/Data/AppDbContext.cs:21-23 | Inserting a user fails on an over-long username or full name, or on a username already in the table; otherwise it appends exactly that user under the next id and changes nothing else |
| Db.AddUserPreservesValid | exam_management/Data/AppDbContext.cs:21-23 | A successful user insert keeps ids and usernames unique and every other rule intact |
| Db.AddEnrollments | exam_management/Data/AppDbContext.cs:26-38 | Adding enrollments succeeds exactly when the ids are distinct, are not already enrolled, name existing subjects, and the user exists; the new enrollment set is the old one plus those pairs, and nothing else changes |
| Db.AddEnrollmentsPreservesValid | exam_management/Data/AppDbContext.cs:26-38 | Successful enrollment inserts keep the store valid |
| Db.RemoveUser | exam_management/Data/AppDbContext.cs:29-45 | Deleting a user is refused exactly when a submission to an exam the user did not create names the user as its student. Otherwise the user row goes, and by cascade its enrollments, the exams it created and the submissions to those exams; the other submissions stay as they are, those the user graded included, and nothing else changes |
| Db.RemoveUserPreservesValid | exam_management/Models/Entities.cs:83-85 | A permitted user delete keeps every reference valid, the exams' creators and the submissions' students included; the grading user is not a reference |
| Db.UpdateUser | exam_management/Services/UserService.cs:45-49 | Saving a user succeeds exactly when the id exists, the row fits its columns and its username belongs to no other row; it replaces the row with that id and leaves every other row and table as it was |
| Db.ReplaceUser | exam_management/Services/UserService.cs:45-49 | The rows keep their positions; the row with the given id becomes the new row |
| Db.UpdateUserPreservesValid | exam_management/Services/UserService.cs:45-49 | A successful save keeps the store valid |
| Db.UpdatedUserRows | exam_management/Services/UserService.cs:45-49 | After a save, every row is the saved one or an untouched row with another id |
| Db.SetPhoneNumber | exam_management/Services/UserService.cs:111-131 | The raw phone update changes only the phone number of the row with the id |
| Db.SetPhoneNumberPreservesValid | exam_management/Services/UserService.cs:111-131 | Setting a phone number keeps the store valid |
| Db.PointwiseUserChange | exam_management/Services/UserService.cs:45-49 | Any edit that keeps each row's id and username and fits the columns keeps the store valid |
| Db.AddExam | exam_management/Models/Entities.cs:80-85 | Inserting an exam succeeds exactly when its subject and its creator exist, and a missing one is a foreign-key failure; the exam is appended under the next exam id |
| Db.AddExamPreservesValid | exam_management/Models/Entities.cs:80-85 | A successful exam insert keeps the store valid, the new exam's subject and creator references included |
| Db.RemoveExam | exam_management/Data/AppDbContext.cs:47-51 | Deleting an exam removes it and, by cascade, exactly its submissions; nothing else changes |
| Db.RemoveExamPreservesValid | exam_management/Data/AppDbContext.cs:47-51 | The cascade leaves no submission pointing at a missing exam |
| Db.AddSubmission | exam_management/Data/AppDbContext.cs:41-51 | Inserting a submission succeeds exactly when its exam and its student exist; the grading user is a plain column and is not checked; the row is appended under the next id |
| Db.AddSubmissionPreservesValid | exam_management/Data/AppDbContext.cs:41-51 | A successful submission insert keeps the store valid |
| Db.ReplaceSubmission | exam_management/Services/ExamService.cs:112-117 | Replacing a submission changes only the row with that id, in place |
| Db.ReplaceSubmissionPreservesValid | exam_management/Services/ExamService.cs:112-117 | Replacing a submission with one for the same exam and student keeps the store valid, whatever grading user it names |
| Seqs.FilterNoDuplicates | exam_management/Services/UserService.cs:88-104 | Filtering a duplicate-free list gives a duplicate-free list |
| DbInitializer.Initialize | exam_management/Data/DbInitializer.cs:8-31 | With an admin present, the store is unchanged; otherwise exactly one row is appended: user "admin", role Admin, gender Other, hash of "Admin@123". The insert fails only when a non-admin already holds the name "admin" |
| DbInitializer.InitializeIdempotent | exam_management/Data/DbInitializer.cs:14-30 | Running the seeding twice gives the same store as running it once |
| DbInitializer.FreshDatabaseAdminSignsIn | exam_management/Data/DbInitializer.cs:14-28 | On a fresh database the seeded store is valid and "admin" / "Admin@123" authenticates as the seeded row |
| ExamService.ExamsBySubject | exam_management/Services/ExamService.cs:16-19 | Exactly the exams with that subject id |
| ExamService.ExamsOfEnrolledSubjects | exam_management/Services/ExamService.cs:21-45 | Exactly the exams whose subject the user is enrolled in, whatever the user's role; the student and teacher queries are the same function |
| ExamService.EnrolledExamsAreSubjectExams | exam_management/Services/ExamService.cs:21-45 | An exam is among the enrolled exams exactly when it is among the subject's exams for one of the user's subjects |
| ExamService.GetExamById | exam_management/Services/ExamService.cs:47-50 | A found exam has the id and an existing subject; nothing is found exactly when no exam with that id has an existing subject |
| ExamService.GetExamByIdIsKeyLookup | exam_management/Services/ExamService.cs:47-50 | On a valid store the subject join never loses a row: the lookup is the primary-key lookup |
| ExamService.InsertExamStatement | exam_management/Services/ExamService.cs:73-92 | The insert statement starts with the fixed column list |
| ExamService.InsertStatementSent | exam_management/Services/ExamService.cs:76-81 | Formatting the statement gives the statement built from the formatted title and content, and fails exactly when the title or the content does not format |
| ExamService.InsertExamLiterals | exam_management/Services/ExamService.cs:77-79 | How the database reads a statement it receives. The first SQL literal reads back as the title. The content literal reads back as a value followed by the statement's closing parenthesis alone exactly when the content's single quotes come in pairs and the value has each pair read as one quote; it reads back as the content itself exactly when the content has no quote |
| ExamService.AddExam | exam_management/Services/ExamService.cs:73-92 | Adding an exam succeeds exactly when the title formats, the content formats to a text whose single quotes come in pairs, and the subject and creator exist. A brace that does not format is a format failure before anything is sent; a lone quote makes the statement fail, which is the model's rule (see Left out); any other failure is the foreign key's. A success adds the exam with the formatted title and the content formatted and undoubled, under a fresh id, and changes nothing but the exams table and its counter |
| ExamService.StoredDraft | exam_management/Services/ExamService.cs:76-81 | An accepted draft's title is the stored title with its braces doubled, and its content is the stored content with its quotes and then its braces doubled |
| ExamService.AddExamThenFind | exam_management/Services/ExamService.cs:73-92 | After adding an exam, the store is valid and looking the new id up finds exactly that exam |
| ExamService.DeleteExam | exam_management/Services/ExamService.cs:100-108 | An unknown id is a no-op; otherwise the exam and exactly its submissions go, and users and enrollments are kept |
| ExamService.StudentSubmission | exam_management/Services/ExamService.cs:149-153 | A found submission matches both ids; none is found exactly when no submission matches both |
| ExamService.SubmissionsForExam | exam_management/Services/ExamService.cs:130-136 | Exactly the submissions with that exam id |
| ExamService.SubmitExam | exam_management/Services/ExamService.cs:110-128 | Updating an existing submission always succeeds; a new one is inserted exactly when the exam and student exist; users, exams and enrollments are untouched |
| ExamService.SubmitThenFind | exam_management/Services/ExamService.cs:110-128 | Afterwards the pair's submission carries the new path and time; an existing row keeps its score and grading user, and a new row is ungraded |
| ExamService.SubmitExamPreservesInvariants | exam_management/Services/ExamService.cs:110-128 | Submitting keeps the store valid and at most one submission per (exam, student) |
| ExamService.GradeSubmission | exam_management/Services/ExamService.cs:138-147 | Only the submission with the id gets the score and the grading user's id, whether or not that user has a row, and an unknown id changes nothing |
| ExamService.GradeSubmissionPreservesInvariants | exam_management/Services/ExamService.cs:138-147 | Grading keeps the store valid and the one-per-pair rule, and the graded row carries the score |
| UserService.CreateUser | exam_management/Services/UserService.cs:28-43 | The stored row is the given user under the next id with the hash of the password, and one enrollment per subject id; a taken name or an over-long field adds nothing; a failed enrollment leaves the user saved |
| UserService.CreateUserPreservesValid | exam_management/Services/UserService.cs:28-43 | Whatever the outcome, the store left behind is valid |
| UserService.DeleteUser | exam_management/Services/UserService.cs:51-59 | An unknown id is a no-op. Otherwise the user is removed with the cascades, which fails exactly when a submission to an exam the user did not create names the user as its student |
| UserService.GetUserById | exam_management/Services/UserService.cs:23-26 | A user is found exactly when a row has the id; the row found has that id, and on a valid store it is the only such row |
| UserService.ChangePassword | exam_management/Services/UserService.cs:61-69 | Only the password hash of that user changes, to the hash of the new password |
| UserService.ChangePasswordPreservesValid | exam_management/Services/UserService.cs:61-69 | Changing a password keeps the store valid |
| UserService.ChangePasswordThenAuthenticate | exam_management/Services/UserService.cs:61-69 | After a change, the user signs in with the new password |
| UserService.SearchUsers | exam_management/Services/UserService.cs:71-77 | Exactly the users whose username or full name contains the term |
| UserService.IsUsernameTaken | exam_management/Services/UserService.cs:79-86 | False for a blank name; otherwise true exactly when a username equals it ignoring case |
| UserService.ExactNameIsTaken | exam_management/Services/UserService.cs:79-86 | Every stored non-blank username counts as taken |
| UserService.StudentsOfTeacher | exam_management/Services/UserService.cs:88-104 | Empty when the teacher has no subjects; otherwise exactly the Student-role users sharing a subject with the teacher |
| UserService.StudentsOfTeacherListedOnce | exam_management/Services/UserService.cs:88-104 | No student is listed twice |
| UserService.PhoneUpdateStatement | exam_management/Services/UserService.cs:112-119 | The statement as built starts with the fixed prefix, and its literal reads back as exactly the phone number followed by the id clause if and only if the number has no single quote |
| UserService.PhoneStatementReads | exam_management/Services/UserService.cs:116 | The statement's literal reads back as a value followed by exactly the id clause if and only if the number's quotes come in pairs and the value is the number with each pair read as one quote |
| UserService.PhoneStatementSent | exam_management/Services/UserService.cs:116-119 | Formatting the statement gives the statement built from the formatted number, and fails exactly when the number does not format |
| UserService.FailureMessage | exam_management/Services/UserService.cs:121-130 | A wrapped failure's message starts with its kind and contains the statement |
| UserService.UpdatePhoneNumber | exam_management/Services/UserService.cs:111-131 | The update succeeds exactly when the number formats to a text whose single quotes come in pairs, and then sets only that user's phone, to the number with each doubled brace and each doubled quote read as one. A brace that does not format fails with a "Database Error" message; a lone quote fails with an "SQL Error" message, which is the model's rule (see Left out); either message contains the statement as built |
| AuthService.Authenticate | exam_management/Services/AuthService.cs:67-75 | A user is returned exactly when one has that username and the password verifies against its hash |
| AuthService.RegisterStudent | exam_management/Services/AuthService.cs:77-105 | An existing username adds nothing; a success appends one user with the hash of the password, role Student unless one is given, and one enrollment per subject id; a failure commits at most the user row |
| AuthService.RegisterThenAuthenticate | exam_management/Services/AuthService.cs:77-105 | A registered user is valid in the store and authenticates with the registration password |
| Text.Trim | exam_management/Controllers/View/AuthController.cs:33 | The trimmed string neither starts nor ends with white space |
| Text.TrimIsSlice | exam_management/Controllers/View/AuthController.cs:33 | The trimmed string is a slice of the input with only white space on each side |
| Text.BlankIffTrimEmpty | exam_management/Controllers/View/AuthController.cs:26-30 | A string is null-or-white-space exactly when trimming empties it |
| Text.TrimIdempotent | exam_management/Controllers/View/AdminController.cs:95-96 | Trimming twice is trimming once |
| Text.ToLower | exam_management/Controllers/View/StudentController.cs:91 | Lower-casing keeps the length and maps each letter A-Z to a-z |
| Text.Truncate | exam_management/Controllers/View/AdminController.cs:73-76 | The result is a prefix of at most n characters, and the input itself when short enough |
| Text.NatToStringRoundTrip | exam_management/Controllers/View/StudentController.cs:106 | The decimal digits of a number read back as the number |
| Text.IntToString | exam_management/Controllers/View/StudentController.cs:106 | The text is digits, with a leading minus exactly for negative numbers |
| Text.IntToStringInjective | exam_management/Controllers/View/StudentController.cs:106 | Different numbers print differently |
| Text.ParseInt32Reads | exam_management/Controllers/View/TeacherController.cs:311 | Parsing accepts exactly text that, between number white space, is a sign allowed for the number, leading zeros and the number's decimal digits, for a number in the 32-bit range, and returns that number |
| Text.ParseInt32OfIntToString | exam_management/Controllers/View/TeacherController.cs:311 | Parsing the text of a 32-bit number gives the number back |
| Paths.FileName | exam_management/Controllers/View/SecureFileController.cs:51 | The file name is the part after the last separator: a suffix of the path with no separator in it |
| Paths.FileNameOfBareName | exam_management/Controllers/View/SecureFileController.cs:88 | A name without separators is its own file name |
| Paths.Extension | exam_management/Controllers/View/StudentController.cs:91 | The extension is empty or the suffix starting at the last dot of the final segment |
| Paths.ExtensionOfSuffix | exam_management/Controllers/View/HomeController.cs:108 | A name built from a stem and a clean extension has that extension |
| Paths.Combine | exam_management/Controllers/View/SecureFileController.cs:55-56 | Combining with an empty part or a rooted second part follows Path.Combine's rules |
| Paths.CombineJoins | exam_management/Controllers/View/SecureFileController.cs:55-56 | Two non-empty relative parts are joined by exactly one separator |
| Quoting.ReadDoubled | exam_management/Controllers/View/AdminController.cs:36 | A value with its quotes doubled, closed by a quote, reads back as the value |
| Quoting.ReadIsDoubled | exam_management/Controllers/View/AdminController.cs:36 | Whatever reads back was written with its quotes doubled |
| Quoting.UndoubledMisread | exam_management/Services/ExamService.cs:73-92 | A literal whose quotes are not doubled never reads back as itself |
| Quoting.UndoubledInverts | exam_management/Services/ExamService.cs:79 | A literal body stands for a value exactly when it is that value with its quotes doubled |
| Quoting.UndoubledOfQuoteFree | exam_management/Services/UserService.cs:116 | A body without quotes stands for itself |
| Quoting.LiteralReads | exam_management/Services/UserService.cs:116 | A body pasted between quotes reads back as a value followed by exactly the text after the closing quote if and only if the body's quotes come in pairs and it stands for that value |
| RawSql.FormatInverts | exam_management/Services/UserService.cs:119 | A raw statement formats to a text exactly when it is that text with every brace doubled |
| RawSql.FormatOfBraceFree | exam_management/Services/UserService.cs:119 | A text without braces formats to itself |
| RawSql.IntTextBraceFree | exam_management/Services/ExamService.cs:79 | The printed form of a number has no brace |
| RawSql.FormatConcat | exam_management/Services/ExamService.cs:81 | Where no brace stands on both sides of a seam, the joined text formats exactly when both parts do, to the joined results |
| RawSql.FormatAround | exam_management/Services/UserService.cs:116-119 | A text between two brace-free texts formats on its own and the frame stays as it is |
| RawSql.FormatAroundTwo | exam_management/Services/ExamService.cs:76-81 | Two texts in a brace-free frame: the whole formats exactly when both do, to the frame around the results |
| RawSql.FormatDoubled | exam_management/Services/ExamService.cs:79 | Doubling the single quotes of a title and formatting it can be done in either order |
| RawSql.LiteralValueInverts | exam_management/Services/UserService.cs:116-119 | A pasted text stores a value exactly when it is the value with its quotes doubled and then its braces doubled |
| RawSql.LiteralValueOfPlain | exam_management/Services/UserService.cs:116-119 | A text with no quote and no brace is stored as it is |
| Csv.Quote | exam_management/Controllers/View/AdminController.cs:36 | The quoted value is wrapped in double quotes |
| Csv.Escape | exam_management/Controllers/View/AdminController.cs:27-46 | Empty stays empty; a value is unchanged exactly when it starts with no formula character and has no comma, LF, CR or quote; otherwise it is quoted; the result never starts with a formula character |
| Csv.EscapedPlainOrQuoted | exam_management/Controllers/View/AdminController.cs:27-46 | An unchanged value has no comma or quote; a changed value is the quoted form |
| Csv.EscapeRoundTrip | exam_management/Controllers/View/AdminController.cs:27-46 | Reading an escaped value as one CSV field gives back the value |
| Csv.FieldRoundTrip | exam_management/Controllers/View/AdminController.cs:27-46 | An encoded field followed by a comma or the end reads back as its value |
| Csv.RecordRoundTrip | exam_management/Controllers/View/AdminController.cs:27-46 | A comma-joined line of encoded fields reads back as the list of values |
| FileNames.IntTextIsStem | exam_management/Controllers/View/StudentController.cs:106 | A printed id uses only digits and the minus sign |
| FileNames.SubmissionName | exam_management/Controllers/View/StudentController.cs:106 | The submission name ends with the extension and, before it, uses only name-safe characters |
| FileNames.AvatarName | exam_management/Controllers/View/HomeController.cs:108 | The avatar name ends with the extension and, before it, uses only name-safe characters |
| FileNames.SubmissionNameIsPlain | exam_management/Controllers/Api/StudentApiController.cs:78 | A generated submission name passes the download sanitiser unchanged |
| FileNames.AvatarNameIsPlain | exam_management/Controllers/View/HomeController.cs:108 | A generated avatar name passes the download sanitiser unchanged |
| FileNames.SubmissionNameInjective | exam_management/Controllers/View/StudentController.cs:106 | Two equal submission names, with GUIDs and extensions of equal length, have the same exam, student, GUID and extension |
| Web.Admit | exam_management/Controllers/View/SecureFileController.cs:111-113 | Admission: open actions admit everyone; otherwise a signed-in caller in the right role; an anonymous caller is challenged |
| Web.Denied | exam_management/Program.cs:178-186 | A challenge becomes a redirect to the login page, a wrong role a 403; nothing is stored or written |
| Routes.AnonymousReach | exam_management/Controllers/View/AdminController.cs:50-52 | An anonymous caller reaches exactly the admin user list and detail, the exam form, the auth pages and the submission download |
| Routes.StudentReach | exam_management/Controllers/View/TeacherController.cs:12 | A student reaches everything except the admin-only actions, five teacher-only actions and the export download |
| Routes.TeacherReach | exam_management/Controllers/View/StudentController.cs:9 | A teacher reaches everything except the admin-only actions, the export download and the student actions |
| Routes.RefusalIsRoleMismatch | exam_management/Controllers/View/AdminController.cs:11 | A refusal happens exactly when the action demands a role the signed-in caller lacks |
| Routes.PolicyFollowsAttributes | exam_management/Controllers/View/AdminController.cs:11-52 | Each action's policy is what its class attribute and its own attribute give together: `[AllowAnonymous]` on either admits anyone, a role on either demands that role, and a bare `[Authorize]` demands a signed-in caller |
| SecureFileController.ContentTypeFor | exam_management/Controllers/View/SecureFileController.cs:26-42 | ".svg" in any case gives image/svg+xml; otherwise the table's type, or application/octet-stream when unmapped |
| SecureFileController.ServeFile | exam_management/Controllers/View/SecureFileController.cs:44-67 | A blank name is a bad request; a file is served exactly when the final segment is plain, its combined path resolves inside the folder and exists, and then from that path |
| SecureFileController.GetAvatar | exam_management/Controllers/View/SecureFileController.cs:69-74 | Signed-in callers get the avatar folder's ServeFile; anonymous callers go to the login page |
| SecureFileController.GetSubmission | exam_management/Controllers/View/SecureFileController.cs:76-109 | The name is reduced to its final segment and served from the submission folder, with no caller check |
| SecureFileController.GetSubmissionIsServeFile | exam_management/Controllers/View/SecureFileController.cs:76-109 | The database lookup never changes the outcome: the response is the plain ServeFile of the name |
| SecureFileController.GetSubmissionIgnoresCaller | exam_management/Controllers/View/SecureFileController.cs:76-109 | Any two callers, signed in or not, get the same reply |
| SecureFileController.WhitelistIsContainment | exam_management/Controllers/View/SecureFileController.cs:186-195 | The whitelist's "ends with or contains" test is just a containment test |
| SecureFileController.GetExport | exam_management/Controllers/View/SecureFileController.cs:111-227 | Only admins get a file; a name with a traversal sequence resolves from the content root and is served when whitelisted or not blocked; any other name is served from the export folder when it exists |
| StudentController.Index | exam_management/Controllers/View/StudentController.cs:24-29 | A student sees exactly the exams of the subjects they are enrolled in |
| StudentController.ExamDetail | exam_management/Controllers/View/StudentController.cs:31-52 | Any exam that exists is shown with the caller's submission, without an enrollment check |
| StudentController.ExamDetailIgnoresEnrollment | exam_management/Controllers/View/StudentController.cs:31-52 | Every student sees every exam, enrolled or not |
| StudentController.PdfUploadProblem | exam_management/Controllers/View/StudentController.cs:76-104 | A file passes exactly when present, non-empty, at most 10 MiB, with extension ".pdf" and type "application/pdf" (ignoring case) |
| StudentController.SubmitExam | exam_management/Controllers/View/StudentController.cs:54-135 | Success exactly when enrolled, not yet submitted, the file passes, the generated path stays in storage and the save succeeds; it then writes one file under the generated name and records its download path; refusals change nothing |
| StudentController.SubmitExamAccepted | exam_management/Controllers/View/StudentController.cs:59-131 | A success implies each check of the chain held and the store is the submit of the generated path |
| StudentController.SecondSubmissionRefused | exam_management/Controllers/View/StudentController.cs:67-73 | After a successful submission, a second one for the same exam is refused with nothing changed |
| StudentController.ResubmissionRefused | exam_management/Controllers/View/StudentController.cs:67-73 | An enrolled student who already has a submission for the exam is redirected to it with the already-submitted message and nothing changes, whatever the file |
| StudentApiController.UploadProblem | exam_management/Controllers/Api/StudentApiController.cs:52-75 | A file passes exactly when present, non-empty, at most 10 MiB, with one of four extensions, and a listed type or any type starting "application/" |
| StudentApiController.SubmitExam | exam_management/Controllers/Api/StudentApiController.cs:32-190 | Success exactly when enrolled, not yet submitted, the file passes, the path stays in storage and the save succeeds; the JSON carries the message, download path and name, and one file is written; a bad request changes nothing |
| StudentApiController.PdfPassesApiChecks | exam_management/Controllers/Api/StudentApiController.cs:52-75 | Every file the page accepts passes the API's checks |
| StudentApiController.PageUploadAcceptedByApi | exam_management/Controllers/Api/StudentApiController.cs:32-190 | Whatever the page accepts, the API accepts with the same store and the same write |
| StudentApiController.ApiAcceptsWhatPageRefuses | exam_management/Controllers/Api/StudentApiController.cs:64-75 | A ".bin" file of an arbitrary "application/" type is refused by the page and accepted by the API |
| Journeys.AllowedExtensionsAreClean | exam_management/Controllers/Api/StudentApiController.cs:64-69 | Every allowed API extension is a clean single extension |
| Journeys.ApiUploadServedToAnyone | exam_management/Controllers/View/SecureFileController.cs:76-109 | The file an API upload writes is served by the submission download to any caller, at the path it was written to |
| Journeys.ExportFileNameIsPlain | exam_management/Controllers/View/AdminController.cs:338 | The export file name has no traversal sequence |
| Journeys.ExportServedToAdmin | exam_management/Controllers/View/SecureFileController.cs:209-215 | The redirect after an export leads an admin to the very file the export wrote |
| TeacherController.Students | exam_management/Controllers/View/TeacherController.cs:30-50 | Exactly the teacher's students, filtered case-insensitively on username or full name when a term is given |
| TeacherController.UnknownSubjectIds | exam_management/Controllers/View/TeacherController.cs:86-95 | Exactly the requested subject ids that name no subject |
| TeacherController.CreateStudentProblems | exam_management/Controllers/View/TeacherController.cs:64-119 | No problem exactly when the fields are non-blank, the password has 6 or more characters, the username has at most 50 and is not taken ignoring case, and every subject exists |
| TeacherController.SaveStudent | exam_management/Controllers/View/TeacherController.cs:100-139 | A success appends one Student with the hash of the password and enrolls it in every chosen subject; a failure shows one storage problem |
| TeacherController.CreateStudent | exam_management/Controllers/View/TeacherController.cs:52-139 | Any signed-in caller passes the gate; problems or an empty subject list change nothing; otherwise the student is saved |
| TeacherController.AnyoneCreatesStudents | exam_management/Controllers/View/TeacherController.cs:52-139 | A signed-in caller of any role creates a student from a valid form |
| TeacherController.EditedStudent | exam_management/Controllers/View/TeacherController.cs:148-156 | Only the trimmed full name, phone and address change |
| TeacherController.EditStudent | exam_management/Controllers/View/TeacherController.cs:141-199 | A missing or non-Student target is not found; a blank name saves nothing; otherwise the edited row is saved, and a failed save changes nothing |
| TeacherController.TeacherEditsAnyStudent | exam_management/Controllers/View/TeacherController.cs:141-199 | A teacher edits any student, in their classes or not |
| TeacherController.DeleteInClass | exam_management/Controllers/View/TeacherController.cs:205-221 | An id outside the caller's students is refused with nothing changed; a delete happens exactly for a student sharing a subject whose delete is permitted; a failure changes nothing |
| TeacherController.DeleteStudent | exam_management/Controllers/View/TeacherController.cs:201-221 | Teachers only; then the in-class delete |
| TeacherController.DeleteStudentGet | exam_management/Controllers/View/TeacherController.cs:223-243 | Any signed-in caller runs the in-class delete on their own subjects |
| TeacherController.StudentDeletesClassmate | exam_management/Controllers/View/TeacherController.cs:223-243 | A student deletes, through the GET route, a classmate whose delete no submission blocks; a blocked delete is a server error that changes nothing |
| TeacherController.Exams | exam_management/Controllers/View/TeacherController.cs:247-253 | Exactly the exams of the teacher's subjects |
| TeacherController.CreateExamForm | exam_management/Controllers/View/TeacherController.cs:255-261 | The form is open to everyone and changes nothing |
| TeacherController.FirstSubject | exam_management/Controllers/View/TeacherController.cs:271-276 | The first subject, in subject-table order, that the existing user is enrolled in; none exactly when there is no such subject |
| TeacherController.FirstSubjectOfEnrolled | exam_management/Controllers/View/TeacherController.cs:271-276 | On a valid store an enrolled user always has a first subject |
| TeacherController.SaveDraft | exam_management/Controllers/View/TeacherController.cs:297-304 | The exam list follows exactly when the insert succeeds, with an exam holding the formatted title and the formatted, undoubled content; any failure shows the form with the error and changes nothing |
| TeacherController.CreateExam | exam_management/Controllers/View/TeacherController.cs:263-306 | An exam is added exactly when the teacher has a subject, title and content are non-empty, the title formats and the content formats to a text whose single quotes come in pairs. It gets the formatted title, the content formatted with each doubled quote stored as one, the first subject and the caller as author, and only the exams table changes. A brace that does not format or a lone quote shows the error on the form; the lone quote is the model's rule (see Left out); refusals change nothing |
| TeacherController.ExamDetail | exam_management/Controllers/View/TeacherController.cs:308-337 | Shown exactly when the caller exists and is enrolled in the looked-up exam's subject; the submissions listed are those of the parsed id, or of exam 0 when the id does not parse |
| TeacherController.StudentSeesAllSubmissions | exam_management/Controllers/View/TeacherController.cs:308-337 | A student enrolled in the subject sees every submission of the exam |
| TeacherController.UnparsedIdListsNoSubmission | exam_management/Controllers/View/TeacherController.cs:311-333 | A page shown for an id that does not parse lists no submission |
| TeacherController.Grade | exam_management/Controllers/View/TeacherController.cs:339-360 | Grading happens exactly when the caller is signed in, the exam exists and the score is in 0..10, and it stores the caller's id whether or not the caller has a user row; an out-of-range score is reported; otherwise nothing changes |
| TeacherController.AnyoneGradesAnySubmission | exam_management/Controllers/View/TeacherController.cs:339-360 | Any signed-in caller, with or without a user row, grades any submission, with the caller's id stored as the grading user |
| HomeController.Index | exam_management/Controllers/View/HomeController.cs:25-33 | Without a footer, the page redirects to itself with the default footer; with one, it renders |
| HomeController.IndexSettlesAfterOneRedirect | exam_management/Controllers/View/HomeController.cs:25-33 | The redirect's footer renders the page, so the redirect happens once |
| HomeController.Profile | exam_management/Controllers/View/HomeController.cs:35-41 | The caller's own row, or not found when the token outlived the user |
| HomeController.EditedProfile | exam_management/Controllers/View/HomeController.cs:57-60 | Only the trimmed full name, phone and address and the gender change |
| HomeController.UpdateProfile | exam_management/Controllers/View/HomeController.cs:43-72 | No model, a missing user or a blank name change nothing; a success stores the update of the caller's row with the four edited fields |
| HomeController.ProfileUpdateKeepsCredentials | exam_management/Controllers/View/HomeController.cs:43-72 | No profile update changes an id, role, username or hash, or any other user's row |
| HomeController.AvatarProblem | exam_management/Controllers/View/HomeController.cs:77-105 | A file passes exactly when present, non-empty, at most 5 MiB, with a listed image extension and image type (ignoring case) |
| HomeController.SetAvatar | exam_management/Controllers/View/HomeController.cs:135-138 | The caller's row gets the avatar URL; a missing row is an error |
| HomeController.UploadAvatar | exam_management/Controllers/View/HomeController.cs:74-142 | Refusals change nothing; success exactly when the file passes, the path stays in storage and the row saves; the file is written under the generated name and the URL recorded |
| HomeController.AvatarExtensionsAreClean | exam_management/Controllers/View/HomeController.cs:91-98 | Every allowed avatar extension is a clean single extension |
| HomeController.SvgAvatarAccepted | exam_management/Controllers/View/HomeController.cs:91-105 | An SVG image of allowed size is accepted as an avatar |
| HomeController.ChangePassword | exam_management/Controllers/View/HomeController.cs:147-177 | Blank fields, then a short new password are refused before the old one is checked; success exactly when the user exists and the old password verifies; only then the hash changes |
| HomeController.ChangedPasswordSignsIn | exam_management/Controllers/View/HomeController.cs:147-177 | After a change the user signs in with the new password |
| AuthController.CheckCredentials | exam_management/Controllers/View/AuthController.cs:36-63 | Sign-in exactly when the name has at most 50 characters and authenticates; every failure shows the same message |
| AuthController.Login | exam_management/Controllers/View/AuthController.cs:22-64 | Blank fields are refused; otherwise the trimmed name is checked; a sign-in happens exactly when both are non-blank, the name fits and authenticates |
| AuthController.RegisterFormOffersSeededIds | exam_management/Controllers/View/AuthController.cs:66-79 | The form offers exactly the seeded subject ids in order, under different names |
| AuthController.RegisterProblem | exam_management/Controllers/View/AuthController.cs:100-147 | No problem exactly when the fields are non-blank, the password has 6 or more characters and the name at most 50 |
| AuthController.RegisterFailure | exam_management/Controllers/View/AuthController.cs:149-167 | A taken name is reported as such; other failures as storage failures |
| AuthController.SaveRegistration | exam_management/Controllers/View/AuthController.cs:149-167 | The redirect to the login page happens exactly when the registration succeeds; the store is what the registration left |
| AuthController.Register | exam_management/Controllers/View/AuthController.cs:81-168 | A validation problem changes nothing; otherwise the trimmed fields are registered as a student |
| AuthController.RegisterAddsOnlyStudents | exam_management/Controllers/View/AuthController.cs:81-168 | Registration adds at most one row, a Student, and keeps the earlier rows |
| AuthController.UnknownSubjectLeavesAccount | exam_management/Services/AuthService.cs:86-101 | An unknown subject fails the request yet leaves the account saved, and retrying reports the name as taken |
| AuthController.RegisteredStudentSignsIn | exam_management/Controllers/View/AuthController.cs:81-168 | A completed registration signs in with the same name and password, as a Student |
| AuthController.Logout | exam_management/Controllers/View/AuthController.cs:170-175 | Logging out changes nothing and redirects to the login page |
| AdminController.NormalizeSearch | exam_management/Controllers/View/AdminController.cs:69-77 | The term is trimmed and cut to 100 characters; it is empty exactly for a blank term |
| AdminController.Index | exam_management/Controllers/View/AdminController.cs:50-85 | Open to everyone: anonymous callers go to the login page, teachers get 403, others the users whose username or full name contains the normalised term |
| AdminController.StudentListsEveryUser | exam_management/Controllers/View/AdminController.cs:50-85 | A student sees the whole user list |
| AdminController.CreateProblems | exam_management/Controllers/View/AdminController.cs:101-130 | No problem exactly when the fields are non-blank, the name is not taken ignoring case, the password has 6 or more characters and the role is not Admin |
| AdminController.SaveUser | exam_management/Controllers/View/AdminController.cs:132-141 | A success appends one user with the form's role and name and the hash of the password, with the success message; a failure shows one storage problem |
| AdminController.Create | exam_management/Controllers/View/AdminController.cs:88-141 | Admins only; problems change nothing; otherwise the user is saved |
| AdminController.CreateRefusals | exam_management/Controllers/View/AdminController.cs:101-130 | An Admin role, a blank field, a short password or a taken name never adds a user; a successful create never adds an Admin |
| AdminController.EditedRole | exam_management/Controllers/View/AdminController.cs:149-163 | Editing oneself keeps the role; a promotion to Admin of a non-Admin is reverted; otherwise the requested role |
| AdminController.EditedUser | exam_management/Controllers/View/AdminController.cs:149-177 | The role follows the role rule, full name, phone and address are trimmed, and id, username, hash, gender and avatar stay |
| AdminController.SaveEdit | exam_management/Controllers/View/AdminController.cs:186-246 | A phone that does not format, or formats to a text with a lone quote, fails with the statement in the error and nothing changed; the lone quote is the model's rule (see Left out). Success comes exactly when the phone formats to a text whose quotes come in pairs and the row save succeeds. Only the edited row changes: its phone is set to the formatted, undoubled phone, or on success the row becomes the edited row, which carries the phone as typed |
| AdminController.Edit | exam_management/Controllers/View/AdminController.cs:143-247 | A missing user is not found; a blank name changes nothing and reports the refused promotion; otherwise the edit is saved |
| AdminController.EditNeverGrantsAdmin | exam_management/Controllers/View/AdminController.cs:143-247 | For a phone number that does not format, or formats to a text whose single quotes come in pairs, no edit makes a non-Admin row an Admin, and rows keep their positions and ids. A lone quote lets the source's raw update set any row's role, so that case is excluded (see Left out) |
| AdminController.PresentedToken | exam_management/Controllers/View/AdminController.cs:262-299 | A non-blank token is presented exactly when the header or the form has one |
| AdminController.Delete | exam_management/Controllers/View/AdminController.cs:251-311 | Deleting oneself is a bad request; a delete happens exactly for an admin with any non-blank token and another id whose delete is permitted; it removes exactly that user |
| AdminController.AnyTokenAccepted | exam_management/Controllers/View/AdminController.cs:262-299 | Any non-blank token value is accepted: a user whose delete no submission blocks is removed, and a blocked delete is a server error that changes nothing |
| AdminController.Detail | exam_management/Controllers/View/AdminController.cs:313-319 | Open to everyone; shows the row with the id, or nothing when none exists |
| AdminController.AnonymousReadsAnyUser | exam_management/Controllers/View/AdminController.cs:313-319 | An anonymous caller reads any user's row |
| AdminController.EscapedClassNames | exam_management/Controllers/View/AdminController.cs:334 | The class names are exactly the escaped names of the subjects the user is enrolled in, at most one per subject |
| AdminController.ExportRow | exam_management/Controllers/View/AdminController.cs:331-335 | A row starts with the user's id and a comma |
| AdminController.ExportLines | exam_management/Controllers/View/AdminController.cs:327-336 | The lines of a non-empty list start with the first user's row and a line break |
| AdminController.ExportLinesSplit | exam_management/Controllers/View/AdminController.cs:327-336 | The lines of a list are the lines of its parts in order; with the one-user case, the export is one line per user, in table order |
| AdminController.ExportLinesOne | exam_management/Controllers/View/AdminController.cs:330-335 | A single user is exported as exactly its row and a line break |
| AdminController.IntTextIsPlain | exam_management/Controllers/View/AdminController.cs:335 | An id's text needs no CSV quoting |
| AdminController.ExportRowReadsBack | exam_management/Controllers/View/AdminController.cs:331-335 | A row reads back as the six fields id, username, full name, role, gender and classes |
| AdminController.ExportFileName | exam_management/Controllers/View/AdminController.cs:338 | The export name starts "users_" and ends ".csv" |
| AdminController.Export | exam_management/Controllers/View/AdminController.cs:322-350 | Admins only; the text is written to the export folder under the generated name, and the browser is redirected to its download |

## Left out

- Every `Forbid(text)` call passes its text as an authentication scheme name. These are the teacher handlers' delete and exam-detail refusals, the student page's and student API's enrollment refusals, and the export download's blocked-path refusal. The model returns `UnknownScheme(text)` and does not model the framework's error page.
- String comparison is not modelled faithfully:
  - The database collation (case-insensitive by default) is not modelled; equality is exact.
  - `ToLower` is ASCII only.
  - `Contains`/`StartsWith` are ordinal.
  - Lengths count code points, not UTF-16 units.
- Paths are `/`-separated. `Path.GetFullPath`, `File.Exists` and the MIME table are host parameters, and directory creation is not modelled.
- The raw SQL statements are modelled only when they run as intended. The data layer formats each statement first: a doubled brace becomes one, and any other brace fails before anything is sent. The formatted value's single quotes must then come in pairs. Every exam content or phone number that formats but has a lone single quote is modelled as a failed statement. In the source that text is run as whatever SQL it spells: a syntax error, or an injected statement such as one that sets another row's role. Its effect is not modelled.
- The raw literals have no `N` prefix, so characters outside the database's code page would be stored as `?`. The model stores the value character for character.
- The deserialization attempt in the API upload is not modelled. It never changes the outcome and its effects are outside the model.
- JWT generation, the cookie options and the cookie deleted at logout are not modelled. A successful login is the `SignIn` response.
- Password hashing is an uninterpreted hasher, so bcrypt salts and work factors are not modelled.
- `UpdateExamAsync`, `GetAllUsersAsync` and `GetAllSubjectsAsync` are not modelled separately. The first has no caller in the modelled handlers; the other two return whole tables.
- ViewBag/ViewData lists, HTML error pages and log output are not modelled. Messages are `Problem` cases instead of texts, except that the admin phone update echoes its statement.
- Implicit `[Required]` model-binding errors are not modelled. Null form strings are folded into the empty string; a null model is modelled only for `UpdateProfile`.
- URL-encoded redirect targets are constants.
- GUIDs and the clock are parameters.
- The failure wrappers' messages keep the kind and the statement but drop the inner exception's message.
- Database errors are five cases: a duplicate key, a missing referenced row, a delete a restricting reference blocks, a value too long and an update that matched no row. The database's message texts are not modelled.
- The raw SQL text is not modelled beyond the literals the model reads back.
- Antiforgery validation is not modelled. `Program.cs` adds a global `AutoValidateAntiforgeryTokenAttribute`, so every POST handler without `[IgnoreAntiforgeryToken]`, `Logout` among them, checks a token before it runs; the model starts at the handler.
- A submission's `GradedByUserId` is a plain column with no constraint, because it matches no naming convention for the `GradedBy` navigation. Grading stores any caller's id, and deleting a user leaves that id on the submissions the user graded. The shadow key the ORM adds for the navigation is never set by the handlers and is not modelled.
- `TeacherController.Grade`: the score is a Dafny `real`, so NaN and infinities are not modelled, nor how the range check treats them.
- `ExamService.GradeSubmission`: the score is a Dafny `real`, so NaN and infinities are not modelled. The per-row result is stated only for a valid store, where ids are unique.
- `AdminController.ExportRowReadsBack`: the Classes field is not itself CSV-escaped, so the read-back is proved only when the joined class names contain no comma or quote.
- `AdminController.EscapedClassNames`: lists class names in subject-table order. The order in which the ORM loads a user's enrollments is not modelled.
- `AdminController.SaveEdit`: the raw phone update and the bound phone number are the same value, as they are for a form post. A phone number that formats but has a lone quote is modelled as a failed statement with nothing changed; in the source it runs as injected SQL.
- `AdminController.EditNeverGrantsAdmin`: proved for a valid store, where ids are unique, and only for a phone number that does not format or formats to a text whose single quotes come in pairs. The source does not keep the property for other numbers. Editing user 5 with the phone `', Role = 0 WHERE Id = 9 --` sends `UPDATE Users SET PhoneNumber = '', Role = 0 WHERE Id = 9 --' WHERE Id = 5`, whose tail is a comment. That makes user 9 an Admin, bypassing the role rule. The model answers that number with a failed statement.
- `TeacherController.FirstSubject`: takes the first subject in subject-table order, where the source takes the first enrollment the ORM loads.
- `TeacherController.ExamDetail`: a non-numeric id is looked up through an uninterpreted `rawLookup` parameter, because that query's text is SQL.
- `SecureFileController.GetSubmission`: the database lookup the handler makes and ignores is left out.
- `HomeController.SetAvatar`: the source dereferences a null user when the token outlived its user. This is modelled as the `NoSuchUser` error after the file is written.

=== FILE: admin_controller.dfy ===
/** `AdminController`: the user list with its search, user creation, the user
    edit with its role rules and raw phone-number update, the delete with its
    token presence check, the user detail page and the CSV export. */
module AdminController {
  import opened Common
  import opened Text
  import opened Entities
  import opened Db
  import opened Web
  import opened Routes
  import opened AuthService
  import opened Paths
  import Seqs
  import UserService
  import Csv
  import RawSql

  /** Where `RedirectToAction("Index")` leads. */
  const IndexPage: string := "/Admin"

  // ---- the user list ----

  const SearchMaxLength: nat := 100

  /** The search term as `Index` uses it: trimmed, then cut to 100 characters. */
  function NormalizeSearch(search: string): (r: string)
    ensures |r| <= SearchMaxLength
    ensures StartsWith(Trim(search), r)
    ensures |Trim(search)| <= SearchMaxLength ==> r == Trim(search)
    ensures r == [] <==> IsBlank(search)
  {
    BlankIffTrimEmpty(search);
    if search == [] then [] else Truncate(Trim(search), SearchMaxLength)
  }

  /** `Index`: open to anyone by its attribute, it sends an anonymous caller to
      the login page and refuses only the Teacher role, so students list every
      user. */
  function Index(p: Principal, s: Store, search: string): (r: Reply)
    ensures r.store == s && r.written == []
    ensures Admit(PolicyOf(AdminIndex), p).Admitted?
    ensures p.Anonymous? ==> r.response == Redirect(LoginPage, NoFlash)
    ensures p.SignedIn? && p.role == Teacher ==> r.response == Forbidden
    ensures p.SignedIn? && p.role != Teacher ==>
      && r.response.Page? && r.response.view == "Index" && r.response.data.Users?
      && forall u :: u in r.response.data.users <==>
           && u in s.users
           && (IsBlank(search) || Contains(u.username, NormalizeSearch(search))
                               || Contains(u.fullName, NormalizeSearch(search)))
  {
    if p.Anonymous? then Reply(Redirect(LoginPage, NoFlash), s, [])
    else if p.role == Teacher then Reply(Forbidden, s, [])
    else
      var term := NormalizeSearch(search);
      var users := if term == [] then s.users else UserService.SearchUsers(s, term);
      Reply(Page("Index", Users(users), []), s, [])
  }

  /** A signed-in student with no search term is shown every user. */
  lemma StudentListsEveryUser(s: Store, studentId: int)
    ensures Index(SignedIn(studentId, Student), s, "").response == Page("Index", Users(s.users), [])
  {
  }

  // ---- creating a user ----

  /** The bound `CreateUserVm`. */
  datatype UserForm = UserForm(username: string, password: string, fullName: string, role: UserRole,
                               subjectIds: Option<seq<int>>)

  /** The model errors `Create` records, in order. The taken-name and password
      checks run only when no field is blank; the Admin-role check always runs.
      The username and full name are already trimmed. */
  function CreateProblems(s: Store, username: string, password: string, fullName: string,
                          role: UserRole): (r: seq<Problem>)
    ensures r == [] <==>
      && !IsBlank(username) && !IsBlank(fullName) && !IsBlank(password)
      && (forall u :: u in s.users ==> ToLower(u.username) != ToLower(username))
      && |password| >= 6 && role != Admin
    ensures role == Admin ==> r[|r| - 1] == AdminCreationRefused
  {
    var fields :=
      if IsBlank(username) || IsBlank(fullName) || IsBlank(password) then [FieldsRequired]
      else (if UserService.IsUsernameTaken(s, username) then [UsernameTaken] else [])
           + (if |password| < 6 then [PasswordTooShort] else []);
    fields + (if role == Admin then [AdminCreationRefused] else [])
  }

  /** The success message of `Create`. */
  function CreatedMessage(username: string): string {
    "\U{110}\U{E3} t\U{1EA1}o ng\U{1B0}\U{1EDD}i d\U{F9}ng '" + username + "' th\U{E0}nh c\U{F4}ng."
  }

  /** The last step of `Create`: save the user with its enrollments. */
  function SaveUser(hasher: PasswordHasher, s: Store, username: string, fullName: string, role: UserRole,
                    password: string, subjectIds: Option<seq<int>>): (r: Reply)
    ensures r.written == []
    ensures r.response.Redirect? <==>
      UserService.CreateUser(s, hasher, User(0, username, "", fullName, Male, None, None, None, role),
                             password, subjectIds).result.Ok?
    ensures r.response.Redirect? ==>
      && r.response == Redirect(IndexPage, Succeeded(CreatedMessage(username)))
      && exists u :: && r.store.users == s.users + [u]
                     && u.role == role && u.username == username && u.fullName == fullName
                     && u.passwordHash == hasher.hash(password)
    ensures !r.response.Redirect? ==>
      r.response.Page? && |r.response.problems| == 1 && r.response.problems[0].Storage?
  {
    var e := UserService.CreateUser(s, hasher, User(0, username, "", fullName, Male, None, None, None, role),
                                    password, subjectIds);
    match e.result
    case Ok(added) => Reply(Redirect(IndexPage, Succeeded(CreatedMessage(username))), e.store, [])
    case Err(err) => Reply(Page("Index", Users(e.store.users), [Problem.Storage(err)]), e.store, [])
  }

  /** `Create`: any role but Admin, any existing subjects; no length check on
      the username beyond the column width the database enforces. */
  function Create(hasher: PasswordHasher, p: Principal, s: Store, form: UserForm): (r: Reply)
    ensures r.written == []
    ensures !Admit(PolicyOf(AdminCreate), p).Admitted? ==> r == Denied(Admit(PolicyOf(AdminCreate), p), s)
    ensures Admit(PolicyOf(AdminCreate), p).Admitted? ==>
      var problems := CreateProblems(s, Trim(form.username), form.password, Trim(form.fullName), form.role);
      if problems != [] then r == Reply(Page("Index", Users(s.users), problems), s, [])
      else r == SaveUser(hasher, s, Trim(form.username), Trim(form.fullName), form.role, form.password,
                         form.subjectIds)
  {
    var g := Admit(PolicyOf(AdminCreate), p);
    if !g.Admitted? then Denied(g, s)
    else
      var username := Trim(form.username);
      var fullName := Trim(form.fullName);
      var problems := CreateProblems(s, username, form.password, fullName, form.role);
      if problems != [] then Reply(Page("Index", Users(s.users), problems), s, [])
      else SaveUser(hasher, s, username, fullName, form.role, form.password, form.subjectIds)
  }

  /** `Create` adds no user when asked for an Admin, when a field is blank, the
      password is short or the name is taken ignoring case; and a user it adds
      never has the Admin role. */
  lemma CreateRefusals(hasher: PasswordHasher, p: Principal, s: Store, form: UserForm)
    ensures var r := Create(hasher, p, s, form);
      (|| form.role == Admin || IsBlank(Trim(form.username)) || IsBlank(Trim(form.fullName))
       || IsBlank(form.password) || |form.password| < 6
       || exists u :: u in s.users && ToLower(u.username) == ToLower(Trim(form.username)))
      ==> r.store == s && !(r.response.Redirect? && r.response.location == IndexPage)
    ensures var r := Create(hasher, p, s, form);
      r.response.Redirect? && r.response.location == IndexPage ==>
        exists u :: r.store.users == s.users + [u] && u.role != Admin
  {
    var username, fullName := Trim(form.username), Trim(form.fullName);
    var problems := CreateProblems(s, username, form.password, fullName, form.role);
    var r := Create(hasher, p, s, form);
    if Admit(PolicyOf(AdminCreate), p).Admitted? {
      if problems == [] {
        assert r == SaveUser(hasher, s, username, fullName, form.role, form.password, form.subjectIds);
        assert !exists u :: u in s.users && ToLower(u.username) == ToLower(username);
        assert form.role != Admin;
      } else {
        assert r.store == s && !r.response.Redirect?;
      }
    }
  }

  // ---- editing a user ----

  /** The bound `User` of `Edit`: the fields it reads. The raw form value of
      the phone number and the bound one are the same form field. */
  datatype UserEdit = UserEdit(fullName: string, phoneNumber: string, address: string, role: UserRole)

  /** The role rules of `Edit`: an admin's own role is kept, and promoting a
      user who is not an Admin to Admin is reverted. */
  function EditedRole(callerId: int, id: int, current: UserRole, requested: UserRole): (r: UserRole)
    ensures id == callerId ==> r == current
    ensures r == Admin ==> current == Admin
    ensures id != callerId && (requested != Admin || current == Admin) ==> r == requested
  {
    var role := if id == callerId && requested != current then current else requested;
    if id != callerId && role == Admin && current != Admin then current else role
  }

  /** The row `Edit` writes: trimmed name, phone and address, the role rules applied. */
  function EditedUser(user: User, callerId: int, form: UserEdit): (v: User)
    ensures v.id == user.id && v.username == user.username && v.passwordHash == user.passwordHash
    ensures v.gender == user.gender && v.avatarUrl == user.avatarUrl
    ensures v.role == EditedRole(callerId, user.id, user.role, form.role)
    ensures v.fullName == Trim(form.fullName)
    ensures v.phoneNumber == Some(Trim(form.phoneNumber)) && v.address == Some(Trim(form.address))
  {
    user.(fullName := Trim(form.fullName), phoneNumber := Some(Trim(form.phoneNumber)),
          address := Some(Trim(form.address)), role := EditedRole(callerId, user.id, user.role, form.role))
  }

  /** The two writes of a valid `Edit`: the raw phone-number update, whose
      failure is answered with a server error that shows the statement, then
      the whole edited row, which carries the number as typed. */
  function SaveEdit(s: Store, v: User, phone: string): (r: Reply)
    ensures r.written == []
    ensures RawSql.LiteralValue(phone).None? ==>
      && r.store == s && r.response.ServerError? && r.response.cause.SqlFailure?
      && Contains(r.response.cause.statement, UserService.PhoneUpdateStatement(v.id, phone))
    ensures r.response == Redirect(IndexPage, NoFlash) <==>
      RawSql.LiteralValue(phone).Some? && UpdateUser(UserService.UpdatePhoneNumber(s, v.id, phone).value, v).Ok?
    ensures r.response != Redirect(IndexPage, NoFlash) ==> r.response.ServerError?
    ensures |r.store.users| == |s.users| && r.store == s.(users := r.store.users)
    ensures forall i :: 0 <= i < |s.users| ==>
      r.store.users[i] == s.users[i]
      || (s.users[i].id == v.id && r.store.users[i] == s.users[i].(phoneNumber := RawSql.LiteralValue(phone)))
      || (s.users[i].id == v.id && r.store.users[i] == v && r.response == Redirect(IndexPage, NoFlash))
    ensures r.response == Redirect(IndexPage, NoFlash) ==> v in r.store.users
  {
    match UserService.UpdatePhoneNumber(s, v.id, phone)
    case Err(message) => Reply(ServerError(SqlFailure(message)), s, [])
    case Ok(s1) =>
      match UpdateUser(s1, v)
      case Err(e) => Reply(ServerError(Problem.Storage(e)), s1, [])
      case Ok(s2) =>
        assert v in s2.users by {
          var i :| 0 <= i < |s1.users| && s1.users[i].id == v.id;
          assert s2.users[i] == v;
        }
        Reply(Redirect(IndexPage, NoFlash), s2, [])
  }

  /** `Edit`: the phone number is written first, then the whole row. A refused
      promotion is recorded but only shown when the name is blank, on a page
      that shows the edited row with its stored phone number. */
  function Edit(p: Principal, s: Store, id: int, form: UserEdit): (r: Reply)
    ensures r.written == []
    ensures !Admit(PolicyOf(AdminEdit), p).Admitted? ==> r == Denied(Admit(PolicyOf(AdminEdit), p), s)
    ensures Admit(PolicyOf(AdminEdit), p).Admitted? ==>
      match UserService.GetUserById(s, id)
      case None => r == Reply(NotFound(""), s, [])
      case Some(user) =>
        && user.id == id
        && (IsBlank(Trim(form.fullName)) ==>
              r.store == s && r.response.Page? && FullNameRequired in r.response.problems
              && (AdminAssignmentRefused in r.response.problems <==>
                    id != p.userId && form.role == Admin && user.role != Admin))
        && (!IsBlank(Trim(form.fullName)) ==>
              r == SaveEdit(s, EditedUser(user, p.userId, form), Trim(form.phoneNumber)))
  {
    var g := Admit(PolicyOf(AdminEdit), p);
    if !g.Admitted? then Denied(g, s)
    else match UserService.GetUserById(s, id)
      case None => Reply(NotFound(""), s, [])
      case Some(user) =>
        var refused := if id != p.userId && form.role == Admin && user.role != Admin then [AdminAssignmentRefused] else [];
        var edited := EditedUser(user, p.userId, form);
        if IsBlank(edited.fullName) then
          Reply(Page("Detail", OneUser(Some(edited.(phoneNumber := user.phoneNumber))), refused + [FullNameRequired]), s, [])
        else SaveEdit(s, edited, Trim(form.phoneNumber))
  }

  /** No edit whose phone number keeps the raw update well-formed, or stops it
      before it runs, makes an Admin of a user who was not one: in a
      consistent database, after `Edit` each row keeps its position and id, and
      an Admin row was an Admin row before. A phone number that formats but
      leaves a lone quote is pasted into the raw update as SQL and can set any
      row's role; that case is outside this lemma. */
  lemma EditNeverGrantsAdmin(p: Principal, s: Store, id: int, form: UserEdit)
    requires Valid(s)
    requires RawSql.LiteralValue(Trim(form.phoneNumber)).Some? || RawSql.Format(Trim(form.phoneNumber)).None?
    ensures var r := Edit(p, s, id, form);
      && |r.store.users| == |s.users|
      && forall i :: 0 <= i < |s.users| ==>
           r.store.users[i].id == s.users[i].id
           && (r.store.users[i].role == Admin ==> s.users[i].role == Admin)
  {
    hide Edit, SaveEdit, EditedUser, Trim;
    var r := Edit(p, s, id, form);
    if !Admit(PolicyOf(AdminEdit), p).Admitted? || UserService.GetUserById(s, id).None?
       || IsBlank(Trim(form.fullName)) {
      assert r.store == s;
    } else {
      var user := UserService.GetUserById(s, id).value;
      var edited := EditedUser(user, p.userId, form);
      assert r == SaveEdit(s, edited, Trim(form.phoneNumber));
      forall i | 0 <= i < |s.users|
        ensures r.store.users[i].id == s.users[i].id
        ensures r.store.users[i].role == Admin ==> s.users[i].role == Admin
      {
        if r.store.users[i] != s.users[i] && r.store.users[i] != s.users[i].(phoneNumber := RawSql.LiteralValue(Trim(form.phoneNumber))) {
          assert r.store.users[i] == edited && s.users[i].id == edited.id;
          assert s.users[i] == user by {
            assert user in s.users && user.id == id && s.users[i] in s.users;
          }
        }
      }
    }
  }

  // ---- deleting a user ----

  /** The antiforgery value `Delete` reads: the header when it is not blank,
      else the form field when there is one. */
  function PresentedToken(header: Option<string>, form: Option<string>): (r: Option<string>)
    ensures (r.Some? && !IsBlank(r.value)) <==>
      (header.Some? && !IsBlank(header.value)) || (form.Some? && !IsBlank(form.value))
  {
    if header.Some? && !IsBlank(header.value) then header
    else if form.Some? then form
    else header
  }

  /** `Delete`: a token must be present, whatever its value; an admin cannot
      delete themselves; a delete the database restricts raises. */
  function Delete(p: Principal, s: Store, id: int, headerToken: Option<string>, formToken: Option<string>): (r: Reply)
    ensures r.written == []
    ensures !Admit(PolicyOf(AdminDelete), p).Admitted? ==> r == Denied(Admit(PolicyOf(AdminDelete), p), s)
    ensures Admit(PolicyOf(AdminDelete), p).Admitted? && id == p.userId ==> r.store == s && r.response.BadRequest?
    ensures r.response.BadRequest? ==> r.store == s
    ensures r.response == Redirect(IndexPage, NoFlash) <==>
      && Admit(PolicyOf(AdminDelete), p).Admitted?
      && ((headerToken.Some? && !IsBlank(headerToken.value)) || (formToken.Some? && !IsBlank(formToken.value)))
      && id != p.userId && UserService.DeleteUser(s, id).Ok?
    ensures r.response == Redirect(IndexPage, NoFlash) ==>
      forall u :: u in r.store.users <==> u in s.users && u.id != id
  {
    var g := Admit(PolicyOf(AdminDelete), p);
    if !g.Admitted? then Denied(g, s)
    else
      var token := PresentedToken(headerToken, formToken);
      if token.None? || IsBlank(token.value) then Reply(BadRequest("CSRF token is required."), s, [])
      else if id == p.userId then Reply(BadRequest("Cannot delete yourself."), s, [])
      else match UserService.DeleteUser(s, id)
        case Ok(s') => Reply(Redirect(IndexPage, NoFlash), s', [])
        case Err(e) => Reply(ServerError(Problem.Storage(e)), s, [])
  }

  /** Any non-blank value passes as the token: an admin's request carrying an
      arbitrary header value deletes any other user, unless a submission of
      that user as student restricts the delete, which the database refuses
      with a server error and nothing changed. */
  lemma AnyTokenAccepted(s: Store, adminId: int, u: User, token: string)
    requires u in s.users && u.id != adminId && !IsBlank(token)
    ensures var r := Delete(SignedIn(adminId, Admin), s, u.id, Some(token), None);
      && (!DeleteRestricted(s, u.id) ==> r.response == Redirect(IndexPage, NoFlash) && u !in r.store.users)
      && (DeleteRestricted(s, u.id) ==> r.response == ServerError(Problem.Storage(RestrictViolation)) && r.store == s)
  {
  }

  // ---- detail and export ----

  /** `Detail`: any caller, signed in or not, sees the row of any user id. */
  function Detail(p: Principal, s: Store, id: int): (r: Reply)
    ensures r.store == s && r.written == []
    ensures Admit(PolicyOf(AdminDetail), p).Admitted?
    ensures r.response.Page? && r.response.data.OneUser?
    ensures r.response.data.user.Some? <==> HasUser(s, id)
    ensures r.response.data.user.Some? ==> r.response.data.user.value in s.users && r.response.data.user.value.id == id
  {
    Reply(Page("Detail", OneUser(UserService.GetUserById(s, id)), []), s, [])
  }

  /** An anonymous caller reads any user's full row, password hash included. */
  lemma AnonymousReadsAnyUser(s: Store, u: User)
    requires Valid(s) && u in s.users
    ensures Detail(Anonymous, s, u.id).response.data.user == Some(u)
  {
    assert HasUser(s, u.id);
  }

  const ExportHeader: string := "Id,Username,FullName,Role,Gender,Classes"

  /** The names of the user's subjects, in subject order, each escaped. */
  function EscapedClassNames(subjects: seq<Subject>, enrollments: set<UserSubject>, userId: int): (r: seq<string>)
    ensures |r| <= |subjects|
    ensures forall n :: n in r <==>
      exists x :: x in subjects && UserSubject(userId, x.id) in enrollments && n == Csv.Escape(x.name)
    decreases |subjects|
  {
    if subjects == [] then []
    else
      var rest := EscapedClassNames(subjects[1..], enrollments, userId);
      if UserSubject(userId, subjects[0].id) in enrollments then [Csv.Escape(subjects[0].name)] + rest else rest
  }

  /** The `Classes` column: the escaped subject names joined with ';'. */
  function ClassesField(s: Store, u: User): string {
    Csv.Join(EscapedClassNames(s.subjects, s.enrollments, u.id), ";")
  }

  /** One line of the export, without its line break. */
  function ExportRow(s: Store, u: User): (r: string)
    ensures StartsWith(r, IntToString(u.id) + ",")
  {
    Csv.Join([IntToString(u.id), Csv.Escape(u.username), Csv.Escape(u.fullName), RoleName(u.role),
              GenderName(u.gender), ClassesField(s, u)], ",")
  }

  /** The rows of `users`, each followed by a line break. */
  function ExportLines(s: Store, users: seq<User>): (r: string)
    ensures |users| > 0 ==> StartsWith(r, ExportRow(s, users[0]) + "\n")
    decreases |users|
  {
    if users == [] then [] else ExportRow(s, users[0]) + "\n" + ExportLines(s, users[1..])
  }

  /** One step of `ExportLines`, for proofs that keep it hidden. */
  lemma ExportLinesStep(s: Store, users: seq<User>)
    requires users != []
    ensures ExportLines(s, users) == ExportRow(s, users[0]) + "\n" + ExportLines(s, users[1..])
  {
  }

  /** No user gives no line. */
  lemma ExportLinesNone(s: Store)
    ensures ExportLines(s, []) == []
  {
  }

  /** A single user is exported as its row and a line break. */
  lemma ExportLinesOne(s: Store, u: User)
    ensures ExportLines(s, [u]) == ExportRow(s, u) + "\n"
  {
    assert [u][1..] == [];
  }

  /** The export of a list is the exports of its parts in order: with
      `ExportLinesOne`, one line per user in table order. */
  lemma {:induction false} ExportLinesSplit(s: Store, a: seq<User>, b: seq<User>)
    ensures ExportLines(s, a + b) == ExportLines(s, a) + ExportLines(s, b)
    decreases |a|
  {
    hide ExportLines, ExportRow, StartsWith;
    if a == [] {
      ExportLinesNone(s);
      assert a + b == b;
    } else {
      ExportLinesSplit(s, a[1..], b);
      ExportLinesSplitStep(s, a, b);
    }
  }

  /** The inductive step of `ExportLinesSplit`. */
  lemma ExportLinesSplitStep(s: Store, a: seq<User>, b: seq<User>)
    requires a != []
    requires ExportLines(s, a[1..] + b) == ExportLines(s, a[1..]) + ExportLines(s, b)
    ensures ExportLines(s, a + b) == ExportLines(s, a) + ExportLines(s, b)
  {
    hide ExportLines, ExportRow, StartsWith;
    var ab := a + b;
    assert ab[0] == a[0] && ab[1..] == a[1..] + b;
    ExportLinesStep(s, a);
    ExportLinesStep(s, ab);
    var row, rest, tail := ExportRow(s, a[0]) + "\n", ExportLines(s, a[1..]), ExportLines(s, b);
    assert ExportLines(s, ab) == row + (rest + tail);
    assert row + (rest + tail) == (row + rest) + tail;
  }

  /** The exported file: the header line, then one line per user in table order. */
  function ExportText(s: Store): string {
    ExportHeader + "\n" + ExportLines(s, s.users)
  }

  /** Digits and a minus sign need no quoting. */
  lemma IntTextIsPlain(n: int)
    ensures ',' !in IntToString(n) && '"' !in IntToString(n)
  {
    var t := IntToString(n);
    assert forall i :: 0 <= i < |t| ==> t[i] != ',' && t[i] != '"';
  }

  /** Role and gender names need no quoting. */
  lemma NamesArePlain(r: UserRole, g: Gender)
    ensures ',' !in RoleName(r) && '"' !in RoleName(r)
    ensures ',' !in GenderName(g) && '"' !in GenderName(g)
  {
    match r
    case Admin => {} case Teacher => {} case Student => {}
    match g
    case Male => {} case Female => {} case Other => {}
  }

  /** A row reads back as the six values it was written from, provided the
      `Classes` column, which is joined with ';' rather than escaped as a
      whole, holds no comma or quote. */
  lemma ExportRowReadsBack(s: Store, u: User)
    requires ',' !in ClassesField(s, u) && '"' !in ClassesField(s, u)
    ensures Csv.ParseRecord(ExportRow(s, u)) ==
      Some([IntToString(u.id), u.username, u.fullName, RoleName(u.role), GenderName(u.gender), ClassesField(s, u)])
  {
    hide Csv.Escape;
    var texts := [IntToString(u.id), Csv.Escape(u.username), Csv.Escape(u.fullName), RoleName(u.role),
                  GenderName(u.gender), ClassesField(s, u)];
    var vs := [IntToString(u.id), u.username, u.fullName, RoleName(u.role), GenderName(u.gender), ClassesField(s, u)];
    assert Csv.Encodes(IntToString(u.id), IntToString(u.id)) by {
      IntTextIsPlain(u.id);
    }
    NamesArePlain(u.role, u.gender);
    assert Csv.Encodes(Csv.Escape(u.username), u.username) && Csv.Encodes(Csv.Escape(u.fullName), u.fullName);
    assert Csv.Encodes(ClassesField(s, u), ClassesField(s, u));
    assert forall i :: 0 <= i < |vs| ==> Csv.Encodes(texts[i], vs[i]) by {
      hide Csv.Encodes;
    }
    Csv.RecordRoundTrip(texts, vs);
  }

  /** `Export`: the file `users_<ticks>.csv` is written to the exports folder
      and the browser is sent to the download route for it. `now` stands for
      `DateTime.UtcNow.Ticks`. */
  function ExportFileName(now: int): (r: string)
    ensures StartsWith(r, "users_") && EndsWith(r, ".csv")
  {
    "users_" + IntToString(now) + ".csv"
  }

  function Export(h: Host, p: Principal, s: Store, now: int): (r: Reply)
    ensures r.store == s
    ensures !Admit(PolicyOf(AdminExport), p).Admitted? ==> r == Denied(Admit(PolicyOf(AdminExport), p), s)
    ensures Admit(PolicyOf(AdminExport), p).Admitted? ==>
      && r.response == Redirect("/SecureFile/Export?fileName=" + ExportFileName(now), NoFlash)
      && r.written == [TextFile(Combine(StoragePath(h, "Exports"), ExportFileName(now)), ExportText(s))]
  {
    var g := Admit(PolicyOf(AdminExport), p);
    if !g.Admitted? then Denied(g, s)
    else
      var fileName := ExportFileName(now);
      Reply(Redirect("/SecureFile/Export?fileName=" + fileName, NoFlash), s,
            [TextFile(Combine(StoragePath(h, "Exports"), fileName), ExportText(s))])
  }
}

=== FILE: auth_controller.dfy ===
/** `AuthController`: sign-in, self-registration as a student, and sign-out. */
module AuthController {
  import opened Common
  import opened Text
  import opened Entities
  import opened Db
  import opened Web
  import opened Routes
  import opened AuthService

  /** Where `RedirectToAction("Index", "Home")` leads after a sign-in. */
  const HomePage: string := "/Home/Index"

  const UsernameMaxLength: nat := 50

  /** The bound `LoginVm`; a null model or field is the empty string. */
  datatype LoginForm = LoginForm(username: string, password: string)

  /** The checks of `Login` after the blank-field one, on the trimmed name. */
  function CheckCredentials(hasher: PasswordHasher, s: Store, username: string, password: string): (r: Response)
    ensures r.SignIn? <==> |username| <= UsernameMaxLength && Authenticate(s, hasher, username, password).Some?
    ensures r.SignIn? ==>
      && r.location == HomePage && r.user in s.users && r.user.username == username
      && hasher.verify(password, r.user.passwordHash)
    ensures !r.SignIn? ==> r == Page("Login", NoData, [InvalidLogin])
  {
    if |username| > UsernameMaxLength then Page("Login", NoData, [InvalidLogin])
    else match Authenticate(s, hasher, username, password)
      case None => Page("Login", NoData, [InvalidLogin])
      case Some(u) => SignIn(u, HomePage)
  }

  /** `Login` (POST): the username is trimmed and capped at 50 characters, the
      password is taken as typed; every failed check after the blank-field one
      gives the same message. The token and its cookie are the `SignIn` case. */
  function Login(hasher: PasswordHasher, p: Principal, s: Store, form: LoginForm): (r: Reply)
    ensures r.store == s && r.written == []
    ensures Admit(PolicyOf(AuthLogin), p).Admitted?
    ensures IsBlank(form.username) || IsBlank(form.password) ==>
      r.response == Page("Login", NoData, [FieldsRequired])
    ensures !IsBlank(form.username) && !IsBlank(form.password) ==>
      r.response == CheckCredentials(hasher, s, Trim(form.username), form.password)
    ensures r.response.SignIn? <==>
      && !IsBlank(form.username) && !IsBlank(form.password) && |Trim(form.username)| <= UsernameMaxLength
      && Authenticate(s, hasher, Trim(form.username), form.password).Some?
  {
    BlankIffTrimEmpty(form.username);
    if IsBlank(form.username) || IsBlank(form.password) then Reply(Page("Login", NoData, [FieldsRequired]), s, [])
    else Reply(CheckCredentials(hasher, s, Trim(form.username), form.password), s, [])
  }

  /** The subjects offered on the registration form, listed in the handler. */
  const RegisterFormSubjects: seq<Subject> := [
    Subject(1, "Math"), Subject(2, "Physics"), Subject(3, "Chemistry"),
    Subject(4, "Literature"), Subject(5, "English")]

  /** The form offers exactly the seeded subject ids, in the same order, under
      English names where the seed has Vietnamese ones. */
  lemma RegisterFormOffersSeededIds()
    ensures |RegisterFormSubjects| == |SeedSubjects|
    ensures forall i :: 0 <= i < |SeedSubjects| ==>
      RegisterFormSubjects[i].id == SeedSubjects[i].id && RegisterFormSubjects[i].name != SeedSubjects[i].name
  {
  }

  /** The bound `RegisterVm`; a null field is the empty string, a null subject
      list is `None`. */
  datatype RegisterForm = RegisterForm(username: string, password: string, fullName: string, gender: Gender,
                                       subjectIds: Option<seq<int>>)

  /** The subject ids of the form; none when the list is null. */
  function ChosenSubjects(form: RegisterForm): (r: seq<int>)
    ensures form.subjectIds.Some? ==> r == form.subjectIds.value
    ensures form.subjectIds.None? ==> r == []
  {
    if form.subjectIds.Some? then form.subjectIds.value else []
  }

  /** The validation of `Register`, in order; the username and full name are
      already trimmed. */
  function RegisterProblem(username: string, password: string, fullName: string): (r: Option<Problem>)
    ensures r.None? <==>
      !IsBlank(username) && !IsBlank(fullName) && !IsBlank(password)
      && |password| >= 6 && |username| <= UsernameMaxLength
  {
    if IsBlank(username) || IsBlank(fullName) || IsBlank(password) then Some(FieldsRequired)
    else if |password| < 6 then Some(PasswordTooShort)
    else if |username| > UsernameMaxLength then Some(UsernameTooLong)
    else None
  }

  /** The failure a registration reports. */
  function RegisterFailure(e: RegisterError): (r: Problem)
    ensures e.UsernameAlreadyExists? <==> r == UsernameExists
  {
    match e
    case UsernameAlreadyExists => UsernameExists
    case Storage(err) => Problem.Storage(err)
  }

  /** The save step of `Register`: the service call and the page its
      failure shows. */
  function SaveRegistration(hasher: PasswordHasher, s: Store, username: string, password: string,
                            fullName: string, gender: Gender, subjectIds: seq<int>): (r: Reply)
    ensures var e := RegisterStudent(s, hasher, username, password, fullName, gender, subjectIds, None);
      && r.store == e.store && r.written == []
      && (r.response == Redirect(LoginPage, NoFlash) <==> e.result.Ok?)
      && (e.result.Err? ==> r.response == Page("Register", NoData, [RegisterFailure(e.result.error)]))
  {
    var e := RegisterStudent(s, hasher, username, password, fullName, gender, subjectIds, None);
    match e.result
    case Ok(_) => Reply(Redirect(LoginPage, NoFlash), e.store, [])
    case Err(err) => Reply(Page("Register", NoData, [RegisterFailure(err)]), e.store, [])
  }

  /** `Register` (POST): a student account with the chosen subjects; a failure
      while saving the enrollments leaves the account saved. */
  function Register(hasher: PasswordHasher, p: Principal, s: Store, form: RegisterForm): (r: Reply)
    ensures r.written == []
    ensures Admit(PolicyOf(AuthRegister), p).Admitted?
    ensures var problem := RegisterProblem(Trim(form.username), form.password, Trim(form.fullName));
      && (problem.Some? ==> r == Reply(Page("Register", NoData, [problem.value]), s, []))
      && (problem.None? ==>
            r == SaveRegistration(hasher, s, Trim(form.username), form.password, Trim(form.fullName), form.gender,
                                  ChosenSubjects(form)))
  {
    var problem := RegisterProblem(Trim(form.username), form.password, Trim(form.fullName));
    if problem.Some? then Reply(Page("Register", NoData, [problem.value]), s, [])
    else SaveRegistration(hasher, s, Trim(form.username), form.password, Trim(form.fullName), form.gender, ChosenSubjects(form))
  }

  /** Registration only ever adds students: every new row is a Student, and
      the rows before it are untouched. */
  lemma RegisterAddsOnlyStudents(hasher: PasswordHasher, p: Principal, s: Store, form: RegisterForm)
    requires Valid(s)
    ensures var r := Register(hasher, p, s, form);
      && |s.users| <= |r.store.users| <= |s.users| + 1
      && r.store.users[..|s.users|] == s.users
      && forall i :: |s.users| <= i < |r.store.users| ==> r.store.users[i].role == Student
  {
    hide Trim;
    var username, fullName := Trim(form.username), Trim(form.fullName);
    var ids := ChosenSubjects(form);
    var r := Register(hasher, p, s, form);
    if RegisterProblem(username, form.password, fullName).None? {
      var e := RegisterStudent(s, hasher, username, form.password, fullName, form.gender, ids, None);
      assert r.store == e.store;
      if e.store != s && e.result.Err? {
        var user := User(0, username, hasher.hash(form.password), fullName, form.gender, None, None, None, Student);
        assert AddUser(s, user).Ok?;
        var (s1, added) := AddUser(s, user).value;
        assert e.store == s1;
      } else if e.result.Ok? {
        assert r.store.users == s.users + [e.result.value];
      }
    }
  }

  /** An enrollment refused by the database after the account was saved: the
      page reports a storage failure, yet the account exists, and registering
      again with the same name reports the name as taken. */
  lemma UnknownSubjectLeavesAccount(hasher: PasswordHasher, p: Principal, s: Store, form: RegisterForm)
    requires Valid(s)
    requires RegisterProblem(Trim(form.username), form.password, Trim(form.fullName)).None?
    requires |Trim(form.username)| <= 50 && |Trim(form.fullName)| <= 100
    requires forall u :: u in s.users ==> u.username != Trim(form.username)
    requires form.subjectIds.Some? && |form.subjectIds.value| > 0
    requires forall sid :: sid in form.subjectIds.value ==> !HasSubject(s, sid)
    ensures var r := Register(hasher, p, s, form);
      && r.response.Page? && r.response.problems[0].Storage?
      && (exists u :: u in r.store.users && u.username == Trim(form.username) && u.role == Student)
      && Register(hasher, p, r.store, form).response == Page("Register", NoData, [UsernameExists])
  {
    hide Trim;
    var username, fullName := Trim(form.username), Trim(form.fullName);
    var ids := form.subjectIds.value;
    var user := User(0, username, hasher.hash(form.password), fullName, form.gender, None, None, None, Student);
    assert FitsColumns(user);
    assert AddUser(s, user).Ok?;
    var (s1, added) := AddUser(s, user).value;
    assert ids[0] in ids && !HasSubject(s1, ids[0]);
    assert AddEnrollments(s1, added.id, ids).Err?;
    var e := RegisterStudent(s, hasher, username, form.password, fullName, form.gender, ids, None);
    assert e == Effect(Err(RegisterError.Storage(AddEnrollments(s1, added.id, ids).error)), s1);
    var r := Register(hasher, p, s, form);
    assert r.store == s1 && added in s1.users;
    assert RegisterStudent(s1, hasher, username, form.password, fullName, form.gender, ids, None)
           == Effect(Err(UsernameAlreadyExists), s1);
  }

  /** A completed registration can sign in with the same name and password. */
  lemma RegisteredStudentSignsIn(hasher: PasswordHasher, p: Principal, s: Store, form: RegisterForm)
    requires Valid(s) && Sound(hasher)
    requires Register(hasher, p, s, form).response == Redirect(LoginPage, NoFlash)
    ensures var r := Register(hasher, p, s, form);
      var signIn := Login(hasher, p, r.store, LoginForm(form.username, form.password)).response;
      && signIn.SignIn? && signIn.user.role == Student && signIn.user.username == Trim(form.username)
  {
    var username, fullName := Trim(form.username), Trim(form.fullName);
    var ids := ChosenSubjects(form);
    assert RegisterProblem(username, form.password, fullName).None?;
    RegisterThenAuthenticate(s, hasher, username, form.password, fullName, form.gender, ids, None);
  }

  /** `Logout`: the token cookie is deleted, which the model does not track,
      and the browser is sent to the login page. The global antiforgery
      filter that runs before the handler is not modelled. */
  function Logout(p: Principal, s: Store): (r: Reply)
    ensures Admit(PolicyOf(AuthLogout), p).Admitted?
    ensures r.store == s && r.written == [] && r.response.Redirect? && r.response.location == LoginPage
  {
    Reply(Redirect(LoginPage, NoFlash), s, [])
  }
}

=== FILE: auth_service.dfy ===
/** Credential checks and self-registration. The password hash is a bcrypt
    call, kept uninterpreted: a hasher is a pair of functions, and the only
    fact used about them is that a password verifies against its own hash. */
module AuthService {
  import opened Common
  import opened Entities
  import opened Db
  import Seqs

  datatype PasswordHasher = PasswordHasher(hash: string -> string, verify: (string, string) -> bool)

  /** `Verify(p, HashPassword(p))` holds for every password. */
  ghost predicate Sound(h: PasswordHasher) {
    forall p :: h.verify(p, h.hash(p))
  }

  /** Service-level failures surfaced as exceptions. */
  datatype RegisterError = UsernameAlreadyExists | Storage(error: DbError)

  /** A service call's result together with the database after it; a call can
      fail after part of its work was already saved. */
  datatype Effect<T, E> = Effect(result: Result<T, E>, store: Store)

  /** `AuthenticateAsync`: the user with exactly this username, provided the
      password verifies against the stored hash. */
  function Authenticate(s: Store, h: PasswordHasher, username: string, password: string): (r: Option<User>)
    ensures r.Some? ==> r.value in s.users && r.value.username == username
                        && h.verify(password, r.value.passwordHash)
    ensures Valid(s) ==>
      (r.Some? <==> exists u :: u in s.users && u.username == username && h.verify(password, u.passwordHash))
  {
    match Seqs.FirstWhere(s.users, (u: User) => u.username == username)
    case None => None
    case Some(u) => if h.verify(password, u.passwordHash) then Some(u) else None
  }

  /** `RegisterStudentAsync`: refuse a taken username, else save the user (role
      Student unless one is given) and then one enrollment per subject id. */
  function RegisterStudent(s: Store, h: PasswordHasher, username: string, password: string,
                           fullName: string, gender: Gender, subjectIds: seq<int>,
                           role: Option<UserRole>): (r: Effect<User, RegisterError>)
    ensures (exists u :: u in s.users && u.username == username) ==>
      r == Effect(Err(UsernameAlreadyExists), s)
    ensures r.result.Ok? ==>
      var added := r.result.value;
      && added.username == username && added.fullName == fullName && added.gender == gender
      && added.passwordHash == h.hash(password)
      && added.role == (if role.Some? then role.value else Student)
      && added.id == s.nextUserId
      && r.store.users == s.users + [added]
      && (forall e :: e in r.store.enrollments <==>
            e in s.enrollments || (e.userId == added.id && e.subjectId in subjectIds))
      && r.store.exams == s.exams && r.store.submissions == s.submissions
    ensures r.result.Err? ==> r.store == s || |r.store.users| == |s.users| + 1
  {
    if exists u :: u in s.users && u.username == username then Effect(Err(UsernameAlreadyExists), s)
    else
      var userRole := if role.Some? then role.value else Student;
      var user := User(0, username, h.hash(password), fullName, gender, None, None, None, userRole);
      match AddUser(s, user)
      case Err(e) => Effect(Err(Storage(e)), s)
      case Ok((s1, added)) =>
        match AddEnrollments(s1, added.id, subjectIds)
        case Err(e) => Effect(Err(Storage(e)), s1)
        case Ok(s2) => Effect(Ok(added), s2)
  }

  /** A successful registration keeps the database valid, and the new account
      can sign in with the password it registered with. */
  lemma RegisterThenAuthenticate(s: Store, h: PasswordHasher, username: string, password: string,
                                 fullName: string, gender: Gender, subjectIds: seq<int>,
                                 role: Option<UserRole>)
    requires Valid(s) && Sound(h)
    requires RegisterStudent(s, h, username, password, fullName, gender, subjectIds, role).result.Ok?
    ensures var r := RegisterStudent(s, h, username, password, fullName, gender, subjectIds, role);
      && Valid(r.store)
      && Authenticate(r.store, h, username, password) == Some(r.result.value)
  {
    var r := RegisterStudent(s, h, username, password, fullName, gender, subjectIds, role);
    var user := User(0, username, h.hash(password), fullName, gender, None, None, None,
                     if role.Some? then role.value else Student);
    var (s1, added) := AddUser(s, user).value;
    AddUserPreservesValid(s, user);
    AddEnrollmentsPreservesValid(s1, added.id, subjectIds);
    assert added in r.store.users;
    assert h.verify(password, added.passwordHash);
  }
}

=== FILE: common.dfy ===
/** Failure-carrying wrappers shared by every module of the model. */
module Common {

  /** A value that may be absent: a nullable reference or a `FirstOrDefault` result. */
  datatype Option<+T> = None | Some(value: T)

  /** The outcome of an operation that can raise: a value or the error it raised. */
  datatype Result<+T, +E> = Ok(value: T) | Err(error: E)
}

=== FILE: csv.dfy ===
/** The CSV text of the user export: the value escaping the export applies,
    and a reader for one record in the quoting convention of RFC 4180, so that
    what escaping promises can be stated as a round trip. */
module Csv {
  import opened Common
  import opened Text
  import Quoting

  /** A value a spreadsheet would read as a formula or control sequence. */
  predicate StartsDangerous(v: string) {
    |v| > 0 && v[0] in {'=', '+', '-', '@', '\t', '\r'}
  }

  /** A value that would break the record unless quoted. */
  predicate NeedsQuoting(v: string) {
    ',' in v || '\n' in v || '"' in v || '\r' in v
  }

  function Quote(v: string): (r: string)
    ensures |r| >= |v| + 2 && r[0] == '"' && r[|r| - 1] == '"'
  {
    Quoting.DoubledLength(v, '"');
    "\"" + Quoting.Doubled(v, '"') + "\""
  }

  /** `EscapeCsvValue`: quote a value that starts like a formula or holds a
      separator, a line break or a quote; leave any other value as it is. */
  function Escape(v: string): (r: string)
    ensures v == [] ==> r == []
    ensures !StartsDangerous(r)
    ensures r == v || r == Quote(v)
    ensures r == v <==> v == [] || (!StartsDangerous(v) && !NeedsQuoting(v))
  {
    if v == [] then []
    else if StartsDangerous(v) then Quote(v)
    else if NeedsQuoting(v) then Quote(v)
    else v
  }

  // ---- reading one record ----

  /** The text of an unquoted field: everything before the first comma. */
  function Unquoted(t: string): (r: string)
    ensures StartsWith(t, r) && ',' !in r
    ensures |r| < |t| ==> t[|r|] == ','
  {
    if |t| == 0 || t[0] == ',' then [] else [t[0]] + Unquoted(t[1..])
  }

  /** One field and the text after it. */
  function ParseField(t: string): (r: Option<(string, string)>)
    ensures r.Some? ==> |r.value.1| <= |t|
  {
    if |t| > 0 && t[0] == '"' then Quoting.ReadQuoted(t[1..], '"')
    else
      var v := Unquoted(t);
      Some((v, t[|v|..]))
  }

  /** A whole record: fields separated by commas up to the end of the text. */
  function ParseRecord(t: string): (r: Option<seq<string>>)
    ensures r.Some? ==> |r.value| >= 1
    decreases |t|
  {
    match ParseField(t)
    case None => None
    case Some((v, rest)) =>
      if rest == [] then Some([v])
      else if rest[0] != ',' then None
      else
        match ParseRecord(rest[1..])
        case None => None
        case Some(vs) => Some([v] + vs)
  }

  /** `string.Join(sep, parts)`. */
  function Join(parts: seq<string>, sep: string): (r: string)
    ensures |parts| == 1 ==> r == parts[0]
  {
    if |parts| == 0 then []
    else if |parts| == 1 then parts[0]
    else parts[0] + sep + Join(parts[1..], sep)
  }

  /** Text that reads back as `v` when followed by a comma or the end: its
      escaped form, or `v` itself when it holds neither comma nor quote. */
  predicate Encodes(text: string, v: string) {
    text == Escape(v) || (text == v && ',' !in v && '"' !in v)
  }

  lemma {:induction false} UnquotedOfPlain(v: string, rest: string)
    requires ',' !in v && (rest == [] || rest[0] == ',')
    ensures Unquoted(v + rest) == v
    decreases |v|
  {
    if |v| > 0 {
      assert (v + rest)[1..] == v[1..] + rest;
      UnquotedOfPlain(v[1..], rest);
    }
  }

  /** A field written as `text` reads back as `v`, leaving the rest of the record. */
  lemma FieldRoundTrip(text: string, v: string, rest: string)
    requires Encodes(text, v) && (rest == [] || rest[0] == ',')
    ensures ParseField(text + rest) == Some((v, rest))
  {
    if text == v && ',' !in v && '"' !in v {
      UnquotedOfPlain(v, rest);
      assert (v + rest)[|v|..] == rest;
    } else {
      EscapedPlainOrQuoted(v);
      assert text == Quote(v);
      assert (text + rest)[1..] == Quoting.Doubled(v, '"') + "\"" + rest;
      Quoting.ReadDoubled(v, '"', rest);
    }
  }

  /** An escaped value that holds a comma or a quote is the quoted value. */
  lemma EscapedPlainOrQuoted(v: string)
    ensures Escape(v) == v ==> ',' !in v && '"' !in v
    ensures Escape(v) != v ==> Escape(v) == Quote(v)
  {
  }

  /** Every escaped value reads back as itself. */
  lemma EscapeRoundTrip(v: string)
    ensures ParseField(Escape(v)) == Some((v, []))
  {
    FieldRoundTrip(Escape(v), v, []);
    assert Escape(v) + [] == Escape(v);
  }

  /** A record written field by field, joined with commas, reads back as its values. */
  lemma {:induction false} RecordRoundTrip(texts: seq<string>, vs: seq<string>)
    requires |texts| == |vs| >= 1
    requires forall i :: 0 <= i < |vs| ==> Encodes(texts[i], vs[i])
    ensures ParseRecord(Join(texts, ",")) == Some(vs)
    decreases |vs|
  {
    if |vs| == 1 {
      FieldRoundTrip(texts[0], vs[0], []);
      assert texts[0] + [] == texts[0];
      assert Join(texts, ",") == texts[0];
      assert ParseField(texts[0]) == Some((vs[0], []));
      assert vs == [vs[0]];
    } else {
      var tail := Join(texts[1..], ",");
      FieldRoundTrip(texts[0], vs[0], "," + tail);
      assert Join(texts, ",") == texts[0] + ("," + tail);
      assert ("," + tail)[1..] == tail;
      RecordRoundTrip(texts[1..], vs[1..]);
      assert [vs[0]] + vs[1..] == vs;
    }
  }
}

=== FILE: db_initializer.dfy ===
/** Start-up seeding: the default administrator account. */
module DbInitializer {
  import opened Common
  import opened Entities
  import opened Db
  import opened AuthService

  const AdminUsername: string := "admin"
  const AdminPassword: string := "Admin@123"

  predicate HasAdmin(s: Store) {
    exists u :: u in s.users && u.role == Admin
  }

  /** The administrator row as built at start-up, before the database assigns its id. */
  function DefaultAdmin(h: PasswordHasher): User {
    User(0, AdminUsername, h.hash(AdminPassword), "System Administrator", Other,
         None, Some("0000000000"), Some("Admin Address"), Admin)
  }

  /** `Initialize`: when no user has the Admin role, save the default
      administrator; the unique username index refuses it when a non-admin
      already holds the name "admin". */
  function Initialize(s: Store, h: PasswordHasher): (r: Result<Store, DbError>)
    ensures HasAdmin(s) ==> r == Ok(s)
    ensures !HasAdmin(s) ==>
      (r.Ok? <==> forall u :: u in s.users ==> u.username != AdminUsername)
    ensures r.Ok? ==> HasAdmin(r.value)
    ensures r.Ok? && !HasAdmin(s) ==>
      r.value.users == s.users + [DefaultAdmin(h).(id := s.nextUserId)]
    ensures r.Err? ==> r == Err(DuplicateKey)
  {
    if HasAdmin(s) then Ok(s)
    else
      match AddUser(s, DefaultAdmin(h))
      case Err(e) => Err(e)
      case Ok((s', added)) =>
        assert added in s'.users;
        Ok(s')
  }

  /** Seeding twice is seeding once. */
  lemma InitializeIdempotent(s: Store, h: PasswordHasher)
    requires Initialize(s, h).Ok?
    ensures Initialize(Initialize(s, h).value, h) == Initialize(s, h)
  {
  }

  /** On a fresh database the seeded administrator signs in with the default
      password, and the database stays consistent. */
  lemma FreshDatabaseAdminSignsIn(h: PasswordHasher)
    requires Sound(h)
    ensures Initialize(InitialStore(), h).Ok?
    ensures Valid(Initialize(InitialStore(), h).value)
    ensures Authenticate(Initialize(InitialStore(), h).value, h, AdminUsername, AdminPassword)
            == Some(DefaultAdmin(h).(id := 1))
  {
    InitialStoreValid();
    AddUserPreservesValid(InitialStore(), DefaultAdmin(h));
    var s' := Initialize(InitialStore(), h).value;
    assert s'.users == [DefaultAdmin(h).(id := 1)];
  }
}

=== FILE: entities.dfy ===
/** The persisted entities: users with their role and gender, subjects, the
    user-subject enrollment join, exams and submissions. Navigation properties
    are replaced by the foreign-key ids they follow. */
module Entities {
  import opened Common

  /** Stored as its ordinal: Admin = 0, Teacher = 1, Student = 2. */
  datatype UserRole = Admin | Teacher | Student

  /** Stored as its ordinal: Male = 0, Female = 1, Other = 2. */
  datatype Gender = Male | Female | Other

  function RoleOrdinal(r: UserRole): int {
    match r
    case Admin => 0
    case Teacher => 1
    case Student => 2
  }

  function RoleFromOrdinal(n: int): Option<UserRole> {
    if n == 0 then Some(Admin) else if n == 1 then Some(Teacher) else if n == 2 then Some(Student) else None
  }

  function GenderOrdinal(g: Gender): int {
    match g
    case Male => 0
    case Female => 1
    case Other => 2
  }

  function GenderFromOrdinal(n: int): Option<Gender> {
    if n == 0 then Some(Male) else if n == 1 then Some(Female) else if n == 2 then Some(Other) else None
  }

  /** The role enum has exactly the three ordinals 0, 1, 2, and decoding an
      ordinal inverts encoding. */
  lemma RoleOrdinals()
    ensures forall r: UserRole :: RoleFromOrdinal(RoleOrdinal(r)) == Some(r)
    ensures forall n: int :: RoleFromOrdinal(n).Some? <==> 0 <= n <= 2
    ensures forall n: int :: RoleFromOrdinal(n).Some? ==> RoleOrdinal(RoleFromOrdinal(n).value) == n
  {
  }

  /** The gender enum has exactly the three ordinals 0, 1, 2, and decoding an
      ordinal inverts encoding. */
  lemma GenderOrdinals()
    ensures forall g: Gender :: GenderFromOrdinal(GenderOrdinal(g)) == Some(g)
    ensures forall n: int :: GenderFromOrdinal(n).Some? <==> 0 <= n <= 2
    ensures forall n: int :: GenderFromOrdinal(n).Some? ==> GenderOrdinal(GenderFromOrdinal(n).value) == n
  {
  }

  /** `Enum.ToString()`: the member name, as written into CSV rows and claims. */
  function RoleName(r: UserRole): string {
    match r
    case Admin => "Admin"
    case Teacher => "Teacher"
    case Student => "Student"
  }

  function GenderName(g: Gender): string {
    match g
    case Male => "Male"
    case Female => "Female"
    case Other => "Other"
  }

  /** Column widths declared by `[StringLength]`. */
  const UsernameMaxLength: nat := 50
  const FullNameMaxLength: nat := 100

  datatype User = User(
    id: int,
    username: string,
    passwordHash: string,
    fullName: string,
    gender: Gender,
    avatarUrl: Option<string>,
    phoneNumber: Option<string>,
    address: Option<string>,
    role: UserRole)

  /** The row fits the declared column widths; `[Required]` only forbids null,
      which the model cannot express, so an empty name is storable. */
  predicate FitsColumns(u: User) {
    |u.username| <= UsernameMaxLength && |u.fullName| <= FullNameMaxLength
  }

  datatype Subject = Subject(id: int, name: string)

  /** Enrollment of a user (student or teacher) in a subject; the pair is the key. */
  datatype UserSubject = UserSubject(userId: int, subjectId: int)

  /** Every exam belongs to exactly one subject and one creating teacher. */
  datatype Exam = Exam(id: int, title: string, content: string, subjectId: int, createdByUserId: int)

  /** `submittedAt` is a timestamp in ticks; `score` and `gradedByUserId` stay
      unset until the submission is graded. */
  datatype Submission = Submission(
    id: int,
    examId: int,
    studentId: int,
    filePath: string,
    submittedAt: int,
    score: Option<real>,
    gradedByUserId: Option<int>)

  predicate IsGraded(s: Submission) {
    s.score.Some? && s.gradedByUserId.Some?
  }
}

=== FILE: exam_service.dfy ===
/** Exam and submission operations: queries by subject and enrollment, the
    submission upsert and grading. */
module ExamService {
  import opened Common
  import opened Entities
  import opened Db
  import Seqs
  import Quoting
  import RawSql
  import opened Text

  /** `GetExamsBySubjectAsync`. */
  function ExamsBySubject(s: Store, subjectId: int): (r: seq<Exam>)
    ensures forall e :: e in r <==> e in s.exams && e.subjectId == subjectId
  {
    Seqs.Filter(s.exams, (e: Exam) => e.subjectId == subjectId)
  }

  /** `GetExamsForStudentAsync` and `GetExamsForTeacherAsync`, which share one
      query: the exams of every subject the user is enrolled in. Neither checks
      the user's role. */
  function ExamsOfEnrolledSubjects(s: Store, userId: int): (r: seq<Exam>)
    ensures forall e :: e in r <==> e in s.exams && UserSubject(userId, e.subjectId) in s.enrollments
    ensures |r| <= |s.exams|
  {
    var subjectIds := SubjectIdsOf(s, userId);
    Seqs.Filter(s.exams, (e: Exam) => e.subjectId in subjectIds)
  }

  /** The enrolled-subject query is the by-subject query taken over the user's subjects. */
  lemma EnrolledExamsAreSubjectExams(s: Store, userId: int, e: Exam)
    ensures e in ExamsOfEnrolledSubjects(s, userId) <==>
            exists sid :: sid in SubjectIdsOf(s, userId) && e in ExamsBySubject(s, sid)
  {
    if e in ExamsOfEnrolledSubjects(s, userId) {
      assert e in ExamsBySubject(s, e.subjectId);
    }
  }

  /** `GetExamByIdAsync`: the exam joined with its subject, the first row when
      there is one. */
  function GetExamById(s: Store, id: int): (r: Option<Exam>)
    ensures r.Some? ==> r.value in s.exams && r.value.id == id && HasSubject(s, r.value.subjectId)
    ensures r.None? <==> forall e :: e in s.exams && e.id == id ==> !HasSubject(s, e.subjectId)
  {
    Seqs.FirstWhere(s.exams, (e: Exam) => e.id == id && HasSubject(s, e.subjectId))
  }

  /** On a consistent store the join drops nothing: the lookup is the key lookup. */
  lemma GetExamByIdIsKeyLookup(s: Store, id: int)
    requires Valid(s)
    ensures GetExamById(s, id) == FindExam(s, id)
  {
    if FindExam(s, id).Some? {
      var e := FindExam(s, id).value;
      assert HasSubject(s, e.subjectId);
    }
  }

  /** Why the raw insert fails: a brace in the title or content that the
      data layer's formatting rejects, so nothing is sent; a statement that is
      not the intended insert; or the database refusing the row. The
      database's own error text is not modelled. */
  datatype InsertFailure = BadFormat | SqlSyntax | Refused(error: DbError)

  /** The statement up to the title literal, written in short pieces. */
  const InsertExamPrefix: string :=
    "INSERT INTO Exams " + "(Title, SubjectId, " + "CreatedByUserId, " + "Content) " + "VALUES ('"

  /** The statement `AddExamAsync` builds by concatenation: the title has its
      quotes doubled, the content is pasted in as it is. Layout whitespace is
      dropped. */
  function InsertExamStatement(e: Exam): (r: string)
    ensures StartsWith(r, InsertExamPrefix)
  {
    InsertExamPrefix + Quoting.Doubled(e.title, '\'') + InsertExamMiddle(e) + e.content + "')"
  }

  /** The text between the title literal and the content literal. */
  function InsertExamMiddle(e: Exam): string {
    "', " + IntToString(e.subjectId) + ", " + IntToString(e.createdByUserId) + ", '"
  }

  /** The text the statement itself contributes holds no brace. */
  lemma InsertFrameBraceFree(e: Exam)
    ensures RawSql.BraceFree(InsertExamPrefix) && RawSql.BraceFree(InsertExamMiddle(e)) && RawSql.BraceFree("')")
  {
    assert RawSql.BraceFree("INSERT INTO Exams ");
    assert RawSql.BraceFree("(Title, SubjectId, ");
    assert RawSql.BraceFree("CreatedByUserId, ");
    assert RawSql.BraceFree("Content) ");
    assert RawSql.BraceFree("VALUES ('");
    RawSql.IntTextBraceFree(e.subjectId);
    RawSql.IntTextBraceFree(e.createdByUserId);
  }

  /** What reaches the database: the data layer formats the statement with no
      arguments, which touches only the braces of the title and the content.
      The statement is sent as the one built from the formatted title and
      content, or not at all when either does not format. */
  lemma InsertStatementSent(e: Exam)
    ensures RawSql.Format(InsertExamStatement(e)) ==
      if RawSql.Format(e.title).Some? && RawSql.Format(e.content).Some?
      then Some(InsertExamStatement(e.(title := RawSql.Format(e.title).value, content := RawSql.Format(e.content).value)))
      else None
  {
    hide RawSql.Format;
    InsertFrameBraceFree(e);
    RawSql.FormatDoubled(e.title, '\'');
    RawSql.FormatAroundTwo(InsertExamPrefix, Quoting.Doubled(e.title, '\''), InsertExamMiddle(e), e.content, "')");
  }

  /** How the database reads a statement it receives (by `InsertStatementSent`,
      the one built from the formatted title and content). The title literal
      always reads back as the title. The content literal, which ends the
      statement, reads back as a value followed by the closing parenthesis
      alone exactly when the content's quotes come in pairs and the value is
      the content with each pair read as one quote; in particular it reads
      back as the content itself if and only if the content holds no quote. */
  lemma InsertExamLiterals(e: Exam, v: string)
    ensures var after := ", " + IntToString(e.subjectId) + ", " + IntToString(e.createdByUserId) + ", '" + e.content + "')";
      Quoting.ReadQuoted(InsertExamStatement(e)[|InsertExamPrefix|..], '\'') == Some((e.title, after))
    ensures Quoting.ReadQuoted(e.content + "')", '\'') == Some((v, ")")) <==> Quoting.Undoubled(e.content, '\'') == Some(v)
    ensures Quoting.ReadQuoted(e.content + "')", '\'') == Some((e.content, ")")) <==> '\'' !in e.content
  {
    var after := ", " + IntToString(e.subjectId) + ", " + IntToString(e.createdByUserId) + ", '" + e.content + "')";
    assert InsertExamStatement(e)[|InsertExamPrefix|..] == Quoting.Doubled(e.title, '\'') + "'" + after;
    Quoting.ReadDoubled(e.title, '\'', after);
    assert e.content + "')" == e.content + "'" + ")";
    Quoting.LiteralReads(e.content, '\'', ")", v);
    if '\'' !in e.content {
      Quoting.DoubledOfQuoteFree(e.content, '\'');
      Quoting.ReadDoubled(e.content, '\'', ")");
    } else {
      Quoting.UndoubledMisread(e.content, '\'', ")");
    }
  }

  /** `AddExamAsync`: the raw insert, then the newest row's id reported back.
      The data layer first formats the statement: a brace in the title or the
      content that is not doubled stops it before it is sent. When both format
      and the formatted content's quotes come in pairs, the statement is the
      intended insert; it stores the formatted title, and the formatted
      content with each pair read as one quote. A lone quote in the content
      turns the statement into something other than the insert; the model
      takes every such statement to fail. */
  function AddExam(s: Store, e: Exam): (r: Result<(Store, Exam), InsertFailure>)
    ensures r.Ok? <==>
      && RawSql.Format(e.title).Some? && RawSql.LiteralValue(e.content).Some?
      && HasSubject(s, e.subjectId) && HasUser(s, e.createdByUserId)
    ensures RawSql.Format(e.title).None? || RawSql.Format(e.content).None? <==> r == Err(BadFormat)
    ensures r == Err(SqlSyntax) <==>
      RawSql.Format(e.title).Some? && RawSql.Format(e.content).Some? && RawSql.LiteralValue(e.content).None?
    ensures RawSql.Format(e.title).Some? && RawSql.LiteralValue(e.content).Some? && r.Err? ==>
      r == Err(Refused(ForeignKeyViolation))
    ensures r.Ok? ==>
      && r.value.1 == e.(id := r.value.1.id, title := RawSql.Format(e.title).value,
                         content := RawSql.LiteralValue(e.content).value)
      && r.value.1 in r.value.0.exams
    ensures r.Ok? ==> r.value.0 == s.(exams := r.value.0.exams, nextExamId := r.value.0.nextExamId)
    ensures r.Ok? && Valid(s) ==> !HasExam(s, r.value.1.id)
  {
    if RawSql.Format(e.title).None? || RawSql.Format(e.content).None? then Err(BadFormat)
    else
      match Quoting.Undoubled(RawSql.Format(e.content).value, '\'')
      case None => Err(SqlSyntax)
      case Some(content) =>
        match Db.AddExam(s, e.(title := RawSql.Format(e.title).value, content := content))
        case Err(error) => Err(Refused(error))
        case Ok(added) => Ok(added)
  }

  /** The exam `AddExam` stores for a draft it accepts: the draft's title and
      content are the stored ones written out as the source's caller would
      have to type them, braces doubled, and the content's quotes doubled
      first. */
  function StoredDraft(e: Exam): (r: Exam)
    requires RawSql.Format(e.title).Some? && RawSql.LiteralValue(e.content).Some?
    ensures r == e.(title := r.title, content := r.content)
    ensures e.title == RawSql.EscapeBraces(r.title)
    ensures e.content == RawSql.EscapeBraces(Quoting.Doubled(r.content, '\''))
  {
    var title, content := RawSql.Format(e.title).value, RawSql.LiteralValue(e.content).value;
    RawSql.FormatInverts(e.title, title);
    RawSql.LiteralValueInverts(e.content, content);
    e.(title := title, content := content)
  }

  /** The reported id finds the inserted exam, the newest row. */
  lemma AddExamThenFind(s: Store, e: Exam)
    requires Valid(s) && AddExam(s, e).Ok?
    ensures var (s', added) := AddExam(s, e).value;
            Valid(s') && FindExam(s', added.id) == Some(added) && GetExamById(s', added.id) == Some(added)
  {
    assert Db.AddExam(s, StoredDraft(e)).Ok?;
    var (s', added) := AddExam(s, e).value;
    AddExamPreservesValid(s, StoredDraft(e));
    GetExamByIdIsKeyLookup(s', added.id);
  }

  /** `DeleteExamAsync`: a missing id is a no-op. */
  function DeleteExam(s: Store, id: int): (r: Store)
    ensures forall e :: e in r.exams <==> e in s.exams && e.id != id
    ensures HasExam(s, id) ==> forall m :: m in r.submissions <==> m in s.submissions && m.examId != id
    ensures r.users == s.users && r.enrollments == s.enrollments
    ensures !HasExam(s, id) ==> r == s
  {
    match FindExam(s, id)
    case None => s
    case Some(_) => RemoveExam(s, id)
  }

  /** The submission of one student for one exam. */
  predicate IsSubmissionOf(m: Submission, examId: int, studentId: int) {
    m.examId == examId && m.studentId == studentId
  }

  /** `GetStudentSubmissionAsync`: the first row for the pair. */
  function StudentSubmission(s: Store, examId: int, studentId: int): (r: Option<Submission>)
    ensures r.Some? ==> r.value in s.submissions && IsSubmissionOf(r.value, examId, studentId)
    ensures r.None? <==> forall m :: m in s.submissions ==> !IsSubmissionOf(m, examId, studentId)
  {
    Seqs.FirstWhere(s.submissions, (m: Submission) => IsSubmissionOf(m, examId, studentId))
  }

  /** `GetSubmissionsForExamAsync`. */
  function SubmissionsForExam(s: Store, examId: int): (r: seq<Submission>)
    ensures forall m :: m in r <==> m in s.submissions && m.examId == examId
  {
    Seqs.Filter(s.submissions, (m: Submission) => m.examId == examId)
  }

  /** At most one submission per (exam, student): the upsert keeps it, but no
      database index enforces it. */
  predicate OneSubmissionPerPair(s: Store) {
    forall i, j :: 0 <= i < j < |s.submissions| ==>
      !IsSubmissionOf(s.submissions[j], s.submissions[i].examId, s.submissions[i].studentId)
  }

  /** `SubmitExamAsync` at time `now`: a resubmission replaces the file path
      and time of the existing row and keeps its grade; a first submission
      adds an ungraded row, which the foreign keys may refuse. */
  function SubmitExam(s: Store, examId: int, studentId: int, filePath: string, now: int): (r: Result<Store, DbError>)
    ensures StudentSubmission(s, examId, studentId).Some? ==> r.Ok?
    ensures StudentSubmission(s, examId, studentId).None? ==>
      (r.Ok? <==> HasExam(s, examId) && HasUser(s, studentId))
    ensures r.Ok? ==> r.value.users == s.users && r.value.exams == s.exams && r.value.enrollments == s.enrollments
  {
    match StudentSubmission(s, examId, studentId)
    case Some(existing) =>
      Ok(ReplaceSubmission(s, existing.(filePath := filePath, submittedAt := now)))
    case None =>
      match AddSubmission(s, Submission(0, examId, studentId, filePath, now, None, None))
      case Err(e) => Err(e)
      case Ok((s', _)) => Ok(s')
  }

  /** After a submission the student's row for the exam holds the new file and
      time; a resubmission keeps the row's id and grade. */
  lemma SubmitThenFind(s: Store, examId: int, studentId: int, filePath: string, now: int)
    requires Valid(s) && OneSubmissionPerPair(s)
    requires SubmitExam(s, examId, studentId, filePath, now).Ok?
    ensures var m := StudentSubmission(SubmitExam(s, examId, studentId, filePath, now).value, examId, studentId);
      && m.Some? && m.value.filePath == filePath && m.value.submittedAt == now
      && (StudentSubmission(s, examId, studentId).Some? ==>
            var before := StudentSubmission(s, examId, studentId).value;
            m.value == before.(filePath := filePath, submittedAt := now))
      && (StudentSubmission(s, examId, studentId).None? ==> m.value.score.None? && m.value.gradedByUserId.None?)
  {
    var s' := SubmitExam(s, examId, studentId, filePath, now).value;
    var m := StudentSubmission(s', examId, studentId);
    match StudentSubmission(s, examId, studentId)
    case Some(before) =>
      var k :| 0 <= k < |s.submissions| && s.submissions[k] == before;
      forall i | 0 <= i < |s.submissions| && s.submissions[i].id == before.id ensures i == k {
        IdentifiesSubmission(s, i, k);
      }
      assert s'.submissions[k] == before.(filePath := filePath, submittedAt := now);
      assert s'.submissions[k] in s'.submissions;
      SubmitExamPreservesInvariants(s, examId, studentId, filePath, now);
      var j :| 0 <= j < |s'.submissions| && s'.submissions[j] == m.value;
      OnlyRowOfPair(s', j, k, examId, studentId);
    case None =>
      var added := s'.submissions[|s.submissions|];
      assert added in s'.submissions && IsSubmissionOf(added, examId, studentId);
      assert m.Some?;
      assert m.value == added;
  }

  /** In a valid store a submission row is identified by its id. */
  lemma IdentifiesSubmission(s: Store, i: int, k: int)
    requires Valid(s) && 0 <= i < |s.submissions| && 0 <= k < |s.submissions|
    requires s.submissions[i].id == s.submissions[k].id
    ensures i == k
  {
    assert s.submissions[i] in s.submissions && s.submissions[k] in s.submissions;
  }

  /** Under the one-row-per-pair invariant, the row of a pair sits at a single index. */
  lemma OnlyRowOfPair(s: Store, j: int, k: int, examId: int, studentId: int)
    requires OneSubmissionPerPair(s) && 0 <= j < |s.submissions| && 0 <= k < |s.submissions|
    requires IsSubmissionOf(s.submissions[k], examId, studentId)
    requires j != k ==> IsSubmissionOf(s.submissions[j], examId, studentId)
    ensures j == k
  {
  }

  lemma SubmitExamPreservesInvariants(s: Store, examId: int, studentId: int, filePath: string, now: int)
    requires Valid(s) && OneSubmissionPerPair(s)
    requires SubmitExam(s, examId, studentId, filePath, now).Ok?
    ensures Valid(SubmitExam(s, examId, studentId, filePath, now).value)
    ensures OneSubmissionPerPair(SubmitExam(s, examId, studentId, filePath, now).value)
  {
    var s' := SubmitExam(s, examId, studentId, filePath, now).value;
    match StudentSubmission(s, examId, studentId)
    case Some(existing) =>
      ReplaceSubmissionPreservesValid(s, existing, existing.(filePath := filePath, submittedAt := now));
      forall i | 0 <= i < |s.submissions|
        ensures s'.submissions[i].examId == s.submissions[i].examId
             && s'.submissions[i].studentId == s.submissions[i].studentId
      {
        if s.submissions[i].id == existing.id {
          assert s.submissions[i] in s.submissions;
        }
      }
    case None =>
      AddSubmissionPreservesValid(s, Submission(0, examId, studentId, filePath, now, None, None));
      var n := |s.submissions|;
      forall i, j | 0 <= i < j < |s'.submissions|
        ensures !IsSubmissionOf(s'.submissions[j], s'.submissions[i].examId, s'.submissions[i].studentId)
      {
        if j == n {
          assert s.submissions[i] in s.submissions;
        }
      }
  }

  /** `GradeSubmissionAsync`: set the score and grading user of the row with that id;
      a missing id is a no-op. The score is not range-checked here, and the
      grading user's id is stored whether or not that user has a row: the
      column is not a foreign key. */
  function GradeSubmission(s: Store, submissionId: int, score: real, teacherId: int): (r: Store)
    ensures FindSubmission(s, submissionId).None? ==> r == s
    ensures r == s.(submissions := r.submissions) && |r.submissions| == |s.submissions|
    ensures Valid(s) ==> forall i :: 0 <= i < |s.submissions| ==>
      if s.submissions[i].id == submissionId
      then r.submissions[i] == s.submissions[i].(score := Some(score), gradedByUserId := Some(teacherId))
      else r.submissions[i] == s.submissions[i]
  {
    match FindSubmission(s, submissionId)
    case None => s
    case Some(sub) => ReplaceSubmission(s, sub.(score := Some(score), gradedByUserId := Some(teacherId)))
  }

  lemma GradeSubmissionPreservesInvariants(s: Store, submissionId: int, score: real, teacherId: int)
    requires Valid(s) && OneSubmissionPerPair(s)
    ensures Valid(GradeSubmission(s, submissionId, score, teacherId))
    ensures OneSubmissionPerPair(GradeSubmission(s, submissionId, score, teacherId))
    ensures forall m :: (m in GradeSubmission(s, submissionId, score, teacherId).submissions &&
                         m.id == submissionId) ==> IsGraded(m) && m.score == Some(score)
  {
    hide ReplaceSubmission;
    var r := GradeSubmission(s, submissionId, score, teacherId);
    if FindSubmission(s, submissionId).Some? {
      var sub := FindSubmission(s, submissionId).value;
      var graded := sub.(score := Some(score), gradedByUserId := Some(teacherId));
      assert r == ReplaceSubmission(s, graded);
      ReplaceSubmissionPreservesValid(s, sub, graded);
      forall i | 0 <= i < |r.submissions|
        ensures r.submissions[i].examId == s.submissions[i].examId
        ensures r.submissions[i].studentId == s.submissions[i].studentId
        ensures r.submissions[i].id == submissionId ==> r.submissions[i] == graded
      {
      }
      forall m | m in r.submissions && m.id == submissionId ensures m == graded {
        var i :| 0 <= i < |r.submissions| && r.submissions[i] == m;
      }
    }
  }
}

=== FILE: file_names.dfy ===
/** The names the upload handlers give stored files, and the test the file
    server applies to a requested name. */
module FileNames {
  import opened Text
  import opened Paths

  /** A file name with no way out of its folder: not blank, no `..`, no
      separator of either kind. */
  predicate IsPlainName(name: string) {
    !IsBlank(name) && !Contains(name, "..") && !Contains(name, "/") && !Contains(name, "\\")
  }

  /** Characters of the generated stems: digits, lower-case letters, `_` and `-`. */
  predicate IsStemChar(c: char) {
    IsDigit(c) || 'a' <= c <= 'z' || c == '_' || c == '-'
  }

  predicate IsStem(s: string) {
    forall i :: 0 <= i < |s| ==> IsStemChar(s[i])
  }

  /** An extension as the handlers keep it: a dot and then no dot or separator. */
  predicate IsCleanExtension(ext: string) {
    |ext| >= 2 && ext[0] == '.' && forall j :: 1 <= j < |ext| ==> ext[j] != '.' && ext[j] != '/' && ext[j] != '\\'
  }

  /** Characters of `Guid.ToString()`: hexadecimal digits and hyphens. */
  predicate IsGuidText(g: string) {
    forall i :: 0 <= i < |g| ==> IsDigit(g[i]) || 'a' <= g[i] <= 'f' || g[i] == '-'
  }

  lemma IntTextIsStem(n: int)
    ensures IsStem(IntToString(n))
  {
  }

  lemma GuidIsStem(g: string)
    requires IsGuidText(g)
    ensures IsStem(g)
  {
  }

  /** `exam_{examId}_student_{userId}_{guid}{ext}`. */
  function SubmissionName(examId: int, userId: int, guid: string, ext: string): (r: string)
    ensures EndsWith(r, ext)
    ensures IsGuidText(guid) ==> IsStem(r[..|r| - |ext|])
  {
    var stem := "exam_" + SubmissionHead(examId, userId) + "_" + guid;
    assert (stem + ext)[..|stem + ext| - |ext|] == stem;
    stem + ext
  }

  /** `{userId}_{guid}{ext}`. */
  function AvatarName(userId: int, guid: string, ext: string): (r: string)
    ensures EndsWith(r, ext)
    ensures IsGuidText(guid) ==> IsStem(r[..|r| - |ext|])
  {
    var stem := IntToString(userId) + "_" + guid;
    assert (stem + ext)[..|stem + ext| - |ext|] == stem;
    stem + ext
  }

  /** A non-empty stem followed by a clean extension is a plain name and its
      own last path segment. */
  lemma StemAndExtensionIsPlain(stem: string, ext: string)
    requires IsStem(stem) && |stem| > 0 && IsCleanExtension(ext)
    ensures IsPlainName(stem + ext) && FileName(stem + ext) == stem + ext
  {
    var name := stem + ext;
    forall i | 0 <= i < |name|
      ensures name[i] != '/' && name[i] != '\\'
      ensures name[i] == '.' ==> i == |stem|
    {
      if i < |stem| {
        assert name[i] == stem[i] && IsStemChar(stem[i]);
      } else {
        assert name[i] == ext[i - |stem|];
      }
    }
    assert !IsBlank(name) by {
      assert name[0] == stem[0] && IsStemChar(stem[0]);
    }
    ContainsPair(name, '.', '.');
    ContainsChar(name, '/');
    ContainsChar(name, '\\');
    assert "/" == ['/'] && "\\" == ['\\'] && ".." == ['.', '.'];
    FileNameOfBareName(name);
  }

  /** Every generated submission name passes the file server's name test. */
  lemma SubmissionNameIsPlain(examId: int, userId: int, guid: string, ext: string)
    requires IsGuidText(guid) && IsCleanExtension(ext)
    ensures IsPlainName(SubmissionName(examId, userId, guid, ext))
    ensures FileName(SubmissionName(examId, userId, guid, ext)) == SubmissionName(examId, userId, guid, ext)
  {
    var r := SubmissionName(examId, userId, guid, ext);
    assert r == r[..|r| - |ext|] + ext;
    StemAndExtensionIsPlain(r[..|r| - |ext|], ext);
  }

  /** Every generated avatar name passes the file server's name test. */
  lemma AvatarNameIsPlain(userId: int, guid: string, ext: string)
    requires IsGuidText(guid) && IsCleanExtension(ext)
    ensures IsPlainName(AvatarName(userId, guid, ext))
    ensures FileName(AvatarName(userId, guid, ext)) == AvatarName(userId, guid, ext)
  {
    var r := AvatarName(userId, guid, ext);
    assert r == r[..|r| - |ext|] + ext;
    StemAndExtensionIsPlain(r[..|r| - |ext|], ext);
  }

  /** Two concatenations with equal-length tails have equal heads and tails. */
  lemma SplitAtLength(a: string, b: string, c: string, d: string)
    requires a + b == c + d && |b| == |d|
    ensures a == c && b == d
  {
    assert a == (a + b)[..|a|] && c == (c + d)[..|c|];
    assert b == (a + b)[|a|..] && d == (c + d)[|c|..];
  }

  /** Splitting at the first `_`: two texts without `_` followed by the same
      underscore-led separator and anything split the same way. */
  lemma SplitAtUnderscore(a: string, b: string, c: string, d: string, sep: string)
    requires '_' !in a && '_' !in c && |sep| > 0 && sep[0] == '_'
    requires a + sep + b == c + sep + d
    ensures a == c && b == d
  {
    var t := a + sep + b;
    assert t[|a|] == '_' && t[|c|] == '_';
    assert forall i :: 0 <= i < |a| ==> t[i] == a[i];
    assert forall i :: 0 <= i < |c| ==> t[i] == c[i];
    assert |a| == |c|;
    assert a == t[..|a|] == c;
    assert b == t[|a| + |sep|..] == d;
  }

  /** The middle of a submission name, between `exam_` and the guid. */
  function SubmissionHead(examId: int, userId: int): string {
    IntToString(examId) + "_student_" + IntToString(userId)
  }

  lemma SubmissionNameParts(e1: int, u1: int, g1: string, x1: string, e2: int, u2: int, g2: string, x2: string)
    requires |g1| == |g2| && |x1| == |x2|
    requires SubmissionName(e1, u1, g1, x1) == SubmissionName(e2, u2, g2, x2)
    ensures SubmissionHead(e1, u1) == SubmissionHead(e2, u2) && g1 == g2 && x1 == x2
  {
    var h1, h2 := SubmissionHead(e1, u1), SubmissionHead(e2, u2);
    var p1, p2 := "exam_" + h1 + "_", "exam_" + h2 + "_";
    SplitAtLength(p1 + g1, x1, p2 + g2, x2);
    SplitAtLength(p1, g1, p2, g2);
    assert h1 == p1[5..|p1| - 1] && h2 == p2[5..|p2| - 1];
  }

  lemma SubmissionHeadInjective(e1: int, u1: int, e2: int, u2: int)
    requires SubmissionHead(e1, u1) == SubmissionHead(e2, u2)
    ensures e1 == e2 && u1 == u2
  {
    var a1, a2 := IntToString(e1), IntToString(e2);
    assert '_' !in a1 && '_' !in a2;
    SplitAtUnderscore(a1, IntToString(u1), a2, IntToString(u2), "_student_");
    IntToStringInjective(e1, e2);
    IntToStringInjective(u1, u2);
  }

  /** The name of a stored submission determines its exam, its student, its
      guid and its extension, given guids and extensions of fixed length. */
  lemma SubmissionNameInjective(e1: int, u1: int, g1: string, x1: string, e2: int, u2: int, g2: string, x2: string)
    requires |g1| == |g2| && |x1| == |x2|
    requires SubmissionName(e1, u1, g1, x1) == SubmissionName(e2, u2, g2, x2)
    ensures e1 == e2 && u1 == u2 && g1 == g2 && x1 == x2
  {
    SubmissionNameParts(e1, u1, g1, x1, e2, u2, g2, x2);
    SubmissionHeadInjective(e1, u1, e2, u2);
  }
}

=== FILE: home_controller.dfy ===
/** `HomeController`: the landing page, the caller's own profile, the avatar
    upload (which admits SVG images) and the password change. */
module HomeController {
  import opened Common
  import opened Text
  import opened Entities
  import opened Db
  import opened Web
  import opened Routes
  import opened Paths
  import opened FileNames
  import opened AuthService
  import UserService

  /** Where `RedirectToAction("Profile")` leads. */
  const ProfilePage: string := "/Home/Profile"

  /** The landing page with the default footer `"Â© 2026 Exam Management
      System"` URL-encoded: each of the two characters before the year is two
      UTF-8 bytes, and spaces become `+`. */
  const DefaultFooterLocation: string := "/Home/Index?footer=%C3%82%C2%A9+2026+Exam+Management+System"

  /** Where a successful password change leads; `!` is not escaped by the encoder. */
  const PasswordChangedLocation: string := "/Home/ChangePassword?message=Password+changed+successfully!"

  // ---- landing page and profile ----

  /** `Index`: without a footer value the caller is sent to the same page with
      the default footer in the query string. */
  function Index(p: Principal, s: Store, footer: Option<string>): (r: Reply)
    ensures r.store == s && r.written == []
    ensures !Admit(PolicyOf(HomeIndex), p).Admitted? ==> r == Denied(Admit(PolicyOf(HomeIndex), p), s)
    ensures Admit(PolicyOf(HomeIndex), p).Admitted? ==>
      (r.response == Redirect(DefaultFooterLocation, NoFlash) <==> footer.None? || footer.value == [])
    ensures Admit(PolicyOf(HomeIndex), p).Admitted? && footer.Some? && footer.value != [] ==>
      r.response == Page("Index", NoData, [])
  {
    var g := Admit(PolicyOf(HomeIndex), p);
    if !g.Admitted? then Denied(g, s)
    else if footer.None? || footer.value == [] then Reply(Redirect(DefaultFooterLocation, NoFlash), s, [])
    else Reply(Page("Index", NoData, []), s, [])
  }

  /** The footer the redirect carries, as the query string decodes it. */
  const DefaultFooter: string := "\U{C2}\U{A9} 2026 Exam Management System"

  /** Following the redirect renders the page: the redirect happens at most once. */
  lemma IndexSettlesAfterOneRedirect(p: Principal, s: Store)
    requires p.SignedIn?
    ensures Index(p, s, None).response == Redirect(DefaultFooterLocation, NoFlash)
    ensures Index(p, s, Some(DefaultFooter)).response == Page("Index", NoData, [])
  {
  }

  /** `Profile`: the caller's own row. */
  function Profile(p: Principal, s: Store): (r: Reply)
    ensures r.store == s && r.written == []
    ensures !Admit(PolicyOf(HomeProfile), p).Admitted? ==> r == Denied(Admit(PolicyOf(HomeProfile), p), s)
    ensures Admit(PolicyOf(HomeProfile), p).Admitted? ==>
      && (r.response.NotFound? <==> !HasUser(s, p.userId))
      && (HasUser(s, p.userId) ==>
            exists u :: u in s.users && u.id == p.userId && r.response == Page("Profile", OneUser(Some(u)), []))
  {
    var g := Admit(PolicyOf(HomeProfile), p);
    if !g.Admitted? then Denied(g, s)
    else match UserService.GetUserById(s, p.userId)
      case None => Reply(NotFound(""), s, [])
      case Some(u) => Reply(Page("Profile", OneUser(Some(u)), []), s, [])
  }

  /** The fields of the bound `User` that `UpdateProfile` copies; a null field
      is the empty string. */
  datatype ProfileForm = ProfileForm(fullName: string, phoneNumber: string, address: string, gender: Gender)

  /** The caller's row with the four profile fields replaced, trimmed. */
  function EditedProfile(u: User, form: ProfileForm): (v: User)
    ensures v.id == u.id && v.username == u.username && v.passwordHash == u.passwordHash
    ensures v.role == u.role && v.avatarUrl == u.avatarUrl
    ensures v.fullName == Trim(form.fullName) && v.gender == form.gender
    ensures v.phoneNumber == Some(Trim(form.phoneNumber)) && v.address == Some(Trim(form.address))
  {
    u.(fullName := Trim(form.fullName), phoneNumber := Some(Trim(form.phoneNumber)),
       address := Some(Trim(form.address)), gender := form.gender)
  }

  /** `UpdateProfile`: only the four profile fields of the bound model reach the
      database, so a posted role or password hash is ignored. A null model is
      `None`. */
  function UpdateProfile(p: Principal, s: Store, form: Option<ProfileForm>): (r: Reply)
    ensures r.written == []
    ensures !Admit(PolicyOf(HomeUpdateProfile), p).Admitted? ==>
      r == Denied(Admit(PolicyOf(HomeUpdateProfile), p), s)
    ensures r.response != Redirect(ProfilePage, Succeeded("Profile Updated")) ==> r.store == s
    ensures Admit(PolicyOf(HomeUpdateProfile), p).Admitted? ==>
      && (form.None? ==> r.response == Redirect(ProfilePage, Failed(InvalidData)))
      && (form.Some? && !HasUser(s, p.userId) ==> r.response == NotFound(""))
      && (form.Some? && HasUser(s, p.userId) && IsBlank(Trim(form.value.fullName)) ==>
            r.response == Redirect(ProfilePage, Failed(FullNameRequired)))
    ensures r.response == Redirect(ProfilePage, Succeeded("Profile Updated")) <==>
      && Admit(PolicyOf(HomeUpdateProfile), p).Admitted? && form.Some?
      && HasUser(s, p.userId) && !IsBlank(Trim(form.value.fullName))
      && UpdateUser(s, EditedProfile(UserService.GetUserById(s, p.userId).value, form.value)).Ok?
    ensures r.response == Redirect(ProfilePage, Succeeded("Profile Updated")) ==>
      r.store == UpdateUser(s, EditedProfile(UserService.GetUserById(s, p.userId).value, form.value)).value
  {
    var g := Admit(PolicyOf(HomeUpdateProfile), p);
    if !g.Admitted? then Denied(g, s)
    else if form.None? then Reply(Redirect(ProfilePage, Failed(InvalidData)), s, [])
    else match UserService.GetUserById(s, p.userId)
      case None => Reply(NotFound(""), s, [])
      case Some(u) =>
        var edited := EditedProfile(u, form.value);
        if IsBlank(edited.fullName) then Reply(Redirect(ProfilePage, Failed(FullNameRequired)), s, [])
        else match UpdateUser(s, edited)
          case Ok(s') => Reply(Redirect(ProfilePage, Succeeded("Profile Updated")), s', [])
          case Err(e) => Reply(ServerError(Problem.Storage(e)), s, [])
  }

  /** A profile update changes no one's role, username or password hash, and
      no row but the caller's. */
  lemma ProfileUpdateKeepsCredentials(p: Principal, s: Store, form: Option<ProfileForm>)
    requires Valid(s)
    ensures var r := UpdateProfile(p, s, form);
      && |r.store.users| == |s.users|
      && forall i :: 0 <= i < |s.users| ==>
           && r.store.users[i].id == s.users[i].id
           && r.store.users[i].role == s.users[i].role
           && r.store.users[i].username == s.users[i].username
           && r.store.users[i].passwordHash == s.users[i].passwordHash
           && (p.Anonymous? || s.users[i].id != p.userId ==> r.store.users[i] == s.users[i])
  {
    hide Trim, UpdateProfile, UpdateUser;
    var r := UpdateProfile(p, s, form);
    if r.response == Redirect(ProfilePage, Succeeded("Profile Updated")) {
      var u := UserService.GetUserById(s, p.userId).value;
      forall i | 0 <= i < |s.users| && s.users[i].id == p.userId
        ensures r.store.users[i].role == s.users[i].role
        ensures r.store.users[i].username == s.users[i].username
        ensures r.store.users[i].passwordHash == s.users[i].passwordHash
      {
        assert r.store.users[i] == EditedProfile(u, form.value);
        assert UpdateUser(s, EditedProfile(u, form.value)).Ok?;
        assert s.users[i] == u by {
          assert u in s.users && u.id == p.userId && s.users[i] in s.users;
        }
      }
    } else {
      assert r.store == s;
    }
  }

  // ---- avatar upload ----

  const AvatarExtensions: seq<string> := [".jpg", ".jpeg", ".png", ".gif", ".webp", ".svg"]
  const AvatarMimeTypes: seq<string> :=
    ["image/jpeg", "image/jpg", "image/png", "image/gif", "image/webp", "image/svg+xml", "image/svg"]

  /** The upload checks in the order the handler makes them. */
  function AvatarProblem(file: Option<FormFile>): (r: Option<Problem>)
    ensures r.None? <==>
      && file.Some? && 0 < file.value.length <= AvatarMaxBytes
      && ToLower(Extension(file.value.fileName)) in AvatarExtensions
      && ToLower(file.value.contentType) in AvatarMimeTypes
  {
    if file.None? || file.value.length == 0 then Some(NoFile)
    else if file.value.length > AvatarMaxBytes then Some(FileTooLarge)
    else if ToLower(Extension(file.value.fileName)) !in AvatarExtensions then Some(ExtensionRefused)
    else if ToLower(file.value.contentType) !in AvatarMimeTypes then Some(ContentTypeRefused)
    else None
  }

  /** The row update after the copy: the caller's row with the new avatar
      route, or the failure the handler raises. */
  function SetAvatar(s: Store, userId: int, url: string): (r: Result<Store, Problem>)
    ensures r.Ok? <==>
      HasUser(s, userId) && UpdateUser(s, UserService.GetUserById(s, userId).value.(avatarUrl := Some(url))).Ok?
    ensures r.Ok? ==> exists u :: u in r.value.users && u.id == userId && u.avatarUrl == Some(url)
    ensures !HasUser(s, userId) ==> r == Err(NoSuchUser)
  {
    match UserService.GetUserById(s, userId)
    case None => Err(NoSuchUser)
    case Some(u) =>
      var v := u.(avatarUrl := Some(url));
      match UpdateUser(s, v)
      case Err(e) => Err(Problem.Storage(e))
      case Ok(s') =>
        assert v in s'.users by {
          var i :| 0 <= i < |s.users| && s.users[i].id == v.id;
          assert s'.users[i] == v;
        }
        Ok(s')
  }

  /** `UploadAvatar`: the file is copied to `Storage/Avatars/<userId>_<guid><ext>`
      and the caller's row points at its download route. The row is read only
      after the copy, and a missing row is dereferenced. `guid` stands for
      `Guid.NewGuid()`. */
  function UploadAvatar(h: Host, p: Principal, s: Store, file: Option<FormFile>, guid: string): (r: Reply)
    ensures !Admit(PolicyOf(HomeUploadAvatar), p).Admitted? ==>
      r == Denied(Admit(PolicyOf(HomeUploadAvatar), p), s)
    ensures Admit(PolicyOf(HomeUploadAvatar), p).Admitted? && AvatarProblem(file).Some? ==>
      r == Reply(Redirect(ProfilePage, Failed(AvatarProblem(file).value)), s, [])
    ensures r.response.Redirect? && r.response.flash.Failed? ==> r.store == s && r.written == []
    ensures r.response == Redirect(ProfilePage, Succeeded("Avatar uploaded successfully.")) <==>
      && Admit(PolicyOf(HomeUploadAvatar), p).Admitted?
      && AvatarProblem(file).None?
      && var storage := StoragePath(h, "Avatars");
         var name := AvatarName(p.userId, guid, ToLower(Extension(file.value.fileName)));
         && InsideStorage(h, storage, Combine(storage, name))
         && SetAvatar(s, p.userId, AvatarRoute + name).Ok?
    ensures r.response == Redirect(ProfilePage, Succeeded("Avatar uploaded successfully.")) ==>
      var name := AvatarName(p.userId, guid, ToLower(Extension(file.value.fileName)));
      && r.written == [Copied(Combine(StoragePath(h, "Avatars"), name))]
      && r.store == SetAvatar(s, p.userId, AvatarRoute + name).value
    ensures r.response.ServerError? ==> r.store == s && |r.written| == 1
  {
    var g := Admit(PolicyOf(HomeUploadAvatar), p);
    if !g.Admitted? then Denied(g, s)
    else match AvatarProblem(file)
      case Some(problem) => Reply(Redirect(ProfilePage, Failed(problem)), s, [])
      case None =>
        var name := AvatarName(p.userId, guid, ToLower(Extension(file.value.fileName)));
        var storage := StoragePath(h, "Avatars");
        var filePath := Combine(storage, name);
        if !InsideStorage(h, storage, filePath) then Reply(Redirect(ProfilePage, Failed(PathOutsideStorage)), s, [])
        else match SetAvatar(s, p.userId, AvatarRoute + name)
          case Err(problem) => Reply(ServerError(problem), s, [Copied(filePath)])
          case Ok(s') => Reply(Redirect(ProfilePage, Succeeded("Avatar uploaded successfully.")), s', [Copied(filePath)])
  }

  /** Every extension the avatar upload admits is a clean extension. */
  lemma AvatarExtensionsAreClean(ext: string)
    requires ext in AvatarExtensions
    ensures IsCleanExtension(ext)
  {
  }

  /** An SVG document passes every avatar check: a script-bearing image is
      stored like any other. */
  lemma SvgAvatarAccepted(length: nat, stem: string)
    requires 0 < length <= AvatarMaxBytes
    ensures AvatarProblem(Some(FormFile(length, stem + ".svg", "image/svg+xml"))).None?
  {
    ExtensionOfSuffix(stem, ".svg");
    assert ToLower(".svg") == ".svg";
    assert ToLower("image/svg+xml") == "image/svg+xml";
  }

  // ---- password change ----

  /** The bound `ChangePasswordVm`; a null field is the empty string. */
  datatype PasswordForm = PasswordForm(oldPassword: string, newPassword: string)

  /** `ChangePassword`: both fields present, a new password of at least six
      characters and an old password that verifies against the stored hash. */
  function ChangePassword(hasher: PasswordHasher, p: Principal, s: Store, form: PasswordForm): (r: Reply)
    ensures r.written == []
    ensures !Admit(PolicyOf(HomeChangePassword), p).Admitted? ==>
      r == Denied(Admit(PolicyOf(HomeChangePassword), p), s)
    ensures r.response.Page? ==> r.store == s && |r.response.problems| == 1
    ensures Admit(PolicyOf(HomeChangePassword), p).Admitted? ==>
      && (IsBlank(form.oldPassword) || IsBlank(form.newPassword) ==>
            r.response == Page("ChangePassword", NoData, [FieldsRequired]))
      && (!IsBlank(form.oldPassword) && !IsBlank(form.newPassword) && |form.newPassword| < 6 ==>
            r.response == Page("ChangePassword", NoData, [PasswordTooShort]))
    ensures r.response == Redirect(PasswordChangedLocation, NoFlash) <==>
      && Admit(PolicyOf(HomeChangePassword), p).Admitted?
      && !IsBlank(form.oldPassword) && !IsBlank(form.newPassword) && |form.newPassword| >= 6
      && HasUser(s, p.userId)
      && hasher.verify(form.oldPassword, UserService.GetUserById(s, p.userId).value.passwordHash)
    ensures r.response == Redirect(PasswordChangedLocation, NoFlash) ==>
      r.store == UserService.ChangePassword(s, hasher, p.userId, form.newPassword)
    ensures r.response != Redirect(PasswordChangedLocation, NoFlash) ==> r.store == s
  {
    var g := Admit(PolicyOf(HomeChangePassword), p);
    if !g.Admitted? then Denied(g, s)
    else if IsBlank(form.oldPassword) || IsBlank(form.newPassword) then
      Reply(Page("ChangePassword", NoData, [FieldsRequired]), s, [])
    else if |form.newPassword| < 6 then Reply(Page("ChangePassword", NoData, [PasswordTooShort]), s, [])
    else match UserService.GetUserById(s, p.userId)
      case None => Reply(NotFound(""), s, [])
      case Some(u) =>
        if !hasher.verify(form.oldPassword, u.passwordHash) then
          Reply(Page("ChangePassword", NoData, [IncorrectOldPassword]), s, [])
        else Reply(Redirect(PasswordChangedLocation, NoFlash), UserService.ChangePassword(s, hasher, p.userId, form.newPassword), [])
  }

  /** After a password change the caller signs in with the new password, and
      the database stays consistent. */
  lemma ChangedPasswordSignsIn(hasher: PasswordHasher, p: Principal, s: Store, form: PasswordForm)
    requires Valid(s) && Sound(hasher)
    requires ChangePassword(hasher, p, s, form).response == Redirect(PasswordChangedLocation, NoFlash)
    ensures var r := ChangePassword(hasher, p, s, form);
      && Valid(r.store) && p.SignedIn?
      && exists u :: u in s.users && u.id == p.userId
                  && Authenticate(r.store, hasher, u.username, form.newPassword).Some?
  {
    hide ChangePassword;
    assert p.SignedIn?;
    var u := UserService.GetUserById(s, p.userId).value;
    UserService.ChangePasswordPreservesValid(s, hasher, p.userId, form.newPassword);
    UserService.ChangePasswordThenAuthenticate(s, hasher, u, form.newPassword);
  }
}

=== FILE: journeys.dfy ===
/** Properties that span several handlers: what one request stores, another
    request serves. */
module Journeys {
  import opened Common
  import opened Text
  import opened Db
  import opened Web
  import opened Routes
  import opened Paths
  import opened FileNames
  import StudentController
  import StudentApiController
  import SecureFileController
  import AdminController
  import Entities

  /** Every extension the upload endpoint admits, lower-cased, is a clean
      extension. */
  lemma AllowedExtensionsAreClean(ext: string)
    requires ext in StudentApiController.AllowedExtensions
    ensures IsCleanExtension(ext)
  {
  }

  /** The name the endpoint reports for an accepted upload reaches the download
      handler unchanged, and once the copied file exists that handler serves it
      from the submissions folder to anyone at all, signed in or not. */
  lemma ApiUploadServedToAnyone(h: Host, p: Principal, s: Store, examId: int, file: Option<FormFile>,
                                guid: string, now: int, caller: Principal, later: Store)
    requires IsGuidText(guid)
    requires StudentApiController.SubmitExam(h, p, s, examId, file, guid, now).response.Json?
    requires var r := StudentApiController.SubmitExam(h, p, s, examId, file, guid, now);
      forall w :: w in r.written ==> h.fileExists(w.path)
    ensures var r := StudentApiController.SubmitExam(h, p, s, examId, file, guid, now);
      var name := r.response.fields[2].1;
      var served := SecureFileController.GetSubmission(h, caller, later, name).response;
      && served.PhysicalFile?
      && served.path == Combine(StoragePath(h, "Submissions"), name)
      && r.written == [Copied(served.path)]
  {
    hide StudentApiController.SubmitExam, SecureFileController.GetSubmission,
         SecureFileController.ServeFile, StudentApiController.UploadProblem, Combine, SubmissionName;
    var r := StudentApiController.SubmitExam(h, p, s, examId, file, guid, now);
    var ext := ToLower(Extension(file.value.fileName));
    var name := SubmissionName(examId, p.userId, guid, ext);
    var storage := StoragePath(h, "Submissions");
    assert r.response.fields[2].1 == name;
    assert r.written == [Copied(Combine(storage, name))];
    AllowedExtensionsAreClean(ext);
    SubmissionNameIsPlain(examId, p.userId, guid, ext);
    assert !IsBlank(name) by { assert IsPlainName(name); }
    var served := SecureFileController.GetSubmission(h, caller, later, name).response;
    assert served == SecureFileController.ServeFile(h, "Submissions", name);
  }

  /** The export file name holds letters, digits, one '_', at most one '-'
      and one '.', so the download handler treats it as a plain name. */
  lemma ExportFileNameIsPlain(now: int)
    ensures !SecureFileController.IsTraversal(AdminController.ExportFileName(now))
  {
    var n := AdminController.ExportFileName(now);
    var digits := IntToString(now);
    assert n == "users_" + digits + ".csv";
    forall i | 0 <= i < |n|
      ensures n[i] != '/' && n[i] != '\\'
      ensures n[i] == '.' <==> i == |n| - 4
    {
      if i < 6 {
        assert n[i] == "users_"[i];
      } else if i < 6 + |digits| {
        assert n[i] == digits[i - 6];
      } else {
        assert n[i] == ".csv"[i - 6 - |digits|];
      }
    }
    ContainsPair(n, '.', '.');
    ContainsChar(n, '/');
    ContainsChar(n, '\\');
  }

  /** An admin's export reaches the download handler: once the written file
      exists, the redirect's file name is served from the exports folder. */
  lemma ExportServedToAdmin(h: Host, adminId: int, s: Store, now: int, later: Store)
    requires var r := AdminController.Export(h, SignedIn(adminId, Entities.Admin), s, now);
      forall w :: w in r.written ==> h.fileExists(h.fullPath(w.path))
    ensures var r := AdminController.Export(h, SignedIn(adminId, Entities.Admin), s, now);
      var name := AdminController.ExportFileName(now);
      && r.response == Redirect("/SecureFile/Export?fileName=" + name, NoFlash)
      && SecureFileController.GetExport(h, SignedIn(adminId, Entities.Admin), later, name).response
         == PhysicalFile(h.fullPath(r.written[0].path), SecureFileController.ContentTypeFor(h, name))
  {
    hide Combine, AdminController.ExportText, AdminController.ExportFileName, AdminController.Export;
    var name := AdminController.ExportFileName(now);
    var path := Combine(StoragePath(h, "Exports"), name);
    ExportFileNameIsPlain(now);
    var r := AdminController.Export(h, SignedIn(adminId, Entities.Admin), s, now);
    assert r.written[0] in r.written && r.written[0].path == path;
    assert h.fileExists(h.fullPath(path));
    assert SecureFileController.ExportTarget(h, name) == h.fullPath(path);
    assert !IsBlank(name) by {
      assert name[0] == 'u';
    }
  }
}

=== FILE: paths.dfy ===
/** `System.IO.Path` on a Unix host, where '/' is the only directory separator.
    Path resolution (`GetFullPath`) and the file system itself are not modelled
    here; they are parameters of the controllers. */
module Paths {
  import opened Text

  const Separator: char := '/'

  /** `Path.GetFileName`: the characters after the last separator. */
  function FileName(p: string): (r: string)
    ensures EndsWith(p, r)
    ensures Separator !in r
    ensures r == p || p[|p| - |r| - 1] == Separator
    decreases |p|
  {
    if |p| == 0 then []
    else if p[|p| - 1] == Separator then []
    else FileName(p[..|p| - 1]) + [p[|p| - 1]]
  }

  /** A path without a separator is its own file name. */
  lemma {:induction false} FileNameOfBareName(p: string)
    requires Separator !in p
    ensures FileName(p) == p
    decreases |p|
  {
    if |p| > 0 {
      assert Separator !in p[..|p| - 1];
      FileNameOfBareName(p[..|p| - 1]);
      assert p == p[..|p| - 1] + [p[|p| - 1]];
    }
  }

  /** `Path.GetExtension`, scanning back from position `i`: the text from the
      last '.' of the final segment, empty when that '.' ends the path. */
  function ExtensionFrom(p: string, i: nat): (r: string)
    requires i <= |p|
    requires forall j :: i <= j < |p| ==> p[j] != '.' && p[j] != Separator
    ensures r == [] || exists k :: 0 <= k < i && IsExtensionAt(p, k) && r == p[k..]
    decreases i
  {
    if i == 0 then []
    else if p[i - 1] == '.' then (if i == |p| then [] else p[i - 1..])
    else if p[i - 1] == Separator then []
    else ExtensionFrom(p, i - 1)
  }

  /** The '.' at index `k` of `p` starts a file extension: it is not the
      last character and no '.' or separator follows it. */
  predicate IsExtensionAt(p: string, k: int) {
    && 0 <= k < |p| - 1
    && p[k] == '.'
    && forall j :: k < j < |p| ==> p[j] != '.' && p[j] != Separator
  }

  function Extension(p: string): (r: string)
    ensures r == [] || (exists k :: IsExtensionAt(p, k) && r == p[k..])
  {
    ExtensionFrom(p, |p|)
  }

  /** The extension of `stem + ext` is `ext` whenever `ext` is a '.' followed by
      at least one character that is neither '.' nor a separator. */
  lemma ExtensionOfSuffix(stem: string, ext: string)
    requires |ext| >= 2 && ext[0] == '.'
    requires forall j :: 1 <= j < |ext| ==> ext[j] != '.' && ext[j] != Separator
    ensures Extension(stem + ext) == ext
  {
    var p := stem + ext;
    var k := |stem|;
    ExtensionScansToDot(p, k, |p|);
    assert p[k..] == ext;
  }

  lemma {:induction false} ExtensionScansToDot(p: string, k: int, i: nat)
    requires IsExtensionAt(p, k)
    requires k < i <= |p|
    requires forall j :: i <= j < |p| ==> p[j] != '.' && p[j] != Separator
    ensures ExtensionFrom(p, i) == p[k..]
    decreases i
  {
    if i - 1 > k {
      ExtensionScansToDot(p, k, i - 1);
    }
  }

  /** `Path.Combine(a, b)`: `a` when `b` is empty, `b` alone when it is rooted
      or `a` is empty, otherwise `a` and `b` joined by exactly one separator. */
  function Combine(a: string, b: string): (r: string)
    ensures b == [] ==> r == a
    ensures b != [] && b[0] == Separator ==> r == b
    ensures a == [] ==> r == b
  {
    if b == [] then a
    else if b[0] == Separator then b
    else if a == [] then b
    else if a[|a| - 1] == Separator then a + b
    else a + [Separator] + b
  }

  /** Two non-empty parts, the second relative: the result begins with `a`,
      ends with `b`, and a single separator stands between them — the one
      `a` already ends with, or one inserted. */
  lemma CombineJoins(a: string, b: string)
    requires a != [] && b != [] && b[0] != Separator
    ensures var r := Combine(a, b);
      && StartsWith(r, a) && EndsWith(r, b) && |r| > |b| && r[|r| - |b| - 1] == Separator
      && (if a[|a| - 1] == Separator then r == a + b else r == a + [Separator] + b)
  {
  }
}

=== FILE: quoting.dfy ===
/** Quoted literals in which the quote character is escaped by doubling it:
    CSV fields (RFC 4180, section 2) and SQL string literals share the rule. */
module Quoting {
  import opened Common

  /** `Replace(q, q + q)`. */
  function Doubled(v: string, q: char): string {
    if |v| == 0 then []
    else
      assert v == [v[0]] + v[1..];
      (if v[0] == q then [q, q] else [v[0]]) + Doubled(v[1..], q)
  }

  /** Doubling works character by character. */
  lemma DoubledCons(c: char, u: string, q: char)
    ensures Doubled([c] + u, q) == (if c == q then [q, q] else [c]) + Doubled(u, q)
  {
    assert ([c] + u)[1..] == u;
  }

  /** Doubling adds one character per quote character. */
  lemma {:induction false} DoubledLength(v: string, q: char)
    ensures |Doubled(v, q)| == |v| + multiset(v)[q]
    decreases |v|
  {
    if |v| > 0 {
      DoubledLength(v[1..], q);
      assert v == [v[0]] + v[1..];
    }
  }

  /** A value without the quote character is left as it is. */
  lemma {:induction false} DoubledOfQuoteFree(v: string, q: char)
    requires q !in v
    ensures Doubled(v, q) == v
    decreases |v|
  {
    if |v| > 0 {
      assert v[1..] == v[1..] && q !in v[1..];
      DoubledOfQuoteFree(v[1..], q);
      assert v == [v[0]] + v[1..];
    }
  }

  /** The value a literal body stands for when its quote characters come in
      pairs, each pair read as one quote; `None` when a quote stands alone. */
  function Undoubled(t: string, q: char): Option<string>
    decreases |t|
  {
    if |t| == 0 then Some([])
    else if t[0] == q then
      if |t| >= 2 && t[1] == q then
        match Undoubled(t[2..], q)
        case None => None
        case Some(v) => Some([q] + v)
      else None
    else
      match Undoubled(t[1..], q)
      case None => None
      case Some(v) => Some([t[0]] + v)
  }

  /** Undoubling inverts doubling. */
  lemma {:induction false} UndoubledOfDoubled(v: string, q: char)
    ensures Undoubled(Doubled(v, q), q) == Some(v)
    decreases |v|
  {
    if |v| > 0 {
      UndoubledOfDoubled(v[1..], q);
      var d := Doubled(v[1..], q);
      if v[0] == q {
        assert Doubled(v, q) == [q, q] + d;
        assert ([q, q] + d)[2..] == d;
      } else {
        assert Doubled(v, q) == [v[0]] + d;
        assert ([v[0]] + d)[1..] == d;
      }
      assert v == [v[0]] + v[1..];
    }
  }

  /** A body that undoubles is the doubling of its value. */
  lemma {:induction false} DoubledOfUndoubled(t: string, q: char)
    requires Undoubled(t, q).Some?
    ensures Doubled(Undoubled(t, q).value, q) == t
    decreases |t|
  {
    if |t| > 0 {
      var v := Undoubled(t, q).value;
      if t[0] == q {
        DoubledOfUndoubled(t[2..], q);
        assert v == [q] + Undoubled(t[2..], q).value;
        assert v[1..] == Undoubled(t[2..], q).value;
        assert t == [q, q] + t[2..];
      } else {
        DoubledOfUndoubled(t[1..], q);
        assert v == [t[0]] + Undoubled(t[1..], q).value;
        assert v[1..] == Undoubled(t[1..], q).value;
        assert t == [t[0]] + t[1..];
      }
    }
  }

  /** A body undoubles to a value exactly when it is that value doubled. */
  lemma UndoubledInverts(t: string, v: string, q: char)
    ensures Undoubled(t, q) == Some(v) <==> t == Doubled(v, q)
  {
    if Undoubled(t, q) == Some(v) {
      DoubledOfUndoubled(t, q);
    }
    if t == Doubled(v, q) {
      UndoubledOfDoubled(v, q);
    }
  }

  /** A body without the quote character stands for itself. */
  lemma UndoubledOfQuoteFree(t: string, q: char)
    requires q !in t
    ensures Undoubled(t, q) == Some(t)
  {
    DoubledOfQuoteFree(t, q);
    UndoubledOfDoubled(t, q);
  }

  /** What a reader makes of the text after an opening quote: the value up to
      the closing quote, each doubled quote read as one, and the text after
      the closing quote; `None` when the literal is not closed. */
  function ReadQuoted(t: string, q: char): (r: Option<(string, string)>)
    ensures r.Some? ==> |r.value.1| < |t|
    decreases |t|
  {
    if |t| == 0 then None
    else if t[0] == q then
      if |t| >= 2 && t[1] == q then
        match ReadQuoted(t[2..], q)
        case None => None
        case Some((v, rest)) => Some(([q] + v, rest))
      else Some(([], t[1..]))
    else
      match ReadQuoted(t[1..], q)
      case None => None
      case Some((v, rest)) => Some(([t[0]] + v, rest))
  }

  /** A doubled value followed by a closing quote reads back as the value,
      provided what follows the closing quote does not start with a quote. */
  lemma {:induction false} ReadDoubled(v: string, q: char, rest: string)
    requires rest == [] || rest[0] != q
    ensures ReadQuoted(Doubled(v, q) + [q] + rest, q) == Some((v, rest))
    decreases |v|
  {
    if |v| > 0 {
      var t := Doubled(v, q) + [q] + rest;
      var tail := Doubled(v[1..], q) + [q] + rest;
      if v[0] == q {
        assert Doubled(v, q) == [q, q] + Doubled(v[1..], q);
        assert t == [q, q] + tail;
        ReadDoubled(v[1..], q, rest);
        assert [q] + v[1..] == v;
      } else {
        assert Doubled(v, q) == [v[0]] + Doubled(v[1..], q);
        assert t == [v[0]] + tail;
        ReadDoubled(v[1..], q, rest);
        assert [v[0]] + v[1..] == v;
      }
    }
  }

  /** Conversely, whatever the reader accepts is a doubled value, a closing
      quote and the rest. */
  lemma {:induction false} ReadIsDoubled(t: string, q: char)
    requires ReadQuoted(t, q).Some?
    ensures var (v, rest) := ReadQuoted(t, q).value; t == Doubled(v, q) + [q] + rest
    decreases |t|
  {
    var (v, rest) := ReadQuoted(t, q).value;
    if t[0] == q && |t| >= 2 && t[1] == q {
      var (w, rest') := ReadQuoted(t[2..], q).value;
      ReadIsDoubled(t[2..], q);
      assert v == [q] + w && rest == rest';
      DoubledCons(q, w, q);
      assert t == [q, q] + t[2..];
      assert t == [q, q] + Doubled(w, q) + [q] + rest;
    } else if t[0] == q {
      assert v == [] && rest == t[1..];
      assert t == [q] + t[1..];
    } else {
      var (w, rest') := ReadQuoted(t[1..], q).value;
      ReadIsDoubled(t[1..], q);
      assert v == [t[0]] + w && rest == rest';
      DoubledCons(t[0], w, q);
      assert t == [t[0]] + t[1..];
      assert t == [t[0]] + Doubled(w, q) + [q] + rest;
    }
  }

  /** A value holding the quote character, written without doubling, does not
      read back as itself. */
  lemma UndoubledMisread(v: string, q: char, rest: string)
    requires q in v
    ensures ReadQuoted(v + [q] + rest, q) != Some((v, rest))
  {
    var t := v + [q] + rest;
    if ReadQuoted(t, q).Some? {
      ReadIsDoubled(t, q);
      var (w, rest') := ReadQuoted(t, q).value;
      assert |rest'| == |t| - |Doubled(w, q)| - 1;
      DoubledLength(w, q);
      assert multiset(v)[q] > 0;
      assert w == v ==> |rest'| < |rest|;
    }
  }

  /** A body pasted between quotes, followed by text that does not start with
      a quote, reads back as a value followed by exactly that text if and only
      if the body undoubles to the value: the quotes in it come in pairs. */
  lemma LiteralReads(t: string, q: char, rest: string, v: string)
    requires rest == [] || rest[0] != q
    ensures ReadQuoted(t + [q] + rest, q) == Some((v, rest)) <==> Undoubled(t, q) == Some(v)
  {
    if Undoubled(t, q) == Some(v) {
      DoubledOfUndoubled(t, q);
      ReadDoubled(v, q, rest);
    }
    if ReadQuoted(t + [q] + rest, q) == Some((v, rest)) {
      ReadIsDoubled(t + [q] + rest, q);
      assert t + [q] + rest == Doubled(v, q) + [q] + rest;
      assert t == Doubled(v, q) by {
        assert |t| == |Doubled(v, q)|;
        assert t == (t + [q] + rest)[..|t|];
        assert Doubled(v, q) == (Doubled(v, q) + [q] + rest)[..|t|];
      }
      UndoubledOfDoubled(v, q);
    }
  }
}

=== FILE: raw_sql.dfy ===
/** What the data layer does to a raw SQL string before the database reads it.
    `ExecuteSqlRaw` builds its command with `string.Format(sql, parameters)`,
    and does so even when the caller passes no parameters; the text the
    database receives is the result of that formatting. */
module RawSql {
  import opened Common
  import opened Text
  import Quoting

  predicate IsBrace(c: char) {
    c == '{' || c == '}'
  }

  /** `string.Format(t)` with an empty argument list: `{{` and `}}` each stand
      for one brace, read from left to right. Any other brace opens or closes
      a format item, and with no argument to refer to that raises a
      `FormatException`, which is `None` here. */
  function Format(t: string): Option<string>
    decreases |t|
  {
    if |t| == 0 then Some([])
    else if IsBrace(t[0]) then
      if |t| >= 2 && t[1] == t[0] then
        match Format(t[2..])
        case None => None
        case Some(v) => Some([t[0]] + v)
      else None
    else
      match Format(t[1..])
      case None => None
      case Some(v) => Some([t[0]] + v)
  }

  /** The text a caller would have to write for `Format` to give back `v`:
      every brace doubled. */
  function EscapeBraces(v: string): string {
    if |v| == 0 then []
    else
      assert v == [v[0]] + v[1..];
      (if IsBrace(v[0]) then [v[0], v[0]] else [v[0]]) + EscapeBraces(v[1..])
  }

  /** Formatting undoes the escaping. */
  lemma {:induction false} FormatOfEscaped(v: string)
    ensures Format(EscapeBraces(v)) == Some(v)
    decreases |v|
  {
    if |v| > 0 {
      FormatOfEscaped(v[1..]);
      var d := EscapeBraces(v[1..]);
      if IsBrace(v[0]) {
        assert EscapeBraces(v) == [v[0], v[0]] + d;
        assert ([v[0], v[0]] + d)[2..] == d;
      } else {
        assert EscapeBraces(v) == [v[0]] + d;
        assert ([v[0]] + d)[1..] == d;
      }
      assert v == [v[0]] + v[1..];
    }
  }

  /** Text that formats is the escaping of what it formats to. */
  lemma {:induction false} EscapedOfFormat(t: string)
    requires Format(t).Some?
    ensures EscapeBraces(Format(t).value) == t
    decreases |t|
  {
    if |t| > 0 {
      var v := Format(t).value;
      if IsBrace(t[0]) {
        EscapedOfFormat(t[2..]);
        assert v[1..] == Format(t[2..]).value;
        assert t == [t[0], t[0]] + t[2..];
      } else {
        EscapedOfFormat(t[1..]);
        assert v[1..] == Format(t[1..]).value;
        assert t == [t[0]] + t[1..];
      }
    }
  }

  /** A text formats to `v` exactly when it is `v` with its braces doubled. */
  lemma FormatInverts(t: string, v: string)
    ensures Format(t) == Some(v) <==> t == EscapeBraces(v)
  {
    if Format(t) == Some(v) {
      EscapedOfFormat(t);
    }
    if t == EscapeBraces(v) {
      FormatOfEscaped(v);
    }
  }

  predicate BraceFree(t: string) {
    '{' !in t && '}' !in t
  }

  /** A text without braces formats to itself. */
  lemma {:induction false} FormatOfBraceFree(t: string)
    requires BraceFree(t)
    ensures Format(t) == Some(t)
    decreases |t|
  {
    if |t| > 0 {
      assert '{' !in t[1..] && '}' !in t[1..];
      FormatOfBraceFree(t[1..]);
      assert t == [t[0]] + t[1..];
    }
  }

  /** The text of a number has no braces. */
  lemma IntTextBraceFree(n: int)
    ensures BraceFree(IntToString(n))
  {
    var r := IntToString(n);
    forall i | 0 <= i < |r| ensures !IsBrace(r[i]) {
    }
  }

  /** Two texts meet without a brace on both sides of the seam, so no escaped
      pair can straddle it. */
  predicate Seam(a: string, b: string) {
    (|a| == 0 || !IsBrace(a[|a| - 1])) || (|b| == 0 || !IsBrace(b[0]))
  }

  /** Across a seam, formatting works piece by piece: the whole formats when
      both pieces do, to the two results joined. */
  lemma {:induction false} FormatConcat(a: string, b: string)
    requires Seam(a, b)
    ensures Format(a + b) ==
      if Format(a).Some? && Format(b).Some? then Some(Format(a).value + Format(b).value) else None
    decreases |a|
  {
    if |a| == 0 {
      assert a + b == b;
      assert Format(a) == Some([]);
      if Format(b).Some? {
        assert [] + Format(b).value == Format(b).value;
      }
    } else if IsBrace(a[0]) {
      if |a| >= 2 && a[1] == a[0] {
        assert (a + b)[0] == a[0] && (a + b)[1] == a[0];
        assert (a + b)[2..] == a[2..] + b;
        FormatConcat(a[2..], b);
        if Format(a).Some? && Format(b).Some? {
          var u, w := Format(a[2..]).value, Format(b).value;
          assert Format(a).value == [a[0]] + u;
          assert Format(a + b) == Some([a[0]] + (u + w));
          assert [a[0]] + (u + w) == ([a[0]] + u) + w;
        }
      } else if |a| == 1 {
        assert a + b == [a[0]] + b;
      } else {
        assert (a + b)[1] == a[1];
      }
    } else {
      assert (a + b)[0] == a[0];
      assert (a + b)[1..] == a[1..] + b;
      FormatConcat(a[1..], b);
      if Format(a).Some? && Format(b).Some? {
        var u, w := Format(a[1..]).value, Format(b).value;
        assert Format(a).value == [a[0]] + u;
        assert Format(a + b) == Some([a[0]] + (u + w));
        assert [a[0]] + (u + w) == ([a[0]] + u) + w;
      }
    }
  }

  /** A text pasted between two brace-free texts formats on its own, and the
      texts around it stay as they are. */
  lemma FormatAround(p: string, x: string, q: string)
    requires BraceFree(p) && BraceFree(q)
    ensures Format(p + x + q) == if Format(x).Some? then Some(p + Format(x).value + q) else None
  {
    FormatOfBraceFree(p);
    FormatOfBraceFree(q);
    if |p| > 0 {
      assert p[|p| - 1] in p;
    }
    FormatConcat(p, x);
    if |q| > 0 {
      assert q[0] in q;
    }
    FormatConcat(p + x, q);
  }

  /** Two texts pasted into a brace-free frame: the whole formats exactly when
      both do, and then to the frame around the two results. */
  lemma FormatAroundTwo(p: string, x: string, m: string, y: string, q: string)
    requires BraceFree(p) && BraceFree(m) && BraceFree(q) && |m| > 0
    ensures Format(p + x + m + y + q) ==
      if Format(x).Some? && Format(y).Some? then Some(p + Format(x).value + m + Format(y).value + q) else None
  {
    FormatAround(p, x, m);
    assert (p + x + m)[|p + x + m| - 1] == m[|m| - 1] && m[|m| - 1] in m;
    FormatConcat(p + x + m, y);
    if |q| > 0 {
      assert q[0] in q;
    }
    FormatOfBraceFree(q);
    FormatConcat(p + x + m + y, q);
  }

  /** A character that is not a brace is copied. */
  lemma FormatPlainCons(c: char, u: string)
    requires !IsBrace(c)
    ensures Format([c] + u) == if Format(u).Some? then Some([c] + Format(u).value) else None
  {
    assert ([c] + u)[1..] == u;
  }

  /** A doubled brace stands for one. */
  lemma FormatPairCons(c: char, u: string)
    requires IsBrace(c)
    ensures Format([c, c] + u) == if Format(u).Some? then Some([c] + Format(u).value) else None
  {
    assert ([c, c] + u)[1] == c;
    assert ([c, c] + u)[2..] == u;
  }

  /** A brace not followed by its twin raises. */
  lemma FormatLoneBrace(c: char, u: string)
    requires IsBrace(c) && (|u| == 0 || u[0] != c)
    ensures Format([c] + u) == None
  {
    if |u| > 0 {
      assert ([c] + u)[1] == u[0];
    }
  }

  /** Formatting `t` and doubling its `q`s can be done in either order. */
  predicate DoublingCommutes(t: string, q: char) {
    Format(Quoting.Doubled(t, q)) == if Format(t).Some? then Some(Quoting.Doubled(Format(t).value, q)) else None
  }

  /** The step of `FormatDoubled` past a character that is not a brace. */
  lemma DoublingCommutesPlain(c: char, u: string, q: char)
    requires !IsBrace(q) && !IsBrace(c) && DoublingCommutes(u, q)
    ensures DoublingCommutes([c] + u, q)
  {
    hide Format, Quoting.Doubled;
    Quoting.DoubledCons(c, u, q);
    FormatPlainCons(c, u);
    if c == q {
      assert Quoting.Doubled([c] + u, q) == [q] + ([q] + Quoting.Doubled(u, q));
      FormatPlainCons(q, Quoting.Doubled(u, q));
      FormatPlainCons(q, [q] + Quoting.Doubled(u, q));
    } else {
      FormatPlainCons(c, Quoting.Doubled(u, q));
    }
    if Format(u).Some? {
      var w := Format(u).value;
      Quoting.DoubledCons(c, w, q);
      if c == q {
        assert [q] + ([q] + Quoting.Doubled(w, q)) == [q, q] + Quoting.Doubled(w, q);
      }
    }
  }

  /** The step of `FormatDoubled` past a doubled brace. */
  lemma DoublingCommutesPair(c: char, u: string, q: char)
    requires !IsBrace(q) && IsBrace(c) && DoublingCommutes(u, q)
    ensures DoublingCommutes([c, c] + u, q)
  {
    hide Format, Quoting.Doubled;
    Quoting.DoubledCons(c, [c] + u, q);
    Quoting.DoubledCons(c, u, q);
    assert [c, c] + u == [c] + ([c] + u);
    assert Quoting.Doubled([c, c] + u, q) == [c, c] + Quoting.Doubled(u, q);
    FormatPairCons(c, Quoting.Doubled(u, q));
    FormatPairCons(c, u);
    if Format(u).Some? {
      Quoting.DoubledCons(c, Format(u).value, q);
    }
  }

  /** A lone brace raises whether or not the quotes are doubled first. */
  lemma DoublingCommutesLone(c: char, u: string, q: char)
    requires !IsBrace(q) && IsBrace(c) && (|u| == 0 || u[0] != c)
    ensures DoublingCommutes([c] + u, q)
  {
    hide Format;
    FormatLoneBrace(c, u);
    Quoting.DoubledCons(c, u, q);
    if |u| > 0 {
      Quoting.DoubledCons(u[0], u[1..], q);
      assert u == [u[0]] + u[1..];
    }
    FormatLoneBrace(c, Quoting.Doubled(u, q));
  }

  /** Formatting and doubling a quote that is not a brace commute. */
  lemma {:induction false} FormatDoubled(t: string, q: char)
    requires !IsBrace(q)
    ensures Format(Quoting.Doubled(t, q)) ==
      if Format(t).Some? then Some(Quoting.Doubled(Format(t).value, q)) else None
    decreases |t|
  {
    if |t| == 0 {
      assert Quoting.Doubled(t, q) == [];
    } else {
      var c, u := t[0], t[1..];
      assert t == [c] + u;
      if IsBrace(c) && |u| > 0 && u[0] == c {
        assert t == [c, c] + u[1..];
        FormatDoubled(u[1..], q);
        DoublingCommutesPair(c, u[1..], q);
      } else if IsBrace(c) {
        DoublingCommutesLone(c, u, q);
      } else {
        FormatDoubled(u, q);
        DoublingCommutesPlain(c, u, q);
      }
    }
  }

  /** What a raw statement stores for a text pasted between single quotes:
      the text is formatted, then read as the body of a SQL string literal.
      `None` when the formatting raises or a quote stands alone. */
  function LiteralValue(t: string): Option<string> {
    match Format(t)
    case None => None
    case Some(f) => Quoting.Undoubled(f, '\'')
  }

  /** A pasted text stores `v` exactly when it is `v` with its quotes doubled
      and then its braces doubled. */
  lemma LiteralValueInverts(t: string, v: string)
    ensures LiteralValue(t) == Some(v) <==> t == EscapeBraces(Quoting.Doubled(v, '\''))
  {
    if LiteralValue(t) == Some(v) {
      var f := Format(t).value;
      FormatInverts(t, f);
      Quoting.UndoubledInverts(f, v, '\'');
    }
    if t == EscapeBraces(Quoting.Doubled(v, '\'')) {
      FormatInverts(t, Quoting.Doubled(v, '\''));
      Quoting.UndoubledInverts(Quoting.Doubled(v, '\''), v, '\'');
    }
  }

  /** A text with neither quotes nor braces is stored as it is. */
  lemma LiteralValueOfPlain(t: string)
    requires '\'' !in t && '{' !in t && '}' !in t
    ensures LiteralValue(t) == Some(t)
  {
    FormatOfBraceFree(t);
    Quoting.UndoubledOfQuoteFree(t, '\'');
  }
}

=== FILE: routes.dfy ===
/** The actions of the web application and the policy their attributes give
    each one. */
module Routes {
  import opened Common
  import opened Entities
  import opened Web

  datatype Action =
    | AdminIndex | AdminCreate | AdminEdit | AdminDelete | AdminDetail | AdminExport
    | TeacherStudents | TeacherCreateStudent | TeacherEditStudent | TeacherDeleteStudent
    | TeacherDeleteStudentGet | TeacherExams | TeacherCreateExamForm | TeacherCreateExam
    | TeacherExamDetail | TeacherGrade
    | StudentIndex | StudentExamDetail | StudentSubmitExam | StudentApiSubmitExam
    | HomeIndex | HomeProfile | HomeUpdateProfile | HomeUploadAvatar
    | HomeChangePasswordForm | HomeChangePassword
    | AuthLoginForm | AuthLogin | AuthRegisterForm | AuthRegister | AuthLogout
    | FileAvatar | FileSubmission | FileExport

  datatype Controller = AdminPages | TeacherPages | StudentPages | StudentApi | HomePages | AuthPages | FilePages

  function ControllerOf(a: Action): Controller {
    match a
    case AdminIndex => AdminPages case AdminCreate => AdminPages case AdminEdit => AdminPages
    case AdminDelete => AdminPages case AdminDetail => AdminPages case AdminExport => AdminPages
    case TeacherStudents => TeacherPages case TeacherCreateStudent => TeacherPages
    case TeacherEditStudent => TeacherPages case TeacherDeleteStudent => TeacherPages
    case TeacherDeleteStudentGet => TeacherPages case TeacherExams => TeacherPages
    case TeacherCreateExamForm => TeacherPages case TeacherCreateExam => TeacherPages
    case TeacherExamDetail => TeacherPages case TeacherGrade => TeacherPages
    case StudentIndex => StudentPages case StudentExamDetail => StudentPages
    case StudentSubmitExam => StudentPages case StudentApiSubmitExam => StudentApi
    case HomeIndex => HomePages case HomeProfile => HomePages case HomeUpdateProfile => HomePages
    case HomeUploadAvatar => HomePages case HomeChangePasswordForm => HomePages
    case HomeChangePassword => HomePages
    case AuthLoginForm => AuthPages case AuthLogin => AuthPages case AuthRegisterForm => AuthPages
    case AuthRegister => AuthPages case AuthLogout => AuthPages
    case FileAvatar => FilePages case FileSubmission => FilePages case FileExport => FilePages
  }

  /** An authorization attribute on a controller class or an action. */
  datatype Attribute = Unmarked | AuthorizeAny | AuthorizeRole(role: UserRole) | AllowAnonymous

  /** The attribute each controller class carries. */
  function ClassAttribute(c: Controller): Attribute {
    match c
    case AdminPages => AuthorizeRole(Admin)
    case TeacherPages => AuthorizeAny
    case StudentPages => AuthorizeRole(Student)
    case StudentApi => AuthorizeRole(Student)
    case HomePages => AuthorizeAny
    case AuthPages => Unmarked
    case FilePages => AuthorizeAny
  }

  /** The attribute each action carries of its own. */
  function ActionAttribute(a: Action): Attribute {
    if a in {AdminIndex, AdminDetail, TeacherCreateExamForm, FileSubmission} then AllowAnonymous
    else if a in {TeacherStudents, TeacherEditStudent, TeacherDeleteStudent, TeacherExams, TeacherCreateExam} then
      AuthorizeRole(Teacher)
    else if a == FileExport then AuthorizeRole(Admin)
    else Unmarked
  }

  /** Both attributes must admit the caller, unless either allows anonymous
      callers; two different roles would admit nobody, which no policy
      expresses. */
  function Stacked(onClass: Attribute, onAction: Attribute): Option<Policy> {
    if onClass.AllowAnonymous? || onAction.AllowAnonymous? then Some(Anyone)
    else if onClass.AuthorizeRole? && onAction.AuthorizeRole? then
      if onClass.role == onAction.role then Some(InRole(onClass.role)) else None
    else if onClass.AuthorizeRole? then Some(InRole(onClass.role))
    else if onAction.AuthorizeRole? then Some(InRole(onAction.role))
    else if onClass.AuthorizeAny? || onAction.AuthorizeAny? then Some(AnySignedIn)
    else Some(Anyone)
  }

  /** The class attribute combined with the action attribute; `[AllowAnonymous]`
      overrides both. Actions are grouped by the policy they end up with. */
  function PolicyOf(a: Action): Policy {
    if a.AdminCreate? || a.AdminEdit? || a.AdminDelete? || a.AdminExport? || a.FileExport? then
      InRole(Admin)
    else if a.TeacherStudents? || a.TeacherEditStudent? || a.TeacherDeleteStudent? || a.TeacherExams?
         || a.TeacherCreateExam? then
      InRole(Teacher)
    else if a.StudentIndex? || a.StudentExamDetail? || a.StudentSubmitExam? || a.StudentApiSubmitExam? then
      InRole(Student)
    else if a.TeacherCreateStudent? || a.TeacherDeleteStudentGet? || a.TeacherExamDetail? || a.TeacherGrade?
         || a.HomeIndex? || a.HomeProfile? || a.HomeUpdateProfile? || a.HomeUploadAvatar?
         || a.HomeChangePasswordForm? || a.HomeChangePassword? || a.FileAvatar? then
      AnySignedIn
    else
      // AdminIndex, AdminDetail, TeacherCreateExamForm, FileSubmission and the Auth actions
      Anyone
  }

  /** The grouped table agrees with the attributes on every action. */
  lemma PolicyFollowsAttributes(a: Action)
    ensures Stacked(ClassAttribute(ControllerOf(a)), ActionAttribute(a)) == Some(PolicyOf(a))
  {
  }

  /** The actions an anonymous caller reaches. */
  lemma AnonymousReach(a: Action)
    ensures Admit(PolicyOf(a), Anonymous).Admitted? <==>
      a in {AdminIndex, AdminDetail, TeacherCreateExamForm, AuthLoginForm, AuthLogin,
            AuthRegisterForm, AuthRegister, AuthLogout, FileSubmission}
  {
  }

  /** A student reaches every action except the Admin-only and Teacher-only
      ones, which includes creating students, deleting students by GET, viewing
      exam details for teachers and grading. */
  lemma StudentReach(a: Action, id: int)
    ensures Admit(PolicyOf(a), SignedIn(id, Student)).Admitted? <==>
      a !in {AdminCreate, AdminEdit, AdminDelete, AdminExport, TeacherStudents,
             TeacherEditStudent, TeacherDeleteStudent, TeacherExams, TeacherCreateExam, FileExport}
  {
  }

  /** A teacher reaches everything except the Admin-only and Student-only actions. */
  lemma TeacherReach(a: Action, id: int)
    ensures Admit(PolicyOf(a), SignedIn(id, Teacher)).Admitted? <==>
      a !in {AdminCreate, AdminEdit, AdminDelete, AdminExport, FileExport,
             StudentIndex, StudentExamDetail, StudentSubmitExam, StudentApiSubmitExam}
  {
  }

  /** A refusal (403) only ever meets a signed-in caller of the wrong role; an
      anonymous caller is sent to the login page instead. */
  lemma RefusalIsRoleMismatch(a: Action, p: Principal)
    ensures Admit(PolicyOf(a), p).Refused? <==>
      PolicyOf(a).InRole? && p.SignedIn? && p.role != PolicyOf(a).role
  {
  }
}

=== FILE: secure_file_controller.dfy ===
/** `SecureFileController`: serving avatars, submissions and exports from the
    storage folders. */
module SecureFileController {
  import opened Common
  import opened Text
  import opened Db
  import opened Web
  import opened Routes
  import opened Paths
  import opened FileNames

  /** `GetContentType`: SVG as `image/svg+xml`, otherwise the provider's type
      for the name, else `application/octet-stream`. */
  function ContentTypeFor(h: Host, fileName: string): (r: string)
    ensures ToLower(Extension(fileName)) == ".svg" ==> r == "image/svg+xml"
    ensures ToLower(Extension(fileName)) != ".svg" && h.contentTypeOf(fileName).Some? ==>
              r == h.contentTypeOf(fileName).value
    ensures ToLower(Extension(fileName)) != ".svg" && h.contentTypeOf(fileName).None? ==>
              r == "application/octet-stream"
  {
    if ToLower(Extension(fileName)) == ".svg" then "image/svg+xml"
    else match h.contentTypeOf(fileName)
      case Some(t) => t
      case None => "application/octet-stream"
  }

  /** `ServeFile`: a non-blank name, reduced to its last segment, free of `..`
      and separators, whose resolved path stays inside the folder and which
      exists. */
  function ServeFile(h: Host, folder: string, fileName: string): (r: Response)
    ensures IsBlank(fileName) ==> r == BadRequest("Invalid file name.")
    ensures r.PhysicalFile? <==>
      && !IsBlank(fileName) && IsPlainName(FileName(fileName))
      && InsideStorage(h, StoragePath(h, folder), Combine(StoragePath(h, folder), FileName(fileName)))
      && h.fileExists(Combine(StoragePath(h, folder), FileName(fileName)))
    ensures r.PhysicalFile? ==>
      r.path == Combine(StoragePath(h, folder), FileName(fileName)) && Separator !in FileName(fileName)
    ensures r.PhysicalFile? || r.BadRequest? || r.NotFound?
  {
    if IsBlank(fileName) then BadRequest("Invalid file name.")
    else
      var name := FileName(fileName);
      if !IsPlainName(name) then BadRequest("Invalid file name.")
      else
        var storage := StoragePath(h, folder);
        var filePath := Combine(storage, name);
        if !InsideStorage(h, storage, filePath) then BadRequest("Invalid file path.")
        else if !h.fileExists(filePath) then NotFound("File not found.")
        else PhysicalFile(filePath, ContentTypeFor(h, name))
  }

  /** `GetAvatar`. */
  function GetAvatar(h: Host, p: Principal, s: Store, fileName: string): (r: Reply)
    ensures r.store == s && r.written == []
    ensures p.Anonymous? ==> r.response == Redirect(LoginPage, NoFlash)
    ensures p.SignedIn? ==> r.response == ServeFile(h, "Avatars", fileName)
  {
    var g := Admit(PolicyOf(FileAvatar), p);
    if !g.Admitted? then Denied(g, s)
    else Reply(ServeFile(h, "Avatars", fileName), s, [])
  }

  /** `GetSubmission`: no authorization at all; the database lookup it makes is
      discarded, so the reply depends on the name alone. */
  function GetSubmission(h: Host, p: Principal, s: Store, fileName: string): (r: Reply)
    ensures r.store == s && r.written == []
    ensures IsBlank(fileName) ==> r.response == BadRequest("Invalid file name.")
    ensures !IsBlank(fileName) ==> r.response == ServeFile(h, "Submissions", FileName(fileName))
  {
    if IsBlank(fileName) then Reply(BadRequest("Invalid file name."), s, [])
    else Reply(ServeFile(h, "Submissions", FileName(fileName)), s, [])
  }

  /** Taking the last segment twice changes nothing, so the double sanitising
      in `GetSubmission` serves what a single `ServeFile` would. */
  lemma GetSubmissionIsServeFile(h: Host, p: Principal, s: Store, fileName: string)
    ensures GetSubmission(h, p, s, fileName).response == ServeFile(h, "Submissions", fileName)
  {
    if !IsBlank(fileName) {
      var name := FileName(fileName);
      FileNameOfBareName(name);
      if IsBlank(name) {
        assert ServeFile(h, "Submissions", name) == BadRequest("Invalid file name.");
      }
    }
  }

  /** Any caller, signed in or not, gets the same submission file. */
  lemma GetSubmissionIgnoresCaller(h: Host, p: Principal, q: Principal, s: Store, fileName: string)
    ensures GetSubmission(h, p, s, fileName) == GetSubmission(h, q, s, fileName)
  {
  }

  const BlockedPatterns: seq<string> := [
    "program.cs", "appsettings", ".cs", "controllers", "services", "models", "views",
    "data", "wwwroot", "storage", ".json", ".config", ".xml", ".csproj", ".sln"]

  const AllowedFiles: seq<string> := [
    "/etc/passwd", "\\etc\\passwd", "/etc/hosts", "\\etc\\hosts",
    "/windows/system32/drivers/etc/hosts", "\\windows\\system32\\drivers\\etc\\hosts",
    "c:\\windows\\system32\\drivers\\etc\\hosts", "c:/windows/system32/drivers/etc/hosts"]

  /** The name takes the traversal branch of `GetExport`. */
  predicate IsTraversal(fileName: string) {
    Contains(fileName, "..") || Contains(fileName, "/") || Contains(fileName, "\\")
  }

  /** The allow-list test: a case-insensitive suffix match or a containment in
      the lower-cased resolved path. */
  predicate Whitelisted(resolved: string) {
    exists i :: 0 <= i < |AllowedFiles| &&
      (EndsWith(ToLower(resolved), ToLower(AllowedFiles[i])) || Contains(ToLower(resolved), ToLower(AllowedFiles[i])))
  }

  predicate Blocked(resolved: string) {
    exists i :: 0 <= i < |BlockedPatterns| && Contains(ToLower(resolved), BlockedPatterns[i])
  }

  /** The suffix test adds nothing to the containment test. */
  lemma WhitelistIsContainment(resolved: string)
    ensures Whitelisted(resolved) <==>
      exists i :: 0 <= i < |AllowedFiles| && Contains(ToLower(resolved), ToLower(AllowedFiles[i]))
  {
    forall i | 0 <= i < |AllowedFiles| && EndsWith(ToLower(resolved), ToLower(AllowedFiles[i]))
      ensures Contains(ToLower(resolved), ToLower(AllowedFiles[i]))
    {
      EndsWithContains(ToLower(resolved), ToLower(AllowedFiles[i]));
    }
  }

  /** The resolved path `GetExport` looks at. */
  function ExportTarget(h: Host, fileName: string): string {
    if IsTraversal(fileName) then h.fullPath(Combine(h.contentRoot, fileName))
    else h.fullPath(Combine(StoragePath(h, "Exports"), fileName))
  }

  /** `GetExport`: a plain name is looked up in the exports folder; a name with
      `..` or a separator is resolved from the content root and refused only
      when the resolved path matches a blocked pattern and no allowed file. */
  function GetExport(h: Host, p: Principal, s: Store, fileName: string): (r: Reply)
    ensures r.store == s && r.written == []
    ensures r.response.PhysicalFile? ==> p.SignedIn? && p.role == Entities.Admin
    ensures r.response.PhysicalFile? ==>
      && r.response.path == ExportTarget(h, fileName) && h.fileExists(r.response.path)
      && (IsTraversal(fileName) ==> Whitelisted(r.response.path) || !Blocked(r.response.path))
    ensures Admit(PolicyOf(FileExport), p).Admitted? && !IsBlank(fileName) && h.fileExists(ExportTarget(h, fileName)) ==>
      (r.response.PhysicalFile? <==>
         !IsTraversal(fileName) || Whitelisted(ExportTarget(h, fileName)) || !Blocked(ExportTarget(h, fileName)))
  {
    var g := Admit(PolicyOf(FileExport), p);
    if !g.Admitted? then Denied(g, s)
    else if IsBlank(fileName) then Reply(BadRequest("Invalid file name."), s, [])
    else
      var resolved := ExportTarget(h, fileName);
      if IsTraversal(fileName) && !Whitelisted(resolved) && Blocked(resolved) then
        Reply(UnknownScheme("Access denied: Sensitive files are protected. Path: " + resolved), s, [])
      else if !h.fileExists(resolved) then Reply(NotFound("File not found. Path: " + resolved), s, [])
      else Reply(PhysicalFile(resolved, ContentTypeFor(h, fileName)), s, [])
  }
}

=== FILE: seqs.dfy ===
/** Generic queries over sequences: the LINQ `Where`, `Any` and `FirstOrDefault` the services use. */
module Seqs {
  import opened Common

  /** The elements of `s` that satisfy `p`, in their original order (`Where`). */
  function Filter<T(!new)>(s: seq<T>, p: T -> bool): (r: seq<T>)
    ensures |r| <= |s|
    ensures forall x :: x in r <==> x in s && p(x)
    decreases |s|
  {
    if |s| == 0 then []
    else if p(s[0]) then [s[0]] + Filter(s[1..], p)
    else Filter(s[1..], p)
  }

  /** The index of the first element of `s` that satisfies `p`, if any. */
  function FirstIndex<T(!new)>(s: seq<T>, p: T -> bool): (r: Option<nat>)
    ensures r.Some? ==> r.value < |s| && p(s[r.value])
    ensures r.Some? ==> forall j :: 0 <= j < r.value ==> !p(s[j])
    ensures r.None? <==> forall x :: x in s ==> !p(x)
    decreases |s|
  {
    if |s| == 0 then None
    else if p(s[0]) then Some(0)
    else match FirstIndex(s[1..], p)
      case None => None
      case Some(k) => Some(k + 1)
  }

  /** The first element of `s` that satisfies `p`, if any (`FirstOrDefault`). */
  function FirstWhere<T(!new)>(s: seq<T>, p: T -> bool): (r: Option<T>)
    ensures r.Some? ==> r.value in s && p(r.value)
    ensures r.None? <==> forall x :: x in s ==> !p(x)
  {
    match FirstIndex(s, p)
    case None => None
    case Some(k) => Some(s[k])
  }

  /** No element occurs twice. */
  predicate NoDuplicates<T(==)>(s: seq<T>) {
    forall i, j :: 0 <= i < j < |s| ==> s[i] != s[j]
  }

  /** Keeping some elements of a duplicate-free sequence keeps it duplicate-free. */
  lemma {:induction false} FilterNoDuplicates<T(!new)>(s: seq<T>, p: T -> bool)
    requires NoDuplicates(s)
    ensures NoDuplicates(Filter(s, p))
    decreases |s|
  {
    if |s| > 0 {
      var rest := Filter(s[1..], p);
      FilterNoDuplicates(s[1..], p);
      if p(s[0]) {
        assert s[0] !in s[1..];
        var r := [s[0]] + rest;
        forall i, j | 0 <= i < j < |r| ensures r[i] != r[j] {
          if i == 0 {
            assert r[j] == rest[j - 1] && rest[j - 1] in rest;
          } else {
            assert r[i] == rest[i - 1] && r[j] == rest[j - 1];
          }
        }
      }
    }
  }
}

=== FILE: store.dfy ===
/** The database: the five tables of the context and the rules its model
    declares — unique usernames, the (user, subject) key of an enrollment,
    cascade from a user to their enrollments, restrict from a student to their
    submissions, cascade from an exam to its submissions — plus the five seeded
    subjects. The one reference the context leaves to convention is here
    too: the required creator of an exam (cascade from the user). A
    submission's grading user is a plain column: `GradedByUserId` matches no
    naming convention for the `GradedBy` navigation, so the database has no
    constraint on it. Identity columns are the `next…Id` counters. */
module Db {
  import opened Common
  import opened Entities
  import Seqs

  /** The ways `SaveChanges` (or a raw statement) can raise. */
  datatype DbError =
    | DuplicateKey          // unique index or primary key already taken
    | ForeignKeyViolation   // a referenced row does not exist
    | RestrictViolation     // delete blocked by a restricting dependant
    | ValueTooLong          // a string exceeds its column width
    | RowMissing            // an update matched no row

  datatype Store = Store(
    users: seq<User>,
    subjects: seq<Subject>,
    enrollments: set<UserSubject>,
    exams: seq<Exam>,
    submissions: seq<Submission>,
    nextUserId: int,
    nextExamId: int,
    nextSubmissionId: int)

  /** The subjects seeded with the schema (Math, Physics, Chemistry, Literature, English). */
  const SeedSubjects: seq<Subject> := [
    Subject(1, "To\U{E1}n"), Subject(2, "L\U{FD}"), Subject(3, "Ho\U{E1}"),
    Subject(4, "V\U{103}n"), Subject(5, "Anh")]

  /** A freshly created database: only the seeded subjects. */
  function InitialStore(): Store {
    Store([], SeedSubjects, {}, [], [], 1, 1, 1)
  }

  // ---- lookups ----

  predicate HasUser(s: Store, id: int) {
    exists u :: u in s.users && u.id == id
  }

  predicate HasSubject(s: Store, id: int) {
    exists x :: x in s.subjects && x.id == id
  }

  predicate HasExam(s: Store, id: int) {
    exists e :: e in s.exams && e.id == id
  }

  /** `Users.FindAsync(id)`. */
  function FindUser(s: Store, id: int): (r: Option<User>)
    ensures r.Some? ==> r.value in s.users && r.value.id == id
    ensures r.None? <==> !HasUser(s, id)
  {
    Seqs.FirstWhere(s.users, (u: User) => u.id == id)
  }

  function FindExam(s: Store, id: int): (r: Option<Exam>)
    ensures r.Some? ==> r.value in s.exams && r.value.id == id
    ensures r.None? <==> !HasExam(s, id)
  {
    Seqs.FirstWhere(s.exams, (e: Exam) => e.id == id)
  }

  function FindSubmission(s: Store, id: int): (r: Option<Submission>)
    ensures r.Some? ==> r.value in s.submissions && r.value.id == id
    ensures r.None? <==> forall m :: m in s.submissions ==> m.id != id
  {
    Seqs.FirstWhere(s.submissions, (m: Submission) => m.id == id)
  }

  /** The subjects a user is enrolled in. */
  function SubjectIdsOf(s: Store, userId: int): (r: set<int>)
    ensures forall sid :: sid in r <==> UserSubject(userId, sid) in s.enrollments
  {
    set e | e in s.enrollments && e.userId == userId :: e.subjectId
  }

  // ---- the invariant the schema enforces ----

  ghost predicate UserKeys(s: Store) {
    && Seqs.NoDuplicates(s.users)
    && (forall u :: u in s.users ==> 1 <= u.id < s.nextUserId && FitsColumns(u))
    && (forall a, b :: a in s.users && b in s.users && a.id == b.id ==> a == b)
    && (forall a, b :: a in s.users && b in s.users && a.username == b.username ==> a == b)
  }

  ghost predicate SubjectKeys(s: Store) {
    forall a, b :: a in s.subjects && b in s.subjects && a.id == b.id ==> a == b
  }

  ghost predicate EnrollmentRefs(s: Store) {
    forall e :: e in s.enrollments ==> HasUser(s, e.userId) && HasSubject(s, e.subjectId)
  }

  ghost predicate ExamKeys(s: Store) {
    && Seqs.NoDuplicates(s.exams)
    && (forall e :: e in s.exams ==>
          1 <= e.id < s.nextExamId && HasSubject(s, e.subjectId) && HasUser(s, e.createdByUserId))
    && (forall a, b :: a in s.exams && b in s.exams && a.id == b.id ==> a == b)
  }

  ghost predicate SubmissionKeys(s: Store) {
    && Seqs.NoDuplicates(s.submissions)
    && (forall m :: m in s.submissions ==> 1 <= m.id < s.nextSubmissionId)
    && (forall m :: m in s.submissions ==> HasExam(s, m.examId) && HasUser(s, m.studentId))
    && (forall a, b :: a in s.submissions && b in s.submissions && a.id == b.id ==> a == b)
  }

  /** Every state the database can be in. */
  ghost predicate Valid(s: Store) {
    s.nextUserId >= 1 && s.nextExamId >= 1 && s.nextSubmissionId >= 1 &&
    UserKeys(s) && SubjectKeys(s) && EnrollmentRefs(s) && ExamKeys(s) && SubmissionKeys(s)
  }

  /** The fresh database is valid and holds exactly the subjects 1..5. */
  lemma InitialStoreValid()
    ensures Valid(InitialStore())
    ensures forall id :: HasSubject(InitialStore(), id) <==> 1 <= id <= 5
  {
    var s := InitialStore();
    forall id | 1 <= id <= 5 ensures HasSubject(s, id) {
      assert s.subjects[id - 1].id == id;
    }
  }

  /** A change keeps every row that other rows can refer to. */
  ghost predicate RefsKept(s: Store, s': Store) {
    && (forall id :: HasUser(s, id) ==> HasUser(s', id))
    && (forall id :: HasSubject(s, id) ==> HasSubject(s', id))
    && (forall id :: HasExam(s, id) ==> HasExam(s', id))
  }

  lemma RowsKept(s: Store, s': Store)
    requires forall u :: u in s.users ==> u in s'.users
    requires s'.subjects == s.subjects
    requires forall e :: e in s.exams ==> e in s'.exams
    ensures RefsKept(s, s')
  {
    forall id | HasUser(s, id) ensures HasUser(s', id) {
      var u :| u in s.users && u.id == id;
      assert u in s'.users;
    }
    forall id | HasExam(s, id) ensures HasExam(s', id) {
      var e :| e in s.exams && e.id == id;
      assert e in s'.exams;
    }
  }

  /** The rules of one table carry over when its rows and counter are kept
      and the rows they refer to are kept. */
  lemma KeysKept(s: Store, s': Store)
    requires Valid(s) && RefsKept(s, s')
    ensures s'.users == s.users && s'.nextUserId == s.nextUserId ==> UserKeys(s')
    ensures s'.subjects == s.subjects ==> SubjectKeys(s')
    ensures s'.enrollments == s.enrollments ==> EnrollmentRefs(s')
    ensures s'.exams == s.exams && s'.nextExamId == s.nextExamId ==> ExamKeys(s')
    ensures s'.submissions == s.submissions && s'.nextSubmissionId == s.nextSubmissionId ==> SubmissionKeys(s')
  {
  }

  // ---- users ----

  /** Insert a user row; the identity column assigns the id. */
  function AddUser(s: Store, u: User): (r: Result<(Store, User), DbError>)
    ensures r.Ok? <==> FitsColumns(u) && forall v :: v in s.users ==> v.username != u.username
    ensures !FitsColumns(u) ==> r == Err(ValueTooLong)
    ensures r.Err? && FitsColumns(u) ==> r == Err(DuplicateKey)
    ensures r.Ok? ==>
      var (s', added) := r.value;
      && added == u.(id := s.nextUserId)
      && s' == s.(users := s.users + [added], nextUserId := s.nextUserId + 1)
  {
    if !FitsColumns(u) then Err(ValueTooLong)
    else if exists v :: v in s.users && v.username == u.username then Err(DuplicateKey)
    else
      var added := u.(id := s.nextUserId);
      Ok((s.(users := s.users + [added], nextUserId := s.nextUserId + 1), added))
  }

  lemma AddUserPreservesValid(s: Store, u: User)
    requires Valid(s) && AddUser(s, u).Ok?
    ensures Valid(AddUser(s, u).value.0)
  {
    var (s', added) := AddUser(s, u).value;
    assert UserKeys(s');
    hide UserKeys, SubjectKeys, EnrollmentRefs, ExamKeys, SubmissionKeys;
    RowsKept(s, s');
    KeysKept(s, s');
  }

  /** Insert one enrollment per subject id. The context refuses a repeated id
      or an existing pair (the composite key) and a missing user or subject
      (the foreign keys); then nothing is inserted. */
  function AddEnrollments(s: Store, userId: int, subjectIds: seq<int>): (r: Result<Store, DbError>)
    ensures r.Ok? <==>
      && (forall i, j :: 0 <= i < j < |subjectIds| ==> subjectIds[i] != subjectIds[j])
      && (forall sid :: sid in subjectIds ==> UserSubject(userId, sid) !in s.enrollments && HasSubject(s, sid))
      && (|subjectIds| > 0 ==> HasUser(s, userId))
    ensures r.Ok? ==> r.value == s.(enrollments := r.value.enrollments)
    ensures r.Ok? ==> forall e :: e in r.value.enrollments <==>
      e in s.enrollments || (e.userId == userId && e.subjectId in subjectIds)
  {
    if exists i, j :: 0 <= i < j < |subjectIds| && subjectIds[i] == subjectIds[j] then Err(DuplicateKey)
    else if exists sid :: sid in subjectIds && UserSubject(userId, sid) in s.enrollments then Err(DuplicateKey)
    else if |subjectIds| > 0 && !HasUser(s, userId) then Err(ForeignKeyViolation)
    else if exists sid :: sid in subjectIds && !HasSubject(s, sid) then Err(ForeignKeyViolation)
    else Ok(s.(enrollments := s.enrollments + set sid | sid in subjectIds :: UserSubject(userId, sid)))
  }

  lemma AddEnrollmentsPreservesValid(s: Store, userId: int, subjectIds: seq<int>)
    requires Valid(s) && AddEnrollments(s, userId, subjectIds).Ok?
    ensures Valid(AddEnrollments(s, userId, subjectIds).value)
  {
    var s' := AddEnrollments(s, userId, subjectIds).value;
    assert EnrollmentRefs(s');
    hide UserKeys, SubjectKeys, EnrollmentRefs, ExamKeys, SubmissionKeys;
    RowsKept(s, s');
    KeysKept(s, s');
  }

  /** The ids of the exams a user created: the rows a delete of the user
      cascades to. */
  function CreatedExamIds(s: Store, userId: int): set<int> {
    set e | e in s.exams && e.createdByUserId == userId :: e.id
  }

  /** A delete of the user is refused: a submission that outlives the cascade
      still names the user as its student. The constraints are checked once
      the cascades have run. */
  predicate DeleteRestricted(s: Store, userId: int) {
    exists m :: m in s.submissions && m.examId !in CreatedExamIds(s, userId) && m.studentId == userId
  }

  /** Delete a user row. The user's enrollments and the exams the user
      created go with the row, and the submissions to those exams with the
      exams; a remaining submission of the user as student refuses the
      delete. Submissions the user graded keep the user's id. */
  function RemoveUser(s: Store, id: int): (r: Result<Store, DbError>)
    ensures r.Err? <==> DeleteRestricted(s, id)
    ensures r.Err? ==> r.error == RestrictViolation
    ensures r.Ok? ==>
      && (forall u :: u in r.value.users <==> u in s.users && u.id != id)
      && (forall e :: e in r.value.enrollments <==> e in s.enrollments && e.userId != id)
      && (forall e :: e in r.value.exams <==> e in s.exams && e.createdByUserId != id)
      && (forall m :: m in r.value.submissions <==>
            m in s.submissions && !exists e :: e in s.exams && e.id == m.examId && e.createdByUserId == id)
      && r.value == s.(users := r.value.users, enrollments := r.value.enrollments,
                       exams := r.value.exams, submissions := r.value.submissions)
  {
    var gone := CreatedExamIds(s, id);
    if exists m :: m in s.submissions && m.examId !in gone && m.studentId == id then Err(RestrictViolation)
    else Ok(s.(users := Seqs.Filter(s.users, (u: User) => u.id != id),
               enrollments := (set e | e in s.enrollments && e.userId != id),
               exams := Seqs.Filter(s.exams, (e: Exam) => e.createdByUserId != id),
               submissions := Seqs.Filter(s.submissions, (m: Submission) => m.examId !in gone)))
  }

  lemma RemoveUserPreservesValid(s: Store, id: int)
    requires Valid(s) && RemoveUser(s, id).Ok?
    ensures Valid(RemoveUser(s, id).value)
  {
    var s' := RemoveUser(s, id).value;
    RemovedUserKeys(s, id);
    RemovedUserExamKeys(s, id);
    RemovedUserSubmissionKeys(s, id);
  }

  lemma RemovedUserKeys(s: Store, id: int)
    requires Valid(s) && RemoveUser(s, id).Ok?
    ensures var s' := RemoveUser(s, id).value;
      UserKeys(s') && SubjectKeys(s') && EnrollmentRefs(s')
      && forall uid :: HasUser(s, uid) && uid != id ==> HasUser(s', uid)
  {
    var s' := RemoveUser(s, id).value;
    Seqs.FilterNoDuplicates(s.users, (u: User) => u.id != id);
    forall uid | HasUser(s, uid) && uid != id ensures HasUser(s', uid) {
      var v :| v in s.users && v.id == uid;
      assert v in s'.users;
    }
  }

  /** The exams that survive the cascade have surviving creators. */
  lemma RemovedUserExamKeys(s: Store, id: int)
    requires ExamKeys(s) && RemoveUser(s, id).Ok?
    requires var s' := RemoveUser(s, id).value;
      forall uid :: HasUser(s, uid) && uid != id ==> HasUser(s', uid)
    ensures ExamKeys(RemoveUser(s, id).value)
  {
    Seqs.FilterNoDuplicates(s.exams, (e: Exam) => e.createdByUserId != id);
  }

  /** The submissions that survive the cascade refer to surviving rows only. */
  lemma RemovedUserSubmissionKeys(s: Store, id: int)
    requires SubmissionKeys(s) && RemoveUser(s, id).Ok?
    requires var s' := RemoveUser(s, id).value;
      forall uid :: HasUser(s, uid) && uid != id ==> HasUser(s', uid)
    ensures SubmissionKeys(RemoveUser(s, id).value)
  {
    var s' := RemoveUser(s, id).value;
    Seqs.FilterNoDuplicates(s.submissions, (m: Submission) => m.examId !in CreatedExamIds(s, id));
    assert Seqs.NoDuplicates(s'.submissions);
    forall m | m in s'.submissions
      ensures HasExam(s', m.examId) && HasUser(s', m.studentId)
    {
      assert m in s.submissions;
      var x :| x in s.exams && x.id == m.examId;
      assert x.createdByUserId != id;
      assert m.examId !in CreatedExamIds(s, id);
      assert m.studentId != id;
      assert HasUser(s, m.studentId);
      assert x in s'.exams;
    }
  }

  /** Write back a changed user row (`Users.Update` then `SaveChanges`). */
  function UpdateUser(s: Store, u: User): (r: Result<Store, DbError>)
    ensures r.Ok? <==>
      && HasUser(s, u.id) && FitsColumns(u)
      && (forall v :: v in s.users && v.username == u.username ==> v.id == u.id)
    ensures r.Ok? ==>
      && r.value == s.(users := r.value.users)
      && |r.value.users| == |s.users|
      && forall i :: 0 <= i < |s.users| ==>
           r.value.users[i] == if s.users[i].id == u.id then u else s.users[i]
  {
    if !HasUser(s, u.id) then Err(RowMissing)
    else if !FitsColumns(u) then Err(ValueTooLong)
    else if exists v :: v in s.users && v.username == u.username && v.id != u.id then Err(DuplicateKey)
    else Ok(s.(users := ReplaceUser(s.users, u)))
  }

  function ReplaceUser(users: seq<User>, u: User): (r: seq<User>)
    ensures |r| == |users|
    ensures forall i :: 0 <= i < |users| ==> r[i] == if users[i].id == u.id then u else users[i]
  {
    seq(|users|, i requires 0 <= i < |users| => if users[i].id == u.id then u else users[i])
  }

  lemma UpdateUserPreservesValid(s: Store, u: User)
    requires Valid(s) && UpdateUser(s, u).Ok?
    ensures Valid(UpdateUser(s, u).value)
  {
    hide UpdateUser;
    var s' := UpdateUser(s, u).value;
    UpdatedUserRows(s, u);
    UpdatedUserKeys(s, u);
    assert s' == s.(users := s'.users);
    forall id | HasUser(s, id) ensures HasUser(s', id) {
      var v :| v in s.users && v.id == id;
      var i :| 0 <= i < |s.users| && s.users[i] == v;
      assert s'.users[i] in s'.users && s'.users[i].id == id;
    }
    hide UserKeys, SubjectKeys, EnrollmentRefs, ExamKeys, SubmissionKeys;
    KeysKept(s, s');
  }

  /** After an update, a row is the new one or an untouched row of another id. */
  lemma UpdatedUserRows(s: Store, u: User)
    requires Valid(s) && UpdateUser(s, u).Ok?
    ensures forall v :: v in UpdateUser(s, u).value.users ==> v == u || (v in s.users && v.id != u.id)
  {
    var s' := UpdateUser(s, u).value;
    forall v | v in s'.users ensures v == u || (v in s.users && v.id != u.id) {
      var i :| 0 <= i < |s'.users| && s'.users[i] == v;
    }
  }

  lemma UpdatedUserKeys(s: Store, u: User)
    requires Valid(s) && UpdateUser(s, u).Ok?
    requires forall v :: v in UpdateUser(s, u).value.users ==> v == u || (v in s.users && v.id != u.id)
    ensures UserKeys(UpdateUser(s, u).value)
  {
    var s' := UpdateUser(s, u).value;
    forall i, j | 0 <= i < j < |s'.users| ensures s'.users[i] != s'.users[j] {
      assert s.users[i] != s.users[j];
    }
    var w :| w in s.users && w.id == u.id;
    assert 1 <= u.id < s'.nextUserId by { assert w in s.users; }
  }

  /** The raw `UPDATE Users SET PhoneNumber = … WHERE Id = …` statement; a
      missing id matches no row and changes nothing. */
  function SetPhoneNumber(s: Store, userId: int, phone: string): (r: Store)
    ensures r == s.(users := r.users) && |r.users| == |s.users|
    ensures forall i :: 0 <= i < |s.users| ==>
      r.users[i] == if s.users[i].id == userId then s.users[i].(phoneNumber := Some(phone)) else s.users[i]
  {
    s.(users := seq(|s.users|, i requires 0 <= i < |s.users| =>
      if s.users[i].id == userId then s.users[i].(phoneNumber := Some(phone)) else s.users[i]))
  }

  lemma SetPhoneNumberPreservesValid(s: Store, userId: int, phone: string)
    requires Valid(s)
    ensures Valid(SetPhoneNumber(s, userId, phone))
  {
    var s' := SetPhoneNumber(s, userId, phone);
    PointwiseUserChange(s, s');
  }

  /** User rows rewritten in place, each keeping its id, its username and the
      column widths, and equal rows rewritten alike. */
  ghost predicate PointwiseUserEdit(users: seq<User>, users': seq<User>) {
    && |users'| == |users|
    && (forall i :: 0 <= i < |users| ==>
          && users'[i].id == users[i].id && users'[i].username == users[i].username
          && FitsColumns(users'[i]))
    && (forall i, j :: 0 <= i < |users| && 0 <= j < |users| && users[i] == users[j] ==>
          users'[i] == users'[j])
  }

  lemma PointwiseUserKeys(s: Store, s': Store)
    requires UserKeys(s) && s'.nextUserId == s.nextUserId
    requires PointwiseUserEdit(s.users, s'.users)
    ensures UserKeys(s')
  {
    forall a, b | a in s'.users && b in s'.users && (a.id == b.id || a.username == b.username)
      ensures a == b
    {
      var i :| 0 <= i < |s'.users| && s'.users[i] == a;
      var j :| 0 <= j < |s'.users| && s'.users[j] == b;
      assert s.users[i] == s.users[j];
    }
    forall a | a in s'.users ensures 1 <= a.id < s'.nextUserId {
      var i :| 0 <= i < |s'.users| && s'.users[i] == a;
      assert s.users[i] in s.users;
    }
  }

  lemma PointwiseHasUser(s: Store, s': Store, id: int)
    requires PointwiseUserEdit(s.users, s'.users)
    requires HasUser(s, id)
    ensures HasUser(s', id)
  {
    var v :| v in s.users && v.id == id;
    var i :| 0 <= i < |s.users| && s.users[i] == v;
    assert s'.users[i] in s'.users;
  }

  /** Rewriting user rows in place keeps the store valid. */
  lemma PointwiseUserChange(s: Store, s': Store)
    requires Valid(s)
    requires s' == s.(users := s'.users)
    requires PointwiseUserEdit(s.users, s'.users)
    ensures Valid(s')
  {
    PointwiseUserKeys(s, s');
    forall id | HasUser(s, id) ensures HasUser(s', id) {
      PointwiseHasUser(s, s', id);
    }
    hide UserKeys, SubjectKeys, EnrollmentRefs, ExamKeys, SubmissionKeys;
    KeysKept(s, s');
  }

  // ---- exams ----

  /** Insert an exam row; the subject and the creator are foreign keys. */
  function AddExam(s: Store, e: Exam): (r: Result<(Store, Exam), DbError>)
    ensures r.Ok? <==> HasSubject(s, e.subjectId) && HasUser(s, e.createdByUserId)
    ensures r.Err? ==> r.error == ForeignKeyViolation
    ensures r.Ok? ==>
      var (s', added) := r.value;
      && added == e.(id := s.nextExamId)
      && s' == s.(exams := s.exams + [added], nextExamId := s.nextExamId + 1)
  {
    if !HasSubject(s, e.subjectId) || !HasUser(s, e.createdByUserId) then Err(ForeignKeyViolation)
    else
      var added := e.(id := s.nextExamId);
      Ok((s.(exams := s.exams + [added], nextExamId := s.nextExamId + 1), added))
  }

  lemma AddExamPreservesValid(s: Store, e: Exam)
    requires Valid(s) && AddExam(s, e).Ok?
    ensures Valid(AddExam(s, e).value.0)
  {
    var (s', added) := AddExam(s, e).value;
    assert ExamKeys(s');
    hide UserKeys, SubjectKeys, EnrollmentRefs, ExamKeys, SubmissionKeys;
    RowsKept(s, s');
    KeysKept(s, s');
  }

  /** Delete an exam row; its submissions cascade. */
  function RemoveExam(s: Store, id: int): (r: Store)
    ensures forall e :: e in r.exams <==> e in s.exams && e.id != id
    ensures forall m :: m in r.submissions <==> m in s.submissions && m.examId != id
    ensures r == s.(exams := r.exams, submissions := r.submissions)
  {
    s.(exams := Seqs.Filter(s.exams, (e: Exam) => e.id != id),
       submissions := Seqs.Filter(s.submissions, (m: Submission) => m.examId != id))
  }

  lemma RemoveExamPreservesValid(s: Store, id: int)
    requires Valid(s)
    ensures Valid(RemoveExam(s, id))
  {
    var s' := RemoveExam(s, id);
    RemovedExamKeys(s, id);
    RemovedExamSubmissionKeys(s, id);
    assert UserKeys(s') && SubjectKeys(s') && EnrollmentRefs(s') by {
      assert s'.users == s.users && s'.subjects == s.subjects && s'.enrollments == s.enrollments;
    }
  }

  lemma RemovedExamKeys(s: Store, id: int)
    requires ExamKeys(s)
    ensures ExamKeys(RemoveExam(s, id))
  {
    Seqs.FilterNoDuplicates(s.exams, (e: Exam) => e.id != id);
  }

  lemma RemovedExamSubmissionKeys(s: Store, id: int)
    requires SubmissionKeys(s)
    ensures SubmissionKeys(RemoveExam(s, id))
  {
    var s' := RemoveExam(s, id);
    Seqs.FilterNoDuplicates(s.submissions, (m: Submission) => m.examId != id);
    assert s'.users == s.users;
    forall m | m in s'.submissions
      ensures HasExam(s', m.examId) && HasUser(s', m.studentId)
    {
      assert m in s.submissions && m.examId != id;
      assert HasUser(s, m.studentId);
      var x :| x in s.exams && x.id == m.examId;
      assert x in s'.exams;
    }
  }

  // ---- submissions ----

  /** Insert a submission row; exam and student are foreign keys, the
      grading user is not. */
  function AddSubmission(s: Store, m: Submission): (r: Result<(Store, Submission), DbError>)
    ensures r.Ok? <==> HasExam(s, m.examId) && HasUser(s, m.studentId)
    ensures r.Ok? ==>
      var (s', added) := r.value;
      && added == m.(id := s.nextSubmissionId)
      && s' == s.(submissions := s.submissions + [added], nextSubmissionId := s.nextSubmissionId + 1)
  {
    if !HasExam(s, m.examId) || !HasUser(s, m.studentId) then Err(ForeignKeyViolation)
    else
      var added := m.(id := s.nextSubmissionId);
      Ok((s.(submissions := s.submissions + [added], nextSubmissionId := s.nextSubmissionId + 1), added))
  }

  lemma AddSubmissionPreservesValid(s: Store, m: Submission)
    requires Valid(s) && AddSubmission(s, m).Ok?
    ensures Valid(AddSubmission(s, m).value.0)
  {
    var (s', added) := AddSubmission(s, m).value;
    assert SubmissionKeys(s');
    hide UserKeys, SubjectKeys, EnrollmentRefs, ExamKeys, SubmissionKeys;
    RowsKept(s, s');
    KeysKept(s, s');
  }

  /** Write back a changed (tracked) submission row, matched by id. */
  function ReplaceSubmission(s: Store, m: Submission): (r: Store)
    ensures r == s.(submissions := r.submissions) && |r.submissions| == |s.submissions|
    ensures forall i :: 0 <= i < |s.submissions| ==>
      r.submissions[i] == if s.submissions[i].id == m.id then m else s.submissions[i]
  {
    s.(submissions := seq(|s.submissions|, i requires 0 <= i < |s.submissions| =>
      if s.submissions[i].id == m.id then m else s.submissions[i]))
  }

  lemma ReplaceSubmissionPreservesValid(s: Store, old_: Submission, m: Submission)
    requires Valid(s) && old_ in s.submissions
    requires m.id == old_.id && m.examId == old_.examId && m.studentId == old_.studentId
    ensures Valid(ReplaceSubmission(s, m))
  {
    var s' := ReplaceSubmission(s, m);
    forall x | x in s'.submissions ensures x == m || x in s.submissions {
    }
    assert SubmissionKeys(s');
    hide UserKeys, SubjectKeys, EnrollmentRefs, ExamKeys, SubmissionKeys;
    RowsKept(s, s');
    KeysKept(s, s');
  }
}

=== FILE: student_api_controller.dfy ===
/** `StudentApiController`: the JSON upload endpoint, which admits more file
    types than the page and keeps the uploaded extension. */
module StudentApiController {
  import opened Common
  import opened Text
  import opened Entities
  import opened Db
  import opened Web
  import opened Routes
  import opened Paths
  import opened FileNames
  import ExamService
  import StudentController

  const AllowedExtensions: seq<string> := [".pdf", ".bin", ".dat", ".soap"]
  const AllowedMimeTypes: seq<string> :=
    ["application/pdf", "application/octet-stream", "application/soap+xml", "application/x-binary"]

  /** The content-type test: a listed type after lower-casing, or any type whose
      original spelling starts with `application/`. */
  predicate MimeAccepted(contentType: string) {
    ToLower(contentType) in AllowedMimeTypes || StartsWith(contentType, "application/")
  }

  /** The upload checks in the order the handler makes them, with the message
      each failure returns. */
  function UploadProblem(file: Option<FormFile>): (r: Option<string>)
    ensures r.None? <==>
      && file.Some? && 0 < file.value.length <= SubmissionMaxBytes
      && ToLower(Extension(file.value.fileName)) in AllowedExtensions
      && MimeAccepted(file.value.contentType)
  {
    if file.None? || file.value.length == 0 then Some("Please upload a valid file.")
    else if file.value.length > SubmissionMaxBytes then Some("File size exceeds the maximum limit of 10MB.")
    else if ToLower(Extension(file.value.fileName)) !in AllowedExtensions then
      Some("Only PDF, BIN, DAT, or SOAP files are allowed.")
    else if !MimeAccepted(file.value.contentType) then Some("Invalid file type.")
    else None
  }

  /** `SubmitExam`. The deserialisation attempts made on a non-PDF file end in
      logging only, so they do not appear in the reply. */
  function SubmitExam(h: Host, p: Principal, s: Store, examId: int, file: Option<FormFile>,
                      guid: string, now: int): (r: Reply)
    ensures !Admit(PolicyOf(StudentApiSubmitExam), p).Admitted? ==>
      r == Denied(Admit(PolicyOf(StudentApiSubmitExam), p), s)
    ensures r.response.BadRequest? ==> r.store == s && r.written == []
    ensures r.response.Json? <==>
      && Admit(PolicyOf(StudentApiSubmitExam), p).Admitted?
      && StudentController.EnrolledIn(s, p.userId, examId)
      && ExamService.StudentSubmission(s, examId, p.userId).None?
      && UploadProblem(file).None?
      && var storage := StoragePath(h, "Submissions");
         var name := SubmissionName(examId, p.userId, guid, ToLower(Extension(file.value.fileName)));
         && InsideStorage(h, storage, Combine(storage, name))
         && ExamService.SubmitExam(s, examId, p.userId, SubmissionRoute + name, now).Ok?
    ensures r.response.Json? ==>
      var name := SubmissionName(examId, p.userId, guid, ToLower(Extension(file.value.fileName)));
      && r.response.fields == [("message", "Exam submitted successfully."),
                               ("filePath", SubmissionRoute + name), ("fileName", name)]
      && r.store == ExamService.SubmitExam(s, examId, p.userId, SubmissionRoute + name, now).value
      && r.written == [Copied(Combine(StoragePath(h, "Submissions"), name))]
  {
    var g := Admit(PolicyOf(StudentApiSubmitExam), p);
    if !g.Admitted? then Denied(g, s)
    else
      var userId := p.userId;
      if !StudentController.EnrolledIn(s, userId, examId) then
        Reply(UnknownScheme("You can only submit exams for subjects you are enrolled in."), s, [])
      else if ExamService.StudentSubmission(s, examId, userId).Some? then
        Reply(BadRequest("You have already submitted this exam and cannot resubmit."), s, [])
      else match UploadProblem(file)
        case Some(message) => Reply(BadRequest(message), s, [])
        case None =>
          var name := SubmissionName(examId, userId, guid, ToLower(Extension(file.value.fileName)));
          var storage := StoragePath(h, "Submissions");
          var filePath := Combine(storage, name);
          if !InsideStorage(h, storage, filePath) then Reply(BadRequest("Invalid file path."), s, [])
          else match ExamService.SubmitExam(s, examId, userId, SubmissionRoute + name, now)
            case Err(e) => Reply(ServerError(Storage(e)), s, [Copied(filePath)])
            case Ok(s') =>
              Reply(Json([("message", "Exam submitted successfully."),
                          ("filePath", SubmissionRoute + name), ("fileName", name)]), s', [Copied(filePath)])
  }

  /** A file that passes the page's checks passes the endpoint's, and keeps
      the extension the page would give it. */
  lemma PdfPassesApiChecks(file: Option<FormFile>)
    requires StudentController.PdfUploadProblem(file).None?
    ensures UploadProblem(file).None?
    ensures ToLower(Extension(file.value.fileName)) == ".pdf"
  {
    assert ".pdf" in AllowedExtensions;
    assert ToLower(file.value.contentType) == AllowedMimeTypes[0];
  }

  /** Whatever the page accepts the endpoint accepts too, storing the same file
      under the same name with the same database change. */
  lemma PageUploadAcceptedByApi(h: Host, p: Principal, s: Store, examId: int, file: Option<FormFile>,
                                guid: string, now: int)
    requires StudentController.SubmitExam(h, p, s, examId, file, guid, now).response
             == Redirect(StudentController.ExamPage(examId), Succeeded("Exam submitted successfully."))
    ensures SubmitExam(h, p, s, examId, file, guid, now).response.Json?
    ensures SubmitExam(h, p, s, examId, file, guid, now).store == StudentController.SubmitExam(h, p, s, examId, file, guid, now).store
    ensures SubmitExam(h, p, s, examId, file, guid, now).written == StudentController.SubmitExam(h, p, s, examId, file, guid, now).written
  {
    hide SubmitExam, StudentController.SubmitExam, UploadProblem, StudentController.PdfUploadProblem,
         Combine, InsideStorage, SubmissionName, ExamService.SubmitExam;
    StudentController.SubmitExamAccepted(h, p, s, examId, file, guid, now);
    PdfPassesApiChecks(file);
    assert Admit(PolicyOf(StudentApiSubmitExam), p).Admitted?;
  }

  /** The converse fails: a binary file with a made-up `application/` type,
      which the page refuses, reaches the deserialiser and is stored. */
  lemma ApiAcceptsWhatPageRefuses()
    ensures StudentController.PdfUploadProblem(Some(FormFile(100, "payload.bin", "application/x-anything"))).Some?
    ensures UploadProblem(Some(FormFile(100, "payload.bin", "application/x-anything"))).None?
  {
    hide UploadProblem, StudentController.PdfUploadProblem;
    var f := FormFile(100, "payload.bin", "application/x-anything");
    assert ToLower(Extension(f.fileName)) == ".bin" by {
      ExtensionOfSuffix("payload", ".bin");
      assert "payload.bin" == "payload" + ".bin";
      assert ToLower(".bin") == ".bin";
    }
    assert ".bin" in AllowedExtensions && ".bin" != ".pdf";
    assert MimeAccepted(f.contentType) by {
      assert StartsWith(f.contentType, "application/");
    }
  }
}

=== FILE: student_controller.dfy ===
/** `StudentController`: the student's exam list, exam page and PDF upload. */
module StudentController {
  import opened Common
  import opened Text
  import opened Entities
  import opened Db
  import opened Web
  import opened Routes
  import opened Paths
  import opened FileNames
  import ExamService

  /** Where `RedirectToAction("ExamDetail", new { id })` leads. */
  function ExamPage(examId: int): string {
    "/Student/Exam/" + IntToString(examId)
  }

  /** The exam is one of the exams of the student's subjects. */
  predicate EnrolledIn(s: Store, userId: int, examId: int) {
    exists e :: e in ExamService.ExamsOfEnrolledSubjects(s, userId) && e.id == examId
  }

  /** `Index`. */
  function Index(p: Principal, s: Store): (r: Reply)
    ensures r.store == s && r.written == []
    ensures Admit(PolicyOf(StudentIndex), p).Admitted? ==>
      r.response == Page("Index", Exams(ExamService.ExamsOfEnrolledSubjects(s, p.userId)), [])
  {
    var g := Admit(PolicyOf(StudentIndex), p);
    if !g.Admitted? then Denied(g, s)
    else Reply(Page("Index", Exams(ExamService.ExamsOfEnrolledSubjects(s, p.userId)), []), s, [])
  }

  /** `ExamDetail`: the exam with the caller's own submission, whatever the
      caller's enrollment. */
  function ExamDetail(p: Principal, s: Store, id: int): (r: Reply)
    ensures r.store == s && r.written == []
    ensures Admit(PolicyOf(StudentExamDetail), p).Admitted? ==>
      match ExamService.GetExamById(s, id)
      case None => r.response == NotFound("")
      case Some(e) => (r.response ==
        Page("ExamDetail", ExamWithSubmission(e, ExamService.StudentSubmission(s, id, p.userId)), []))
  {
    var g := Admit(PolicyOf(StudentExamDetail), p);
    if !g.Admitted? then Denied(g, s)
    else match ExamService.GetExamById(s, id)
      case None => Reply(NotFound(""), s, [])
      case Some(e) =>
        Reply(Page("ExamDetail", ExamWithSubmission(e, ExamService.StudentSubmission(s, id, p.userId)), []), s, [])
  }

  /** Any student sees any exam of a consistent database, enrolled or not. */
  lemma ExamDetailIgnoresEnrollment(s: Store, studentId: int, e: Exam)
    requires Valid(s) && e in s.exams
    ensures ExamDetail(SignedIn(studentId, Student), s, e.id).response.Page?
    ensures ExamDetail(SignedIn(studentId, Student), s, e.id).response.data.exam == e
  {
    ExamService.GetExamByIdIsKeyLookup(s, e.id);
    assert HasExam(s, e.id);
    var found := FindExam(s, e.id).value;
    assert found in s.exams && found.id == e.id;
  }

  /** The upload checks of `SubmitExam`, after enrollment and the earlier
      submission, in the order the handler makes them. */
  function PdfUploadProblem(file: Option<FormFile>): (r: Option<Problem>)
    ensures r.None? <==>
      && file.Some? && 0 < file.value.length <= SubmissionMaxBytes
      && ToLower(Extension(file.value.fileName)) == ".pdf"
      && ToLower(file.value.contentType) == "application/pdf"
  {
    if file.None? || file.value.length == 0 then Some(NoFile)
    else if file.value.length > SubmissionMaxBytes then Some(FileTooLarge)
    else if ToLower(Extension(file.value.fileName)) != ".pdf" then Some(ExtensionRefused)
    else if ToLower(file.value.contentType) != "application/pdf" then Some(ContentTypeRefused)
    else None
  }

  /** `SubmitExam`: enrollment, no earlier submission, a PDF within the size
      cap; the file is stored under a generated name inside the submissions
      folder and the submission row records its download route. `guid` and
      `now` stand for `Guid.NewGuid()` and `DateTime.UtcNow`. */
  function SubmitExam(h: Host, p: Principal, s: Store, examId: int, file: Option<FormFile>,
                      guid: string, now: int): (r: Reply)
    ensures !Admit(PolicyOf(StudentSubmitExam), p).Admitted? ==> r == Denied(Admit(PolicyOf(StudentSubmitExam), p), s)
    ensures r.response.Redirect? && r.response.flash.Failed? ==> r.store == s && r.written == []
    ensures r.response == Redirect(ExamPage(examId), Succeeded("Exam submitted successfully.")) <==>
      && Admit(PolicyOf(StudentSubmitExam), p).Admitted?
      && EnrolledIn(s, p.userId, examId)
      && ExamService.StudentSubmission(s, examId, p.userId).None?
      && PdfUploadProblem(file).None?
      && var storage := StoragePath(h, "Submissions");
         var name := SubmissionName(examId, p.userId, guid, ".pdf");
         && InsideStorage(h, storage, Combine(storage, name))
         && ExamService.SubmitExam(s, examId, p.userId, SubmissionRoute + name, now).Ok?
    ensures r.response == Redirect(ExamPage(examId), Succeeded("Exam submitted successfully.")) ==>
      var name := SubmissionName(examId, p.userId, guid, ".pdf");
      && r.store == ExamService.SubmitExam(s, examId, p.userId, SubmissionRoute + name, now).value
      && r.written == [Copied(Combine(StoragePath(h, "Submissions"), name))]
  {
    var g := Admit(PolicyOf(StudentSubmitExam), p);
    if !g.Admitted? then Denied(g, s)
    else
      var userId := p.userId;
      if !EnrolledIn(s, userId, examId) then
        Reply(UnknownScheme("You can only submit exams for subjects you are enrolled in."), s, [])
      else if ExamService.StudentSubmission(s, examId, userId).Some? then
        Reply(Redirect(ExamPage(examId), Failed(AlreadySubmitted)), s, [])
      else match PdfUploadProblem(file)
        case Some(problem) => Reply(Redirect(ExamPage(examId), Failed(problem)), s, [])
        case None =>
          var name := SubmissionName(examId, userId, guid, ".pdf");
          var storage := StoragePath(h, "Submissions");
          var filePath := Combine(storage, name);
          if !InsideStorage(h, storage, filePath) then
            Reply(Redirect(ExamPage(examId), Failed(PathOutsideStorage)), s, [])
          else match ExamService.SubmitExam(s, examId, userId, SubmissionRoute + name, now)
            case Err(e) => Reply(ServerError(Storage(e)), s, [Copied(filePath)])
            case Ok(s') => Reply(Redirect(ExamPage(examId), Succeeded("Exam submitted successfully.")), s', [Copied(filePath)])
  }

  /** What a successful upload establishes, one fact per clause. */
  lemma SubmitExamAccepted(h: Host, p: Principal, s: Store, examId: int, file: Option<FormFile>,
                           guid: string, now: int)
    requires SubmitExam(h, p, s, examId, file, guid, now).response
             == Redirect(ExamPage(examId), Succeeded("Exam submitted successfully."))
    ensures p.SignedIn? && p.role == Student
    ensures EnrolledIn(s, p.userId, examId)
    ensures ExamService.StudentSubmission(s, examId, p.userId).None?
    ensures PdfUploadProblem(file).None?
    ensures var name := SubmissionName(examId, p.userId, guid, ".pdf");
      && InsideStorage(h, StoragePath(h, "Submissions"), Combine(StoragePath(h, "Submissions"), name))
      && ExamService.SubmitExam(s, examId, p.userId, SubmissionRoute + name, now).Ok?
      && SubmitExam(h, p, s, examId, file, guid, now).store
         == ExamService.SubmitExam(s, examId, p.userId, SubmissionRoute + name, now).value
  {
    hide Combine;
  }

  /** After a successful upload, any further upload by the same student for
      the same exam is refused before the file is looked at. */
  lemma SecondSubmissionRefused(h: Host, p: Principal, s: Store, examId: int, file: Option<FormFile>,
                                guid: string, now: int, file': Option<FormFile>, guid': string, now': int)
    requires Valid(s) && ExamService.OneSubmissionPerPair(s)
    requires SubmitExam(h, p, s, examId, file, guid, now).response
             == Redirect(ExamPage(examId), Succeeded("Exam submitted successfully."))
    ensures var s' := SubmitExam(h, p, s, examId, file, guid, now).store;
      SubmitExam(h, p, s', examId, file', guid', now') == Reply(Redirect(ExamPage(examId), Failed(AlreadySubmitted)), s', [])
  {
    hide SubmitExam, Combine, PdfUploadProblem, InsideStorage, StoragePath, SubmissionName;
    SubmitExamAccepted(h, p, s, examId, file, guid, now);
    var name := SubmissionName(examId, p.userId, guid, ".pdf");
    var s' := SubmitExam(h, p, s, examId, file, guid, now).store;
    ExamService.SubmitThenFind(s, examId, p.userId, SubmissionRoute + name, now);
    assert ExamService.StudentSubmission(s', examId, p.userId).Some?;
    assert s'.exams == s.exams && s'.enrollments == s.enrollments;
    var e :| e in ExamService.ExamsOfEnrolledSubjects(s, p.userId) && e.id == examId;
    assert e in ExamService.ExamsOfEnrolledSubjects(s', p.userId);
    ResubmissionRefused(h, p, s', examId, file', guid', now');
  }

  /** An enrolled student who already has a submission for the exam is sent
      back to the exam page, whatever the file, and nothing changes. */
  lemma ResubmissionRefused(h: Host, p: Principal, s: Store, examId: int, file: Option<FormFile>,
                            guid: string, now: int)
    requires p.SignedIn? && p.role == Student
    requires EnrolledIn(s, p.userId, examId)
    requires ExamService.StudentSubmission(s, examId, p.userId).Some?
    ensures SubmitExam(h, p, s, examId, file, guid, now)
            == Reply(Redirect(ExamPage(examId), Failed(AlreadySubmitted)), s, [])
  {
  }
}

=== FILE: teacher_controller.dfy ===
/** `TeacherController`: the teacher's student list and its create, edit and
    delete actions, the exam list, exam creation, the exam page with its
    submissions, and grading. Only some actions demand the Teacher role; the
    others admit any signed-in user, and none checks that the student or
    submission acted on belongs to the caller's classes beyond what is stated
    below. */
module TeacherController {
  import opened Common
  import opened Text
  import opened Entities
  import opened Db
  import opened Web
  import opened Routes
  import opened AuthService
  import Seqs
  import UserService
  import ExamService
  import RawSql

  /** Where `RedirectToAction("Students")`, `RedirectToAction("Exams")` and
      `RedirectToAction("ExamDetail", new { id })` lead. */
  const StudentsPage: string := "/Teacher/Students"
  const ExamsPage: string := "/Teacher/Exams"

  function ExamDetailPage(examId: int): string {
    "/Teacher/Exams/Detail/" + IntToString(examId)
  }

  // ---- the student list ----

  /** The search of `Students`: the lower-cased term occurs in the lower-cased
      username or full name. */
  predicate MatchesSearch(u: User, search: string) {
    Contains(ToLower(u.username), ToLower(search)) || Contains(ToLower(u.fullName), ToLower(search))
  }

  /** `Students`: the students sharing a subject with the caller, narrowed by a
      non-empty search term. */
  function Students(p: Principal, s: Store, search: string): (r: Reply)
    ensures r.store == s && r.written == []
    ensures !Admit(PolicyOf(TeacherStudents), p).Admitted? ==> r == Denied(Admit(PolicyOf(TeacherStudents), p), s)
    ensures Admit(PolicyOf(TeacherStudents), p).Admitted? ==>
      && r.response.Page? && r.response.view == "Students" && r.response.problems == []
      && r.response.data.Users?
      && forall u :: u in r.response.data.users <==>
           && u in s.users && u.role == Student && UserService.SharesSubject(s, p.userId, u.id)
           && (search == [] || MatchesSearch(u, search))
  {
    var g := Admit(PolicyOf(TeacherStudents), p);
    if !g.Admitted? then Denied(g, s)
    else
      var mine := UserService.StudentsOfTeacher(s, p.userId);
      var shown := if search == [] then mine else Seqs.Filter(mine, (u: User) => MatchesSearch(u, search));
      Reply(Page("Students", Users(shown), []), s, [])
  }

  // ---- creating a student ----

  /** The bound `CreateUserVm`; the role it carries is ignored. */
  datatype StudentForm = StudentForm(username: string, password: string, fullName: string,
                                     subjectIds: Option<seq<int>>)

  /** The subject ids of the form that name no subject. */
  function UnknownSubjectIds(s: Store, subjectIds: Option<seq<int>>): (r: seq<int>)
    ensures forall sid :: sid in r <==> subjectIds.Some? && sid in subjectIds.value && !HasSubject(s, sid)
  {
    if subjectIds.None? then [] else Seqs.Filter(subjectIds.value, (sid: int) => !HasSubject(s, sid))
  }

  /** The model errors `CreateStudent` records, in order: the first failing
      field rule, a taken username, unknown subject ids. The username and full
      name are already trimmed. */
  function CreateStudentProblems(s: Store, username: string, password: string, fullName: string,
                                 subjectIds: Option<seq<int>>): (r: seq<Problem>)
    ensures r == [] <==>
      && !IsBlank(username) && !IsBlank(fullName) && !IsBlank(password)
      && |password| >= 6 && |username| <= UsernameMaxLength
      && (forall u :: u in s.users ==> ToLower(u.username) != ToLower(username))
      && (forall sid :: subjectIds.Some? && sid in subjectIds.value ==> HasSubject(s, sid))
    ensures UserService.IsUsernameTaken(s, username) ==> UsernameTaken in r
  {
    var field :=
      if IsBlank(username) || IsBlank(fullName) || IsBlank(password) then [FieldsRequired]
      else if |password| < 6 then [PasswordTooShort]
      else if |username| > UsernameMaxLength then [UsernameTooLong]
      else [];
    var taken := if UserService.IsUsernameTaken(s, username) then [UsernameTaken] else [];
    var unknown := UnknownSubjectIds(s, subjectIds);
    var r := field + taken + (if unknown == [] then [] else [UnknownSubjects(unknown)]);
    assert UserService.IsUsernameTaken(s, username) ==> r[|field|] == UsernameTaken;
    assert r == [] <==> field == [] && taken == [] && unknown == [];
    assert unknown != [] ==> unknown[0] in unknown;
    r
  }

  /** The student row the action builds: role Student, gender Male. */
  function NewStudent(username: string, fullName: string): User {
    User(0, username, "", fullName, Male, None, None, None, Student)
  }

  /** The last step of `CreateStudent`, once every check has passed: save the
      student with its enrollments. The user row is committed before the
      enrollments, so a failed enrollment leaves it behind. */
  function SaveStudent(hasher: PasswordHasher, callerId: int, s: Store, username: string, fullName: string,
                       password: string, subjectIds: seq<int>): (r: Reply)
    ensures r.written == []
    ensures r.response == Redirect(StudentsPage, NoFlash) <==>
      UserService.CreateUser(s, hasher, NewStudent(username, fullName), password, Some(subjectIds)).result.Ok?
    ensures r.response == Redirect(StudentsPage, NoFlash) ==>
      exists u :: && r.store.users == s.users + [u]
                  && u.role == Student && u.username == username && u.fullName == fullName
                  && u.passwordHash == hasher.hash(password)
                  && forall sid :: sid in subjectIds ==> UserSubject(u.id, sid) in r.store.enrollments
    ensures r.response != Redirect(StudentsPage, NoFlash) ==>
      r.response.Page? && |r.response.problems| == 1 && r.response.problems[0].Storage?
  {
    var e := UserService.CreateUser(s, hasher, NewStudent(username, fullName), password, Some(subjectIds));
    match e.result
    case Ok(added) => Reply(Redirect(StudentsPage, NoFlash), e.store, [])
    case Err(err) =>
      Reply(Page("Students", Users(UserService.StudentsOfTeacher(e.store, callerId)), [Problem.Storage(err)]), e.store, [])
  }

  /** `CreateStudent`: open to every signed-in user; the new student may be
      enrolled in any existing subject, taught by the caller or not. The
      username and full name are trimmed, the password is not. */
  function CreateStudent(hasher: PasswordHasher, p: Principal, s: Store, form: StudentForm): (r: Reply)
    ensures !Admit(PolicyOf(TeacherCreateStudent), p).Admitted? ==>
      r == Denied(Admit(PolicyOf(TeacherCreateStudent), p), s)
    ensures r.written == []
    ensures Admit(PolicyOf(TeacherCreateStudent), p).Admitted? ==>
      var problems := CreateStudentProblems(s, Trim(form.username), form.password, Trim(form.fullName), form.subjectIds);
      if problems != [] then r.response.Page? && r.response.problems == problems && r.store == s
      else if form.subjectIds.None? || form.subjectIds.value == [] then
        r.response.Page? && r.response.problems == [NoClassSelected] && r.store == s
      else r == SaveStudent(hasher, p.userId, s, Trim(form.username), Trim(form.fullName), form.password,
                            form.subjectIds.value)
  {
    var g := Admit(PolicyOf(TeacherCreateStudent), p);
    if !g.Admitted? then Denied(g, s)
    else
      var username := Trim(form.username);
      var fullName := Trim(form.fullName);
      var problems := CreateStudentProblems(s, username, form.password, fullName, form.subjectIds);
      if problems != [] then
        Reply(Page("Students", Users(UserService.StudentsOfTeacher(s, p.userId)), problems), s, [])
      else if form.subjectIds.None? || form.subjectIds.value == [] then
        Reply(Page("Students", Users(UserService.StudentsOfTeacher(s, p.userId)), [NoClassSelected]), s, [])
      else SaveStudent(hasher, p.userId, s, username, fullName, form.password, form.subjectIds.value)
  }

  /** Any signed-in user, a student included, creates a student in any
      existing subjects: a form that passes the checks, with distinct subject
      ids and a full name that fits its column, always succeeds. */
  lemma AnyoneCreatesStudents(hasher: PasswordHasher, s: Store, callerId: int, role: UserRole, form: StudentForm)
    requires Valid(s)
    requires CreateStudentProblems(s, Trim(form.username), form.password, Trim(form.fullName), form.subjectIds) == []
    requires form.subjectIds.Some? && form.subjectIds.value != []
    requires forall i, j :: 0 <= i < j < |form.subjectIds.value| ==> form.subjectIds.value[i] != form.subjectIds.value[j]
    requires |Trim(form.fullName)| <= FullNameMaxLength
    ensures CreateStudent(hasher, SignedIn(callerId, role), s, form).response == Redirect(StudentsPage, NoFlash)
  {
    hide CreateStudent, SaveStudent, Trim, CreateStudentProblems, UserService.StudentsOfTeacher;
    var username := Trim(form.username);
    var student := NewStudent(username, Trim(form.fullName)).(passwordHash := hasher.hash(form.password));
    assert forall v :: v in s.users ==> v.username != username;
    assert AddUser(s, student).Ok?;
    var (s1, added) := AddUser(s, student).value;
    forall sid | sid in form.subjectIds.value
      ensures UserSubject(added.id, sid) !in s1.enrollments
    {
      assert !HasUser(s, added.id);
    }
    assert AddEnrollments(s1, added.id, form.subjectIds.value).Ok?;
    assert UserService.CreateUser(s, hasher, NewStudent(username, Trim(form.fullName)), form.password,
                                  form.subjectIds).result.Ok?;
  }

  // ---- editing a student ----

  /** The bound `User` of `EditStudent`; only these three fields are read, and
      a missing one arrives as the empty string. */
  datatype StudentEdit = StudentEdit(fullName: string, phoneNumber: string, address: string)

  /** The row `EditStudent` writes back: trimmed name, phone and address. */
  function EditedStudent(u: User, form: StudentEdit): (v: User)
    ensures v.id == u.id && v.username == u.username && v.role == u.role && v.passwordHash == u.passwordHash
    ensures v.fullName == Trim(form.fullName)
    ensures v.phoneNumber == Some(Trim(form.phoneNumber)) && v.address == Some(Trim(form.address))
  {
    u.(fullName := Trim(form.fullName), phoneNumber := Some(Trim(form.phoneNumber)),
       address := Some(Trim(form.address)))
  }

  /** `EditStudent`: any user of the Student role, in the caller's classes or not. */
  function EditStudent(p: Principal, s: Store, id: int, form: StudentEdit): (r: Reply)
    ensures r.written == []
    ensures !Admit(PolicyOf(TeacherEditStudent), p).Admitted? ==> r == Denied(Admit(PolicyOf(TeacherEditStudent), p), s)
    ensures Admit(PolicyOf(TeacherEditStudent), p).Admitted? ==>
      match UserService.GetUserById(s, id)
      case None => r == Reply(NotFound(""), s, [])
      case Some(u) =>
        if u.role != Student then r == Reply(NotFound(""), s, [])
        else if IsBlank(Trim(form.fullName)) then r.response.Page? && r.response.problems == [FullNameRequired] && r.store == s
        else match UpdateUser(s, EditedStudent(u, form))
          case Ok(s') => r == Reply(Redirect(StudentsPage, NoFlash), s', [])
          case Err(e) => r.response.Page? && r.response.problems == [Problem.Storage(e)] && r.store == s
  {
    var g := Admit(PolicyOf(TeacherEditStudent), p);
    if !g.Admitted? then Denied(g, s)
    else match UserService.GetUserById(s, id)
      case None => Reply(NotFound(""), s, [])
      case Some(u) =>
        if u.role != Student then Reply(NotFound(""), s, [])
        else
          var mine := UserService.StudentsOfTeacher(s, p.userId);
          var edited := EditedStudent(u, form);
          if IsBlank(edited.fullName) then Reply(Page("Students", Users(mine), [FullNameRequired]), s, [])
          else match UpdateUser(s, edited)
            case Ok(s') => Reply(Redirect(StudentsPage, NoFlash), s', [])
            case Err(e) => Reply(Page("Students", Users(mine), [Problem.Storage(e)]), s, [])
  }

  /** A teacher can rewrite the name, phone and address of any student of a
      consistent database, whether or not the two share a subject. */
  lemma TeacherEditsAnyStudent(s: Store, teacherId: int, u: User, form: StudentEdit)
    requires Valid(s) && u in s.users && u.role == Student
    requires !IsBlank(Trim(form.fullName)) && |Trim(form.fullName)| <= FullNameMaxLength
    ensures var r := EditStudent(SignedIn(teacherId, Teacher), s, u.id, form);
      && r.response == Redirect(StudentsPage, NoFlash)
      && EditedStudent(u, form) in r.store.users
  {
    hide EditStudent, Trim, UserService.StudentsOfTeacher;
    assert Admit(PolicyOf(TeacherEditStudent), SignedIn(teacherId, Teacher)).Admitted?;
    assert HasUser(s, u.id);
    var found := FindUser(s, u.id).value;
    assert found == u;
    var edited := EditedStudent(u, form);
    assert FitsColumns(edited);
    assert UpdateUser(s, edited).Ok?;
    var s' := UpdateUser(s, edited).value;
    var i :| 0 <= i < |s.users| && s.users[i] == u;
    assert s'.users[i] == edited;
    assert UserService.GetUserById(s, u.id) == Some(u);
    assert UpdateUser(s, edited) == Ok(s');
    assert EditStudent(SignedIn(teacherId, Teacher), s, u.id, form) == Reply(Redirect(StudentsPage, NoFlash), s', []);
  }

  // ---- deleting a student ----

  /** The common body of `DeleteStudent` and `DeleteStudentGet`: the id must
      be one of the caller's students; the delete itself may raise. */
  function DeleteInClass(uid: int, s: Store, id: int): (r: Reply)
    ensures r.written == []
    ensures (forall u :: u in UserService.StudentsOfTeacher(s, uid) ==> u.id != id) ==>
      r == Reply(UnknownScheme("You can only delete students in your classes."), s, [])
    ensures r.response == Redirect(StudentsPage, NoFlash) <==>
      && (exists u :: u in s.users && u.id == id && u.role == Student && UserService.SharesSubject(s, uid, id))
      && (UserService.GetUserById(s, id).value.role == Student ==> UserService.DeleteUser(s, id).Ok?)
    ensures Valid(s) && r.response == Redirect(StudentsPage, NoFlash) ==>
      forall u :: u in r.store.users <==> u in s.users && u.id != id
    ensures r.response.ServerError? ==> r.store == s && DeleteRestricted(s, id)
  {
    var mine := UserService.StudentsOfTeacher(s, uid);
    if forall u :: u in mine ==> u.id != id then
      Reply(UnknownScheme("You can only delete students in your classes."), s, [])
    else
      var listed :| listed in mine && listed.id == id;
      assert HasUser(s, id) by { assert listed in s.users; }
      var user := UserService.GetUserById(s, id).value;
      if user.role != Student then Reply(Redirect(StudentsPage, NoFlash), s, [])
      else match UserService.DeleteUser(s, id)
        case Ok(s') => Reply(Redirect(StudentsPage, NoFlash), s', [])
        case Err(e) => Reply(ServerError(Problem.Storage(e)), s, [])
  }

  /** `DeleteStudent` (POST, Teacher role). */
  function DeleteStudent(p: Principal, s: Store, id: int): (r: Reply)
    ensures !Admit(PolicyOf(TeacherDeleteStudent), p).Admitted? ==> r == Denied(Admit(PolicyOf(TeacherDeleteStudent), p), s)
    ensures Admit(PolicyOf(TeacherDeleteStudent), p).Admitted? ==> r == DeleteInClass(p.userId, s, id)
    ensures r.response == Redirect(StudentsPage, NoFlash) ==> p == SignedIn(p.userId, Teacher)
  {
    var g := Admit(PolicyOf(TeacherDeleteStudent), p);
    if !g.Admitted? then Denied(g, s) else DeleteInClass(p.userId, s, id)
  }

  /** `DeleteStudentGet` (GET, any signed-in user, no antiforgery token). */
  function DeleteStudentGet(p: Principal, s: Store, id: int): (r: Reply)
    ensures p.Anonymous? ==> r == Reply(Redirect(LoginPage, NoFlash), s, [])
    ensures p.SignedIn? ==> r == DeleteInClass(p.userId, s, id)
  {
    assert PolicyOf(TeacherDeleteStudentGet) == AnySignedIn;
    var g := Admit(PolicyOf(TeacherDeleteStudentGet), p);
    if !g.Admitted? then Denied(g, s) else DeleteInClass(p.userId, s, id)
  }

  /** The GET route lets a student delete a classmate: any student who shares
      a subject with the caller is removed, unless a submission of theirs
      restricts the delete, which the database refuses with a server error
      and nothing changed. */
  lemma StudentDeletesClassmate(s: Store, callerId: int, victim: User)
    requires Valid(s) && victim in s.users && victim.role == Student
    requires UserService.SharesSubject(s, callerId, victim.id)
    ensures var r := DeleteStudentGet(SignedIn(callerId, Student), s, victim.id);
      && (!DeleteRestricted(s, victim.id) ==> r.response == Redirect(StudentsPage, NoFlash) && victim !in r.store.users)
      && (DeleteRestricted(s, victim.id) ==> r.response == ServerError(Problem.Storage(RestrictViolation)) && r.store == s)
  {
    assert victim in UserService.StudentsOfTeacher(s, callerId);
    assert HasUser(s, victim.id);
    assert UserService.GetUserById(s, victim.id).value == victim;
  }

  // ---- exams ----

  /** `Exams`: the exams of the caller's subjects. */
  function Exams(p: Principal, s: Store): (r: Reply)
    ensures r.store == s && r.written == []
    ensures !Admit(PolicyOf(TeacherExams), p).Admitted? ==> r == Denied(Admit(PolicyOf(TeacherExams), p), s)
    ensures Admit(PolicyOf(TeacherExams), p).Admitted? ==>
      && r.response.Page? && r.response.data.Exams?
      && forall e :: e in r.response.data.exams <==> e in s.exams && UserSubject(p.userId, e.subjectId) in s.enrollments
  {
    var g := Admit(PolicyOf(TeacherExams), p);
    if !g.Admitted? then Denied(g, s)
    else Reply(Page("Exams", Web.Exams(ExamService.ExamsOfEnrolledSubjects(s, p.userId)), []), s, [])
  }

  /** `CreateExam` (GET): the empty form, shown even to an anonymous caller. */
  function CreateExamForm(p: Principal, s: Store): (r: Reply)
    ensures Admit(PolicyOf(TeacherCreateExamForm), p).Admitted?
    ensures r == Reply(Page("CreateExam", NoData, []), s, [])
  {
    Reply(Page("CreateExam", NoData, []), s, [])
  }

  /** The subject `CreateExam` assigns: the first subject of the caller, in
      subject order, provided the caller's row exists. */
  function FirstSubject(s: Store, userId: int): (r: Option<int>)
    ensures r.Some? ==> HasUser(s, userId) && HasSubject(s, r.value) && r.value in SubjectIdsOf(s, userId)
    ensures r.Some? ==> forall k :: 0 <= k < |s.subjects| && UserSubject(userId, s.subjects[k].id) in s.enrollments ==>
              exists j :: 0 <= j <= k && s.subjects[j].id == r.value
    ensures r.None? <==>
      !HasUser(s, userId) || forall x :: x in s.subjects ==> UserSubject(userId, x.id) !in s.enrollments
  {
    if FindUser(s, userId).None? then None
    else match Seqs.FirstIndex(s.subjects, (x: Subject) => UserSubject(userId, x.id) in s.enrollments)
      case None => None
      case Some(k) =>
        assert s.subjects[k] in s.subjects;
        Some(s.subjects[k].id)
  }

  /** In a consistent database every user enrolled somewhere gets a subject. */
  lemma FirstSubjectOfEnrolled(s: Store, userId: int)
    requires Valid(s) && HasUser(s, userId) && SubjectIdsOf(s, userId) != {}
    ensures FirstSubject(s, userId).Some?
  {
    var sid :| sid in SubjectIdsOf(s, userId);
    var x :| x in s.subjects && x.id == sid;
    assert UserSubject(userId, x.id) in s.enrollments;
  }

  /** The insert step of `CreateExam`: the exam list on success, the form
      with the error otherwise. */
  function SaveDraft(s: Store, draft: Exam): (r: Reply)
    ensures r.written == []
    ensures r.response == Redirect(ExamsPage, NoFlash) <==> ExamService.AddExam(s, draft).Ok?
    ensures r.response != Redirect(ExamsPage, NoFlash) ==>
      r.store == s && r.response == Page("CreateExam", NoData, [ExamNotCreated])
    ensures r.response == Redirect(ExamsPage, NoFlash) ==>
      && r.store == s.(exams := r.store.exams, nextExamId := r.store.nextExamId)
      && exists e :: e in r.store.exams && (Valid(s) ==> e !in s.exams)
           && RawSql.Format(draft.title) == Some(e.title) && RawSql.LiteralValue(draft.content) == Some(e.content)
           && e.subjectId == draft.subjectId && e.createdByUserId == draft.createdByUserId
  {
    match ExamService.AddExam(s, draft)
    case Ok((s', added)) =>
      assert Valid(s) ==> added !in s.exams by {
        assert added in s.exams ==> HasExam(s, added.id);
      }
      Reply(Redirect(ExamsPage, NoFlash), s', [])
    case Err(_) => Reply(Page("CreateExam", NoData, [ExamNotCreated]), s, [])
  }

  /** `CreateExam` (POST): the exam goes to the caller's first subject through
      the raw insert. A brace the data layer's formatting rejects, in the title
      or the content, or a lone apostrophe in the content, makes the insert
      fail and the form comes back with the error's message. Otherwise doubled
      braces are stored as single ones, doubled apostrophes in the content as
      single ones, and an apostrophe in the title is escaped. */
  function CreateExam(p: Principal, s: Store, title: string, content: string): (r: Reply)
    ensures r.written == []
    ensures !Admit(PolicyOf(TeacherCreateExam), p).Admitted? ==> r == Denied(Admit(PolicyOf(TeacherCreateExam), p), s)
    ensures r.response == Redirect(ExamsPage, NoFlash) <==>
      && Admit(PolicyOf(TeacherCreateExam), p).Admitted?
      && FirstSubject(s, p.userId).Some? && title != [] && content != []
      && RawSql.Format(title).Some? && RawSql.LiteralValue(content).Some?
    ensures r.response == Redirect(ExamsPage, NoFlash) ==>
      && r.store == s.(exams := r.store.exams, nextExamId := r.store.nextExamId)
      && exists e :: e in r.store.exams && (Valid(s) ==> e !in s.exams)
           && RawSql.Format(title) == Some(e.title) && RawSql.LiteralValue(content) == Some(e.content)
           && e.subjectId == FirstSubject(s, p.userId).value && e.createdByUserId == p.userId
    ensures r.response != Redirect(ExamsPage, NoFlash) ==> r.store == s
    ensures Admit(PolicyOf(TeacherCreateExam), p).Admitted? && FirstSubject(s, p.userId).Some?
            && title != [] && content != [] && (RawSql.Format(title).None? || RawSql.LiteralValue(content).None?) ==>
      r.response == Page("CreateExam", NoData, [ExamNotCreated])
  {
    var g := Admit(PolicyOf(TeacherCreateExam), p);
    if !g.Admitted? then Denied(g, s)
    else match FirstSubject(s, p.userId)
      case None => Reply(Page("CreateExam", NoData, [NotAssignedToSubject]), s, [])
      case Some(sid) =>
        if title == [] || content == [] then Reply(Page("CreateExam", NoData, [TitleAndContentRequired]), s, [])
        else SaveDraft(s, Exam(0, title, content, sid, p.userId))
  }

  /** The exam id `ExamDetail` uses for the submissions: the parsed id, or 0
      when the text does not parse. */
  function DetailExamId(id: string): int {
    if ParseInt32(id).Some? then ParseInt32(id).value else 0
  }

  /** The exam `ExamDetail` shows: the key lookup for a number, the raw query
      otherwise. */
  function DetailExam(s: Store, id: string, rawLookup: string -> Option<Exam>): Option<Exam> {
    if ParseInt32(id).Some? then ExamService.GetExamById(s, ParseInt32(id).value) else rawLookup(id)
  }

  /** `ExamDetail`: `id` goes into the raw lookup as text; `rawLookup` stands
      for that query on a text that is not a plain number. The submissions are
      fetched by the parsed id, or by 0 when the text does not parse. */
  function ExamDetail(p: Principal, s: Store, id: string, rawLookup: string -> Option<Exam>): (r: Reply)
    ensures r.store == s && r.written == []
    ensures !Admit(PolicyOf(TeacherExamDetail), p).Admitted? ==> r == Denied(Admit(PolicyOf(TeacherExamDetail), p), s)
    ensures r.response.Page? <==>
      && p.SignedIn? && HasUser(s, p.userId)
      && var exam := DetailExam(s, id, rawLookup);
         exam.Some? && UserSubject(p.userId, exam.value.subjectId) in s.enrollments
    ensures r.response.Page? ==>
      && r.response.data.ExamWithSubmissions?
      && forall m :: m in r.response.data.submissions <==> m in s.submissions && m.examId == DetailExamId(id)
  {
    var g := Admit(PolicyOf(TeacherExamDetail), p);
    if !g.Admitted? then Denied(g, s)
    else
      match DetailExam(s, id, rawLookup)
      case None => Reply(NotFound(""), s, [])
      case Some(e) =>
        if UserService.GetUserById(s, p.userId).None? then Reply(NotFound(""), s, [])
        else if UserSubject(p.userId, e.subjectId) !in s.enrollments then
          Reply(UnknownScheme("You can only view exams for subjects you teach."), s, [])
        else Reply(Page("ExamDetail", ExamWithSubmissions(e, ExamService.SubmissionsForExam(s, DetailExamId(id))), []), s, [])
  }

  /** A student enrolled in an exam's subject opens the teacher's exam page and
      sees every submission to it, other students' included. */
  lemma StudentSeesAllSubmissions(s: Store, studentId: int, e: Exam, rawLookup: string -> Option<Exam>)
    requires Valid(s) && e in s.exams && e.id <= Int32Max
    requires HasUser(s, studentId) && UserSubject(studentId, e.subjectId) in s.enrollments
    ensures ExamDetail(SignedIn(studentId, Student), s, IntToString(e.id), rawLookup)
            == Reply(Page("ExamDetail", ExamWithSubmissions(e, ExamService.SubmissionsForExam(s, e.id)), []), s, [])
  {
    var id := IntToString(e.id);
    ParseInt32OfIntToString(e.id);
    ExamService.GetExamByIdIsKeyLookup(s, e.id);
    assert HasExam(s, e.id);
    assert FindExam(s, e.id).value == e;
    assert DetailExam(s, id, rawLookup) == Some(e) && DetailExamId(id) == e.id;
    hide ParseInt32, DetailExam, DetailExamId;
    assert UserService.GetUserById(s, studentId).Some?;
  }

  /** An id text that is not a number may still find an exam through the raw
      query, but the page then lists no submission: none has exam id 0. */
  lemma UnparsedIdListsNoSubmission(p: Principal, s: Store, id: string, rawLookup: string -> Option<Exam>)
    requires Valid(s) && ParseInt32(id).None?
    requires ExamDetail(p, s, id, rawLookup).response.Page?
    ensures forall m :: m !in ExamDetail(p, s, id, rawLookup).response.data.submissions
  {
    forall m | m in s.submissions ensures m.examId != 0 {
      var e :| e in s.exams && e.id == m.examId;
    }
  }

  /** `Grade`: the exam named in the form must exist and the score must lie in
      [0, 10]; the submission graded is whichever has the given id, and the
      caller's id is stored as its grading user. */
  function Grade(p: Principal, s: Store, submissionId: int, score: real, examId: int): (r: Reply)
    ensures r.written == []
    ensures !Admit(PolicyOf(TeacherGrade), p).Admitted? ==> r == Denied(Admit(PolicyOf(TeacherGrade), p), s)
    ensures r.response == Redirect(ExamDetailPage(examId), NoFlash) <==>
      && p.SignedIn? && ExamService.GetExamById(s, examId).Some? && 0.0 <= score <= 10.0
    ensures r.response == Redirect(ExamDetailPage(examId), NoFlash) ==>
      r.store == ExamService.GradeSubmission(s, submissionId, score, p.userId)
    ensures r.response != Redirect(ExamDetailPage(examId), NoFlash) ==> r.store == s
    ensures p.SignedIn? && ExamService.GetExamById(s, examId).Some? && !(0.0 <= score <= 10.0) ==>
      r.response == Redirect(ExamDetailPage(examId), Failed(ScoreOutOfRange))
  {
    var g := Admit(PolicyOf(TeacherGrade), p);
    if !g.Admitted? then Denied(g, s)
    else if ExamService.GetExamById(s, examId).None? then Reply(NotFound(""), s, [])
    else if score < 0.0 || score > 10.0 then Reply(Redirect(ExamDetailPage(examId), Failed(ScoreOutOfRange)), s, [])
    else Reply(Redirect(ExamDetailPage(examId), NoFlash), ExamService.GradeSubmission(s, submissionId, score, p.userId), [])
  }

  /** Any signed-in caller, a student included, grades any submission: the
      exam named in the form only has to exist, and need not be the one the
      submission belongs to. */
  lemma AnyoneGradesAnySubmission(s: Store, callerId: int, role: UserRole, m: Submission,
                                  score: real, examId: int)
    requires Valid(s) && m in s.submissions && HasExam(s, examId) && 0.0 <= score <= 10.0
    ensures var r := Grade(SignedIn(callerId, role), s, m.id, score, examId);
      && r.response == Redirect(ExamDetailPage(examId), NoFlash)
      && m.(score := Some(score), gradedByUserId := Some(callerId)) in r.store.submissions
  {
    ExamService.GetExamByIdIsKeyLookup(s, examId);
    assert FindSubmission(s, m.id).Some?;
    var s' := ExamService.GradeSubmission(s, m.id, score, callerId);
    var i :| 0 <= i < |s.submissions| && s.submissions[i] == m;
    assert s'.submissions[i] == m.(score := Some(score), gradedByUserId := Some(callerId));
  }
}

=== FILE: text.dfy ===
/** The .NET string operations the handlers rely on: whitespace tests, `Trim`,
    `ToLower`, ordinal `StartsWith`/`EndsWith`/`Contains` and decimal formatting of ids. */
module Text {
  import opened Common

  /** `char.IsWhiteSpace`: the Unicode space separators, line and paragraph
      separators, U+0009..U+000D and U+0085. */
  predicate IsWhiteSpace(c: char) {
    || c == ' ' || ('\t' <= c <= '\r') || c == '\U{85}' || c == '\U{A0}' || c == '\U{1680}'
    || ('\U{2000}' <= c <= '\U{200A}') || c == '\U{2028}' || c == '\U{2029}'
    || c == '\U{202F}' || c == '\U{205F}' || c == '\U{3000}'
  }

  /** `string.IsNullOrWhiteSpace`; a null string is modelled as the empty one. */
  predicate IsBlank(s: string) {
    forall i :: 0 <= i < |s| ==> IsWhiteSpace(s[i])
  }

  function TrimStart(s: string): (r: string)
    ensures |r| <= |s| && r == s[|s| - |r|..]
    ensures forall i :: 0 <= i < |s| - |r| ==> IsWhiteSpace(s[i])
    ensures r == [] || !IsWhiteSpace(r[0])
    decreases |s|
  {
    if |s| > 0 && IsWhiteSpace(s[0]) then TrimStart(s[1..]) else s
  }

  function TrimEnd(s: string): (r: string)
    ensures |r| <= |s| && r == s[..|r|]
    ensures forall i :: |r| <= i < |s| ==> IsWhiteSpace(s[i])
    ensures r == [] || !IsWhiteSpace(r[|r| - 1])
    decreases |s|
  {
    if |s| > 0 && IsWhiteSpace(s[|s| - 1]) then TrimEnd(s[..|s| - 1]) else s
  }

  /** `string.Trim()`: whitespace removed from both ends. */
  function Trim(s: string): (r: string)
    ensures |r| <= |s|
    ensures r == [] || (!IsWhiteSpace(r[0]) && !IsWhiteSpace(r[|r| - 1]))
  {
    TrimEnd(TrimStart(s))
  }

  /** The trimmed string is a slice of `s` with only whitespace around it, so
      `Trim` removes no other character. */
  lemma TrimIsSlice(s: string)
    ensures var r := Trim(s);
      exists a ::
        && OccursAt(s, r, a)
        && (forall i :: 0 <= i < a ==> IsWhiteSpace(s[i]))
        && (forall i :: a + |r| <= i < |s| ==> IsWhiteSpace(s[i]))
  {
    var t := TrimStart(s);
    var r := TrimEnd(t);
    var a := |s| - |t|;
    assert r == s[a..][..|r|] == s[a..a + |r|];
    assert OccursAt(s, r, a);
    forall i | a + |r| <= i < |s| ensures IsWhiteSpace(s[i]) {
      assert s[i] == t[i - a];
    }
    assert r == Trim(s);
    assert (forall i :: 0 <= i < a ==> IsWhiteSpace(s[i]));
  }

  /** A string is blank exactly when trimming leaves nothing. */
  lemma {:induction false} BlankTrimStart(s: string)
    requires IsBlank(s)
    ensures TrimStart(s) == []
    decreases |s|
  {
    if |s| > 0 {
      BlankTrimStart(s[1..]);
    }
  }

  lemma BlankIffTrimEmpty(s: string)
    ensures IsBlank(s) <==> Trim(s) == []
  {
    if IsBlank(s) {
      BlankTrimStart(s);
    }

  }

  /** Trimming a trimmed string changes nothing. */
  lemma TrimIdempotent(s: string)
    ensures Trim(Trim(s)) == Trim(s)
  {
    var r := Trim(s);
    if r != [] {
      assert TrimStart(r) == r;
      assert TrimEnd(r) == r;
    }
  }

  /** `char.ToLower` restricted to ASCII letters. */
  function LowerChar(c: char): (r: char)
    ensures 'A' <= c <= 'Z' ==> r as int == c as int + 32
    ensures !('A' <= c <= 'Z') ==> r == c
  {
    if 'A' <= c <= 'Z' then (c as int + 32) as char else c
  }

  /** `string.ToLower()` on ASCII letters; every other character is kept. */
  function ToLower(s: string): (r: string)
    ensures |r| == |s|
    ensures forall i :: 0 <= i < |s| ==> r[i] == LowerChar(s[i])
  {
    seq(|s|, i requires 0 <= i < |s| => LowerChar(s[i]))
  }

  predicate StartsWith(s: string, prefix: string) {
    |prefix| <= |s| && s[..|prefix|] == prefix
  }

  predicate EndsWith(s: string, suffix: string) {
    |suffix| <= |s| && s[|s| - |suffix|..] == suffix
  }

  /** Ordinal `string.Contains(string)`. */
  predicate Contains(s: string, t: string) {
    exists i :: 0 <= i <= |s| - |t| && OccursAt(s, t, i)
  }

  /** `t` occurs in `s` starting at index `i`. */
  predicate OccursAt(s: string, t: string, i: int) {
    0 <= i <= |s| - |t| && s[i..i + |t|] == t
  }

  /** A one-character needle is found exactly when the character occurs. */
  lemma ContainsChar(s: string, c: char)
    ensures Contains(s, [c]) <==> c in s
  {
    if c in s {
      var i :| 0 <= i < |s| && s[i] == c;
      assert OccursAt(s, [c], i);
    }
    if Contains(s, [c]) {
      var i :| 0 <= i <= |s| - 1 && OccursAt(s, [c], i);
      assert s[i] == s[i..i + 1][0] == c;
    }
  }

  /** A two-character needle is found exactly when it occurs at some adjacent pair of positions. */
  lemma ContainsPair(s: string, a: char, b: char)
    ensures Contains(s, [a, b]) <==> exists i :: 0 <= i < |s| - 1 && s[i] == a && s[i + 1] == b
  {
    if Contains(s, [a, b]) {
      var i :| 0 <= i <= |s| - 2 && OccursAt(s, [a, b], i);
      assert s[i] == s[i..i + 2][0] == a && s[i + 1] == s[i..i + 2][1] == b;
    }
    if exists i :: 0 <= i < |s| - 1 && s[i] == a && s[i + 1] == b {
      var i :| 0 <= i < |s| - 1 && s[i] == a && s[i + 1] == b;
      assert OccursAt(s, [a, b], i);
    }
  }

  /** A suffix of `s` is in particular contained in it. */
  lemma EndsWithContains(s: string, t: string)
    requires EndsWith(s, t)
    ensures Contains(s, t)
  {
    assert OccursAt(s, t, |s| - |t|);
  }

  /** `s.Substring(0, n)` when `s` is longer than `n`, else `s` itself. */
  function Truncate(s: string, n: nat): (r: string)
    ensures |r| <= n && StartsWith(s, r)
    ensures |s| <= n ==> r == s
  {
    if |s| > n then s[..n] else s
  }

  predicate IsDigit(c: char) {
    '0' <= c <= '9'
  }

  function DigitValue(c: char): (d: nat)
    requires IsDigit(c)
    ensures d < 10
  {
    c as int - '0' as int
  }

  function DigitChar(d: nat): (c: char)
    requires d < 10
    ensures IsDigit(c) && c as int - '0' as int == d
  {
    (d + '0' as int) as char
  }

  /** Decimal text of a natural number, as `ToString()` prints it. */
  function NatToString(n: nat): (r: string)
    ensures |r| >= 1
    ensures forall i :: 0 <= i < |r| ==> IsDigit(r[i])
    decreases n
  {
    if n < 10 then [DigitChar(n)] else NatToString(n / 10) + [DigitChar(n % 10)]
  }

  /** Value of a non-empty string of digits. */
  function DigitsValue(s: string): nat
    requires forall i :: 0 <= i < |s| ==> IsDigit(s[i])
    decreases |s|
  {
    if |s| == 0 then 0 else 10 * DigitsValue(s[..|s| - 1]) + DigitValue(s[|s| - 1])
  }

  /** Reading the decimal text of `n` gives back `n`. */
  lemma {:induction false} NatToStringRoundTrip(n: nat)
    ensures DigitsValue(NatToString(n)) == n
    decreases n
  {
    if n >= 10 {
      var r := NatToString(n);
      assert r[..|r| - 1] == NatToString(n / 10);
      NatToStringRoundTrip(n / 10);
    }
  }

  /** Decimal text of an integer, with a leading '-' for a negative one (`int.ToString()`). */
  function IntToString(n: int): (r: string)
    ensures |r| >= 1
    ensures forall i :: 0 <= i < |r| ==> IsDigit(r[i]) || (i == 0 && r[i] == '-')
    ensures n >= 0 <==> IsDigit(r[0])
  {
    if n < 0 then "-" + NatToString(-n) else NatToString(n)
  }

  /** Two integers print alike only if they are equal. */
  lemma IntToStringInjective(m: int, n: int)
    requires IntToString(m) == IntToString(n)
    ensures m == n
  {
    if m < 0 {
      assert IntToString(m)[1..] == NatToString(-m);
      assert IntToString(n)[1..] == NatToString(-n);
      NatToStringRoundTrip(-m);
      NatToStringRoundTrip(-n);
    } else {
      NatToStringRoundTrip(m);
      NatToStringRoundTrip(n);
    }
  }

  // ---- int.TryParse ----

  /** The white space `NumberStyles.Integer` skips around a number. */
  predicate IsNumberWhite(c: char) {
    c == ' ' || '\t' <= c <= '\r'
  }

  /** The text between leading and trailing number white space. */
  function StripNumberWhite(s: string): (r: string)
    ensures exists a :: OccursAt(s, r, a)
    ensures |r| > 0 ==> !IsNumberWhite(r[0]) && !IsNumberWhite(r[|r| - 1])
    ensures |s| > 0 && !IsNumberWhite(s[0]) && !IsNumberWhite(s[|s| - 1]) ==> r == s
    decreases |s|
  {
    if |s| == 0 then
      assert OccursAt(s, s, 0);
      s
    else if IsNumberWhite(s[0]) then
      var r := StripNumberWhite(s[1..]);
      assert forall a :: OccursAt(s[1..], r, a) ==> OccursAt(s, r, a + 1);
      r
    else if IsNumberWhite(s[|s| - 1]) then
      var r := StripNumberWhite(s[..|s| - 1]);
      var a :| OccursAt(s[..|s| - 1], r, a);
      assert s[..|s| - 1][a..a + |r|] == s[a..a + |r|];
      assert OccursAt(s, r, a);
      r
    else
      assert OccursAt(s, s, 0);
      s
  }

  predicate AllDigits(s: string) {
    forall i :: 0 <= i < |s| ==> IsDigit(s[i])
  }

  const Int32Min: int := -0x8000_0000
  const Int32Max: int := 0x7FFF_FFFF

  /** `int.TryParse`: optional white space, an optional sign, at least one
      decimal digit, and a value that fits in 32 bits. */
  function ParseInt32(s: string): (r: Option<int>)
    ensures r.Some? ==> Int32Min <= r.value <= Int32Max
    ensures r.Some? ==> |StripNumberWhite(s)| > 0
  {
    ReadInt32(StripNumberWhite(s))
  }

  /** The sign, digits and range check of `int.TryParse`, on text already
      stripped of white space. */
  function ReadInt32(t: string): Option<int> {
    if |t| == 0 then None
    else
      var digits := UnsignedPart(t);
      if |digits| == 0 || !AllDigits(digits) then None
      else
        var magnitude: int := DigitsValue(digits);
        var n := if t[0] == '-' then -magnitude else magnitude;
        if Int32Min <= n <= Int32Max then Some(n) else None
  }

  // ---- what int.TryParse accepts, stated independently ----

  function Zeros(k: nat): string {
    seq(k, _ => '0')
  }

  function Magnitude(n: int): nat {
    if n < 0 then -n else n
  }

  /** The signs that may precede the digits of `n`: a negative number needs
      '-', a positive one takes '+' or nothing, and zero takes any. */
  function SignsOf(n: int): set<string> {
    if n < 0 then {"-"} else if n > 0 then {"", "+"} else {"", "+", "-"}
  }

  /** `t` is a spelling of `n`: a sign allowed for `n`, any number of leading
      zeros, then the decimal digits of the magnitude of `n`. */
  ghost predicate Spells(t: string, n: int) {
    exists sign, k: nat :: sign in SignsOf(n) && t == sign + Zeros(k) + NatToString(Magnitude(n))
  }

  /** A run of zeros reads as 0. */
  lemma {:induction false} ZerosValue(k: nat)
    ensures AllDigits(Zeros(k)) && DigitsValue(Zeros(k)) == 0
    decreases k
  {
    if k > 0 {
      assert Zeros(k)[..k - 1] == Zeros(k - 1);
      ZerosValue(k - 1);
    }
  }

  /** Leading zeros do not change the value. */
  lemma {:induction false} LeadingZerosValue(k: nat, d: string)
    requires AllDigits(d)
    ensures AllDigits(Zeros(k) + d) && DigitsValue(Zeros(k) + d) == DigitsValue(d)
    decreases |d|
  {
    ZerosValue(k);
    var z := Zeros(k) + d;
    if |d| == 0 {
      assert z == Zeros(k);
    } else {
      assert z[..|z| - 1] == Zeros(k) + d[..|d| - 1];
      LeadingZerosValue(k, d[..|d| - 1]);
    }
  }

  /** Digits whose value is 0 are all zeros. */
  lemma {:induction false} ZeroValueIsZeros(d: string)
    requires AllDigits(d) && DigitsValue(d) == 0
    ensures d == Zeros(|d|)
    decreases |d|
  {
    if |d| > 0 {
      ZeroValueIsZeros(d[..|d| - 1]);
      assert d == d[..|d| - 1] + [d[|d| - 1]];
    }
  }

  /** Every non-empty digit string is leading zeros followed by the printed value. */
  lemma {:induction false} DigitsAreZerosThenValue(d: string) returns (k: nat)
    requires AllDigits(d) && |d| > 0
    ensures d == Zeros(k) + NatToString(DigitsValue(d))
    decreases |d|
  {
    var front, c := d[..|d| - 1], d[|d| - 1];
    var v := DigitValue(c);
    assert d == front + [c];
    assert NatToString(v) == [c];
    if |front| == 0 {
      k := 0;
    } else if DigitsValue(front) == 0 {
      ZeroValueIsZeros(front);
      k := |front|;
    } else {
      var m := DigitsValue(front);
      var k' := DigitsAreZerosThenValue(front);
      assert NatToString(10 * m + v) == NatToString(m) + [c] by {
        assert (10 * m + v) / 10 == m && (10 * m + v) % 10 == v;
      }
      k := k';
    }
  }

  /** The digits `ParseInt32` reads from the stripped text `t`: all of it, or
      all but a leading sign. */
  function UnsignedPart(t: string): (r: string)
    ensures |t| > 0 && (t[0] == '-' || t[0] == '+') ==> t == [t[0]] + r
    ensures !(|t| > 0 && (t[0] == '-' || t[0] == '+')) ==> r == t
  {
    if |t| > 0 && (t[0] == '-' || t[0] == '+') then t[1..] else t
  }

  /** Text `ReadInt32` accepts spells the number it returns. */
  lemma ReadIsSpelled(t: string, n: int)
    requires ReadInt32(t) == Some(n)
    ensures Spells(t, n)
  {
    var digits := UnsignedPart(t);
    var magnitude: int := DigitsValue(digits);
    assert |t| > 0 && AllDigits(digits) && |digits| > 0;
    assert n == if t[0] == '-' then -magnitude else magnitude;
    var k := DigitsAreZerosThenValue(digits);
    assert Magnitude(n) == DigitsValue(digits);
    var sign := if t[0] == '-' then "-" else if t[0] == '+' then "+" else "";
    assert sign in SignsOf(n);
    assert t == sign + digits;
    assert t == sign + Zeros(k) + NatToString(Magnitude(n));
  }

  /** A sign followed by digits splits back into the two. */
  lemma SignedDigits(sign: string, d: string)
    requires sign == "" || sign == "-" || sign == "+"
    requires |d| > 0 && IsDigit(d[0])
    ensures var t := sign + d; |t| > 0 && UnsignedPart(t) == d && (t[0] == '-' <==> sign == "-")
  {
    var t := sign + d;
    if sign == "" {
      assert t == d;
    } else {
      assert t[0] == sign[0] && t[1..] == d;
    }
  }

  /** A spelling of a 32-bit number is read as that number. */
  lemma SpelledIsRead(t: string, n: int)
    requires Int32Min <= n <= Int32Max && Spells(t, n)
    ensures ReadInt32(t) == Some(n)
  {
    var sign, k: nat :| sign in SignsOf(n) && t == sign + Zeros(k) + NatToString(Magnitude(n));
    var d := Zeros(k) + NatToString(Magnitude(n));
    LeadingZerosValue(k, NatToString(Magnitude(n)));
    NatToStringRoundTrip(Magnitude(n));
    assert IsDigit(d[0]) && DigitsValue(d) == Magnitude(n);
    assert t == sign + d;
    SignedDigits(sign, d);
    var magnitude: int := DigitsValue(d);
    assert n == if t[0] == '-' then -magnitude else magnitude;
  }

  /** `ParseInt32` accepts exactly the spellings of 32-bit numbers between
      number white space, and reads each as the number it spells. */
  lemma ParseInt32Reads(s: string, n: int)
    ensures ParseInt32(s) == Some(n) <==> Int32Min <= n <= Int32Max && Spells(StripNumberWhite(s), n)
  {
    var t := StripNumberWhite(s);
    if ReadInt32(t) == Some(n) {
      ReadIsSpelled(t, n);
    }
    if Int32Min <= n <= Int32Max && Spells(t, n) {
      SpelledIsRead(t, n);
    }
  }

  /** Every 32-bit integer reads back from its decimal text. */
  lemma ParseInt32OfIntToString(n: int)
    requires Int32Min <= n <= Int32Max
    ensures ParseInt32(IntToString(n)) == Some(n)
  {
    var t := IntToString(n);
    assert !IsNumberWhite(t[0]) && !IsNumberWhite(t[|t| - 1]);
    assert StripNumberWhite(t) == t;
    if n < 0 {
      assert t[1..] == NatToString(-n);
      NatToStringRoundTrip(-n);
    } else {
      NatToStringRoundTrip(n);
    }
  }
}

=== FILE: user_service.dfy ===
/** Account management on top of the database: creation with enrollments,
    deletion, password change, search, the case-insensitive username check and
    the teacher-to-students relation. */
module UserService {
  import opened Common
  import opened Text
  import opened Entities
  import opened Db
  import Seqs
  import Quoting
  import RawSql
  import opened AuthService

  /** `GetUserByIdAsync`: the row with that key, if any. */
  function GetUserById(s: Store, id: int): (r: Option<User>)
    ensures r.Some? <==> HasUser(s, id)
    ensures r.Some? ==> r.value in s.users && r.value.id == id
    ensures Valid(s) ==> forall u :: u in s.users && u.id == id ==> r == Some(u)
  {
    FindUser(s, id)
  }

  /** `CreateUserAsync`: save the user with the hash of `password`, then, when a
      non-empty subject list is given, one enrollment per subject id. A failure
      of the second save leaves the user saved. */
  function CreateUser(s: Store, h: PasswordHasher, user: User, password: string,
                      subjectIds: Option<seq<int>>): (r: Effect<User, DbError>)
    ensures r.result.Ok? ==>
      var added := r.result.value;
      && added == user.(id := s.nextUserId, passwordHash := h.hash(password))
      && r.store.users == s.users + [added]
      && (forall e :: e in r.store.enrollments <==>
            e in s.enrollments || (e.userId == added.id && subjectIds.Some? && e.subjectId in subjectIds.value))
      && r.store.exams == s.exams && r.store.submissions == s.submissions
    ensures FitsColumns(user) && (exists v :: v in s.users && v.username == user.username) ==>
              r == Effect(Err(DuplicateKey), s)
    ensures !FitsColumns(user) ==> r == Effect(Err(ValueTooLong), s)
    ensures r.result.Err? ==> r.store == s || |r.store.users| == |s.users| + 1
  {
    var hashed := user.(passwordHash := h.hash(password));
    match AddUser(s, hashed)
    case Err(e) => Effect(Err(e), s)
    case Ok((s1, added)) =>
      if subjectIds.Some? && |subjectIds.value| > 0 then
        match AddEnrollments(s1, added.id, subjectIds.value)
        case Err(e) => Effect(Err(e), s1)
        case Ok(s2) => Effect(Ok(added), s2)
      else Effect(Ok(added), s1)
  }

  lemma CreateUserPreservesValid(s: Store, h: PasswordHasher, user: User, password: string,
                                 subjectIds: Option<seq<int>>)
    requires Valid(s)
    ensures Valid(CreateUser(s, h, user, password, subjectIds).store)
  {
    var hashed := user.(passwordHash := h.hash(password));
    if AddUser(s, hashed).Ok? {
      var (s1, added) := AddUser(s, hashed).value;
      AddUserPreservesValid(s, hashed);
      if subjectIds.Some? && |subjectIds.value| > 0 && AddEnrollments(s1, added.id, subjectIds.value).Ok? {
        AddEnrollmentsPreservesValid(s1, added.id, subjectIds.value);
      }
    }
  }

  /** `DeleteUserAsync`: a missing id is a no-op; otherwise the delete follows
      the cascade and restrict rules. */
  function DeleteUser(s: Store, id: int): (r: Result<Store, DbError>)
    ensures !HasUser(s, id) ==> r == Ok(s)
    ensures HasUser(s, id) ==> r == RemoveUser(s, id)
    ensures r.Ok? ==> forall u :: u in r.value.users <==> u in s.users && u.id != id
    ensures r.Err? <==> HasUser(s, id) && DeleteRestricted(s, id)
  {
    match FindUser(s, id)
    case None => Ok(s)
    case Some(_) => RemoveUser(s, id)
  }

  /** `ChangePasswordAsync`: only the stored hash of that user changes; a missing
      id changes nothing. */
  function ChangePassword(s: Store, h: PasswordHasher, userId: int, newPassword: string): (r: Store)
    ensures r == s.(users := r.users) && |r.users| == |s.users|
    ensures forall i :: 0 <= i < |s.users| ==>
      if s.users[i].id == userId then r.users[i] == s.users[i].(passwordHash := h.hash(newPassword))
      else r.users[i] == s.users[i]
  {
    s.(users := seq(|s.users|, i requires 0 <= i < |s.users| =>
      if s.users[i].id == userId then s.users[i].(passwordHash := h.hash(newPassword)) else s.users[i]))
  }

  lemma ChangePasswordPreservesValid(s: Store, h: PasswordHasher, userId: int, newPassword: string)
    requires Valid(s)
    ensures Valid(ChangePassword(s, h, userId, newPassword))
  {
    PointwiseUserChange(s, ChangePassword(s, h, userId, newPassword));
  }

  /** After a password change the user signs in with the new password. */
  lemma ChangePasswordThenAuthenticate(s: Store, h: PasswordHasher, u: User, newPassword: string)
    requires Valid(s) && Sound(h) && u in s.users
    ensures Authenticate(ChangePassword(s, h, u.id, newPassword), h, u.username, newPassword)
            == Some(u.(passwordHash := h.hash(newPassword)))
  {
    var r := ChangePassword(s, h, u.id, newPassword);
    var changed := u.(passwordHash := h.hash(newPassword));
    ChangePasswordPreservesValid(s, h, u.id, newPassword);
    var i :| 0 <= i < |s.users| && s.users[i] == u;
    assert r.users[i] == changed;
    assert changed in r.users && h.verify(newPassword, changed.passwordHash);
  }

  /** `SearchUsersAsync`: users whose username or full name contains `term`. */
  function SearchUsers(s: Store, term: string): (r: seq<User>)
    ensures forall u :: u in r <==> u in s.users && (Contains(u.username, term) || Contains(u.fullName, term))
  {
    Seqs.Filter(s.users, (u: User) => Contains(u.username, term) || Contains(u.fullName, term))
  }

  /** `IsUsernameTakenAsync`: false for a blank name, otherwise whether some
      username equals it ignoring case. */
  function IsUsernameTaken(s: Store, username: string): (r: bool)
    ensures IsBlank(username) ==> !r
    ensures !IsBlank(username) ==> (r <==> exists u :: u in s.users && ToLower(u.username) == ToLower(username))
  {
    if IsBlank(username) then false
    else exists u :: u in s.users && ToLower(u.username) == ToLower(username)
  }

  /** A name held exactly by some user is reported as taken unless it is blank. */
  lemma ExactNameIsTaken(s: Store, u: User)
    requires u in s.users && !IsBlank(u.username)
    ensures IsUsernameTaken(s, u.username)
  {
  }

  /** The student `studentId` shares a subject with `teacherId`. */
  predicate SharesSubject(s: Store, teacherId: int, studentId: int) {
    exists e :: e in s.enrollments && e.userId == studentId && UserSubject(teacherId, e.subjectId) in s.enrollments
  }

  /** `GetStudentsByTeacherClassAsync`: empty when the teacher has no subject,
      otherwise the Student-role users enrolled in one of the teacher's subjects. */
  function StudentsOfTeacher(s: Store, teacherId: int): (r: seq<User>)
    ensures SubjectIdsOf(s, teacherId) == {} ==> r == []
    ensures forall u :: u in r <==> u in s.users && u.role == Student && SharesSubject(s, teacherId, u.id)
  {
    var teacherSubjects := SubjectIdsOf(s, teacherId);
    if teacherSubjects == {} then []
    else Seqs.Filter(s.users, (u: User) => u.role == Student &&
           exists e :: e in s.enrollments && e.userId == u.id && e.subjectId in teacherSubjects)
  }

  /** Each student is listed once, however many subjects they share with the teacher. */
  lemma StudentsOfTeacherListedOnce(s: Store, teacherId: int)
    requires Valid(s)
    ensures Seqs.NoDuplicates(StudentsOfTeacher(s, teacherId))
  {
    var teacherSubjects := SubjectIdsOf(s, teacherId);
    if teacherSubjects != {} {
      Seqs.FilterNoDuplicates(s.users, (u: User) => u.role == Student &&
           exists e :: e in s.enrollments && e.userId == u.id && e.subjectId in teacherSubjects);
    }
  }

  // ---- the raw phone-number update ----

  const PhoneUpdatePrefix: string := "UPDATE Users SET PhoneNumber = '"

  /** The statement `UpdatePhoneNumberAsync` builds by concatenation, before
      the data layer formats it (`PhoneStatementSent`). Read as it stands, its
      literal is exactly the given number, followed by the `WHERE` clause, if
      and only if the number holds no quote; a quote ends the literal early or
      is read as an escaped quote, and the rest is read as SQL. */
  function PhoneUpdateStatement(userId: int, phone: string): (r: string)
    ensures StartsWith(r, PhoneUpdatePrefix)
    ensures Quoting.ReadQuoted(r[|PhoneUpdatePrefix|..], '\'') == Some((phone, " WHERE Id = " + IntToString(userId)))
            <==> '\'' !in phone
  {
    var rest := " WHERE Id = " + IntToString(userId);
    var r := PhoneUpdatePrefix + phone + "'" + rest;
    assert r[|PhoneUpdatePrefix|..] == phone + "'" + rest;
    if '\'' !in phone then
      Quoting.DoubledOfQuoteFree(phone, '\'');
      Quoting.ReadDoubled(phone, '\'', rest);
      r
    else
      Quoting.UndoubledMisread(phone, '\'', rest);
      r
  }

  /** The statement is the intended update exactly when the number's quotes
      come in pairs: its literal then reads back as the number with each pair
      read as one quote, followed by the `WHERE` clause and nothing else. */
  lemma PhoneStatementReads(userId: int, phone: string, v: string)
    ensures Quoting.ReadQuoted(PhoneUpdateStatement(userId, phone)[|PhoneUpdatePrefix|..], '\'') == Some((v, " WHERE Id = " + IntToString(userId)))
            <==> Quoting.Undoubled(phone, '\'') == Some(v)
  {
    var rest := " WHERE Id = " + IntToString(userId);
    assert PhoneUpdateStatement(userId, phone)[|PhoneUpdatePrefix|..] == phone + ['\''] + rest;
    Quoting.LiteralReads(phone, '\'', rest, v);
  }

  /** The text the statement itself contributes holds no brace. */
  lemma PhoneFrameBraceFree(userId: int)
    ensures RawSql.BraceFree(PhoneUpdatePrefix) && RawSql.BraceFree("'" + (" WHERE Id = " + IntToString(userId)))
  {
    assert '{' !in PhoneUpdatePrefix && '}' !in PhoneUpdatePrefix by {
      hide *;
    }
    RawSql.IntTextBraceFree(userId);
  }

  /** What reaches the database: the data layer formats the statement with
      no arguments, which touches only the number's braces. The statement is
      sent as the one built from the formatted number, or not at all when the
      number's braces do not format. */

  lemma PhoneStatementSent(userId: int, phone: string)
    ensures RawSql.Format(PhoneUpdateStatement(userId, phone)) ==
      if RawSql.Format(phone).Some? then Some(PhoneUpdateStatement(userId, RawSql.Format(phone).value)) else None
  {
    hide RawSql.Format;
    var after := "'" + (" WHERE Id = " + IntToString(userId));
    PhoneFrameBraceFree(userId);
    RawSql.FormatAround(PhoneUpdatePrefix, phone, after);
    assert PhoneUpdateStatement(userId, phone) == PhoneUpdatePrefix + phone + after;
    if RawSql.Format(phone).Some? {
      assert PhoneUpdateStatement(userId, RawSql.Format(phone).value) == PhoneUpdatePrefix + RawSql.Format(phone).value + after;
    }
  }

  /** The message the wrapper puts on a failure: its kind, then the statement. */
  function FailureMessage(kind: string, statement: string): (r: string)
    ensures StartsWith(r, kind) && Contains(r, statement)
  {
    var r := kind + " | SQL Query: " + statement;
    assert OccursAt(r, statement, |kind + " | SQL Query: "|);
    assert r[..|kind|] == kind;
    r
  }

  /** `UpdatePhoneNumberAsync`. The number is formatted, then read as the
      body of the literal: when both succeed the statement is the intended
      update, and the user's row gets the number with each `{{`, `}}` and `''`
      read as one character. A brace that does not format fails before the
      statement runs, with a "Database Error" message; a lone quote makes the
      statement something else, modelled as a failure with an "SQL Error"
      message. Both messages expose the statement as built. */
  function UpdatePhoneNumber(s: Store, userId: int, phone: string): (r: Result<Store, string>)
    ensures r.Ok? <==> RawSql.LiteralValue(phone).Some?
    ensures r.Ok? ==> r.value == s.(users := r.value.users) && |r.value.users| == |s.users|
    ensures r.Ok? ==> forall i :: 0 <= i < |s.users| ==>
        r.value.users[i] == if s.users[i].id == userId then s.users[i].(phoneNumber := RawSql.LiteralValue(phone)) else s.users[i]
    ensures r.Err? ==> Contains(r.error, PhoneUpdateStatement(userId, phone))
    ensures r.Err? ==> (StartsWith(r.error, "Database Error") <==> RawSql.Format(phone).None?)
  {
    var statement := PhoneUpdateStatement(userId, phone);
    match RawSql.Format(phone)
    case None => Err(FailureMessage("Database Error", statement))
    case Some(sent) =>
      match Quoting.Undoubled(sent, '\'')
      case None =>
        var msg := FailureMessage("SQL Error", statement);
        assert msg[0] == 'S';
        Err(msg)
      case Some(v) => Ok(SetPhoneNumber(s, userId, v))
  }
}

=== FILE: web.dfy ===
/** What every handler shares: the signed-in principal, the authorization
    policies the attributes declare, the responses, the host the handlers run
    on, and the uploaded file. */
module Web {
  import opened Common
  import opened Text
  import opened Entities
  import opened Db
  import Paths

  /** The caller as the bearer token describes it: its user id and role claims.
      A token can outlive the user it names. */
  datatype Principal = Anonymous | SignedIn(userId: int, role: UserRole)

  /** `[AllowAnonymous]`, `[Authorize]` and `[Authorize(Roles = ...)]`; a class
      attribute and an action attribute together demand both. */
  datatype Policy = Anyone | AnySignedIn | InRole(role: UserRole)

  datatype Gate = Admitted | Challenged | Refused

  /** The authorization middleware. */
  function Admit(policy: Policy, p: Principal): (g: Gate)
    ensures g.Admitted? <==> policy.Anyone? || (p.SignedIn? && (policy.InRole? ==> p.role == policy.role))
    ensures g.Challenged? <==> !policy.Anyone? && p.Anonymous?
  {
    match policy
    case Anyone => Admitted
    case AnySignedIn => if p.Anonymous? then Challenged else Admitted
    case InRole(role) =>
      if p.Anonymous? then Challenged else if p.role == role then Admitted else Refused
  }

  /** Where the start-up middleware sends every 401 outside `/api`. */
  const LoginPage: string := "/Auth/Login"

  /** A validation or storage failure shown to the user, one case per message. */
  datatype Problem =
    | FieldsRequired
    | PasswordTooShort
    | UsernameTooLong
    | UsernameTaken
    | AdminCreationRefused
    | AdminAssignmentRefused
    | UnknownSubjects(ids: seq<int>)
    | NoClassSelected
    | FullNameRequired
    | NotAssignedToSubject
    | TitleAndContentRequired
    | ScoreOutOfRange
    | AlreadySubmitted
    | NoFile
    | FileTooLarge
    | ExtensionRefused
    | ContentTypeRefused
    | PathOutsideStorage
    | NotEnrolled
    | IncorrectOldPassword
    | InvalidLogin
    | InvalidData
    | UsernameExists
    | Storage(error: DbError)
    | SqlFailure(statement: string)
      /** "Error creating exam: " followed by the database's own message,
          whose text is not modelled. */
    | ExamNotCreated
      /** A null user dereferenced by a handler that assumed the row exists. */
    | NoSuchUser

  /** A one-shot message carried across a redirect (`TempData`). */
  datatype Flash = NoFlash | Failed(problem: Problem) | Succeeded(message: string)

  /** What a rendered view is given to display. */
  datatype ViewData =
    | NoData
    | Exams(exams: seq<Exam>)
    | ExamWithSubmission(exam: Exam, submission: Option<Submission>)
    | ExamWithSubmissions(exam: Exam, submissions: seq<Submission>)
    | Users(users: seq<User>)
    | OneUser(user: Option<User>)

  datatype Response =
    | Redirect(location: string, flash: Flash)
    | Page(view: string, data: ViewData, problems: seq<Problem>)
    | Forbidden
      /** `Forbid(text)` names an authentication scheme `text`; no handler has
          that name, so the framework raises an error instead of a 403. */
    | UnknownScheme(name: string)
    | NotFound(message: string)
    | BadRequest(message: string)
    | Json(fields: seq<(string, string)>)
    | PhysicalFile(path: string, contentType: string)
    | ServerError(cause: Problem)
      /** A successful login: the token cookie is set and the browser is sent home. */
    | SignIn(user: User, location: string)

  /** A file a handler writes: an uploaded file copied to `path`, or text. */
  datatype FileWrite = Copied(path: string) | TextFile(path: string, content: string)

  /** A handler's outcome: its response, the database after the request, and
      the files it wrote. */
  datatype Reply = Reply(response: Response, store: Store, written: seq<FileWrite>)

  /** The answer to a request the gate did not admit. */
  function Denied(g: Gate, s: Store): (r: Reply)
    requires !g.Admitted?
    ensures r.store == s && r.written == []
    ensures g.Challenged? <==> r.response == Redirect(LoginPage, NoFlash)
  {
    if g.Challenged? then Reply(Redirect(LoginPage, NoFlash), s, [])
    else Reply(Forbidden, s, [])
  }

  /** An uploaded `IFormFile`; its bytes are not modelled. */
  datatype FormFile = FormFile(length: nat, fileName: string, contentType: string)

  /** The host: content root, `Path.GetFullPath`, `File.Exists` and the
      extension-to-MIME table of `FileExtensionContentTypeProvider`. */
  datatype Host = Host(
    contentRoot: string,
    fullPath: string -> string,
    fileExists: string -> bool,
    contentTypeOf: string -> Option<string>)

  /** `ContentRoot/Storage/<folder>`. */
  function StoragePath(h: Host, folder: string): string {
    Paths.Combine(Paths.Combine(h.contentRoot, "Storage"), folder)
  }

  /** The containment check the upload and download handlers make: the
      resolved file path begins with the resolved storage path. */
  predicate InsideStorage(h: Host, storage: string, filePath: string) {
    StartsWith(h.fullPath(filePath), h.fullPath(storage))
  }

  /** The upload size caps. */
  const SubmissionMaxBytes: int := 10 * 1024 * 1024
  const AvatarMaxBytes: int := 5 * 1024 * 1024

  /** Routes under which stored files are served. */
  const SubmissionRoute: string := "/SecureFile/Submission/"
  const AvatarRoute: string := "/SecureFile/Avatar/"
}
